=== FILE: README.md ===
# HomeHelper orchestrator core in Dafny

HomeHelper runs small home-automation apps on a Raspberry Pi. It discovers
app directories, validates their manifests, and keeps a registry of apps.
It hands out ports from a range, runs service apps under systemd (or as
background processes on macOS), and launches Streamlit apps on demand.
It health-checks running services, restarting them after repeated failures,
and shows app data, system status and logs.

This project models that bookkeeping as functional state machines. Each
transition is a pure function over immutable records of maps: the port
table, the registry, the process tables and the failure counters. Every
touch of the operating system is an input:
- the set of bindable ports and the set of live pids;
- the exit code, stdout and stderr of a `systemctl`/`journalctl` run
  (`Env.CmdResult`);
- whether a spawn or a file read returned or raised (`Env.Outcome`);
- the clock, as whole seconds.

Modules follow the source:

| module | models |
|---|---|
| `Apps` | the manifest schema and the registry entry |
| `Registry` | the app registry |
| `Records` | the registry's to_dict/from_dict |
| `Discovery` | the directory scan |
| `AppManager` | prepare_app and the statistics |
| `Ports` | the port allocator |
| `Services` | the systemd unit text, the status parser and the control results |
| `Health` | the health monitor |
| `Processes` | the macOS background-process launcher |
| `Streamlit` | the on-demand launcher with its idle sweep |
| `Ui` | the HTML table renderer |
| `SystemMonitor` | the status thresholds, memory figures and process de-duplication |
| `Logs` | the log reader |

`Text`, `JsonData`, `Wrappers` and `Env` hold the string, JSON, option and
environment vocabulary the others share.

## Model

All source paths are under `src/homehelper/` unless they start with `tests/` or `apps/`.

| member | source | states |
|---|---|---|
| Apps.ParseAppType | src/homehelper/managers/app_manager.py:24-28 | AppType(s) succeeds exactly for the two enum values and returns the member whose value is s |
| Apps.AppTypeRoundTrip | src/homehelper/managers/app_manager.py:24-28 | an app type written as its value parses back to itself |
| Apps.ParseAppStatus | src/homehelper/managers/app_manager.py:30-39 | AppStatus(s) succeeds exactly for the eight status values, returning the member with that value |
| Apps.AppStatusRoundTrip | src/homehelper/managers/app_manager.py:30-39 | every status written as its value parses back to itself |
| Apps.VersionMatchesShape | src/homehelper/managers/app_manager.py:62 | the left-to-right scan of `^\d+\.\d+\.\d+$` accepts exactly three non-empty digit runs separated by dots |
| Apps.MatchRunSplit | src/homehelper/managers/app_manager.py:62 | a digit run followed by `dots` ".digits" groups is the same as splitting at '.' into dots+1 non-empty digit strings |
| Apps.ParseBool | src/homehelper/managers/app_manager.py:43-47 | a JSON boolean is taken as is; the integers 0 and 1 give false and true; a string is false or true exactly when its lower-case form is one of pydantic's false or true words; null, lists and objects are rejected |
| Apps.ParseBoolIgnoresCase | src/homehelper/managers/app_manager.py:43-47 | two strings equal up to case parse to the same bool, and parse at all exactly when the lower-case form is one of the accepted words |
| Apps.ValidateConfig | src/homehelper/managers/app_manager.py:42-50 | an accepted config has a restart policy among always, on-failure and never; {} gives the defaults; a non-object is rejected |
| Apps.ValidateInstall | src/homehelper/managers/app_manager.py:52-55 | {} gives the default install section and a non-object is rejected |
| Apps.StringField | src/homehelper/managers/app_manager.py:58-64 | a string field is accepted exactly when it is present, a string, and within its length window |
| Apps.ValidateManifest | src/homehelper/managers/app_manager.py:57-70 | an accepted manifest satisfies every schema rule: version shape, name 1-50, description 1-200, author 1-100, non-empty main_file, known type and restart policy |
| Apps.ConfigRoundTrip | src/homehelper/managers/app_manager.py:42-50 | a config with a valid restart policy survives model_dump followed by validation |
| Apps.InstallRoundTrip | src/homehelper/managers/app_manager.py:52-55 | an install section survives model_dump followed by validation |
| Apps.ManifestRoundTrip | src/homehelper/managers/app_manager.py:57-70 | every manifest the schema accepts survives model_dump followed by validation |
| Records.ReadTime | src/homehelper/managers/app_manager.py:96-99 | a timestamp written as text is read back as the same instant |
| Records.RuntimeToJson | src/homehelper/managers/app_manager.py:83-91 | to_dict writes exactly the seven runtime keys |
| Records.ReadOptTime | src/homehelper/managers/app_manager.py:96-99 | a missing timestamp key reads as None |
| Records.RuntimeFromJson | src/homehelper/managers/app_manager.py:93-100 | from_dict only accepts objects whose keys are runtime keys; {} gives the empty runtime record |
| Records.RuntimeRoundTrip | src/homehelper/managers/app_manager.py:83-100 | from_dict(to_dict(ri)) is ri: port, pid, timestamps and error message all survive |
| Records.EntryToJson | src/homehelper/managers/app_manager.py:117-127 | to_dict writes exactly the eleven entry keys |
| Records.EntryFromJson | src/homehelper/managers/app_manager.py:130-139 | from_dict requires all eleven keys, and app_id and path come from their string fields |
| Records.EntryRoundTrip | src/homehelper/managers/app_manager.py:117-139 | an entry with a schema-valid manifest survives to_dict then from_dict unchanged: type, status, path, timestamps, runtime |
| Records.SaveApps | src/homehelper/managers/app_manager.py:182-188 | the saved `apps` object has one to_dict record under each registered id and nothing else |
| Records.LoadApps | src/homehelper/managers/app_manager.py:160-172 | loading keeps exactly the records that from_dict accepts, each under its key, and skips the others |
| Records.SaveLoadRoundTrip | src/homehelper/managers/app_manager.py:160-200 | loading what was saved gives back the same registry when every manifest is schema-valid |
| Registry.Empty | src/homehelper/managers/app_manager.py:145-158 | a new registry is valid and holds no apps |
| Registry.AllApps | src/homehelper/managers/app_manager.py:245-247 | get_all_apps lists every entry once, in insertion order |
| Registry.Register | src/homehelper/managers/app_manager.py:202-211 | register_app stores the entry under its id (overwriting keeps the id's position, a new id goes last) and saves |
| Registry.Set | src/homehelper/managers/app_manager.py:220-221 | setattr changes the named attribute and leaves every other attribute and the id as they were |
| Registry.GetDeterminesEntry | src/homehelper/managers/app_manager.py:103-115 | two entries with the same id and the same attributes are equal |
| Registry.ApplyKwargsGet | src/homehelper/managers/app_manager.py:219-221 | after the kwargs loop each attribute holds the last value given for it, or its old value; unknown keys are ignored |
| Registry.UpdateApp | src/homehelper/managers/app_manager.py:213-230 | update_app is False with no change for an unknown id; otherwise it touches only that entry, stamps last_updated and saves |
| Registry.UpdateAppFields | src/homehelper/managers/app_manager.py:219-226 | the updated entry's attributes are the last kwargs values or the old ones, and last_updated is now |
| Registry.SetRuntime | src/homehelper/managers/process_manager_macos.py:110-112 | a direct assignment to runtime_info changes the in-memory entry but not what was last saved |
| Registry.SetStatus | src/homehelper/managers/app_manager.py:213-230 | update_app(status=s) sets status and last_updated on that entry only, and saves |
| Registry.SetStatusAndRuntime | src/homehelper/managers/app_manager.py:213-230 | update_app(status, runtime_info) sets both on that entry only, and saves |
| Registry.StatusAndRuntimeKwargs | src/homehelper/managers/app_manager.py:219-221 | the two-keyword update is well typed and sets exactly status and runtime_info |
| Registry.SetRuntimeSaved | src/homehelper/managers/app_manager.py:213-230 | update_app(runtime_info) replaces that entry's runtime record only, and saves |
| Registry.SetErrorMessage | src/homehelper/managers/app_manager.py:488-503 | an error message written straight into runtime_info changes only that field of that entry |
| Registry.Remove | src/homehelper/managers/app_manager.py:235 | deleting an id keeps every other id, in order |
| Registry.RemoveDistinct | src/homehelper/managers/app_manager.py:235 | deleting keeps the ids free of duplicates |
| Registry.UnregisterApp | src/homehelper/managers/app_manager.py:232-239 | unregister_app is True exactly when the id was present; afterwards it is absent and every other entry is unchanged |
| Registry.GetApp | src/homehelper/managers/app_manager.py:241-243 | get_app finds an entry exactly when its id is registered |
| Registry.GetAppsByType | src/homehelper/managers/app_manager.py:249-251 | the result holds exactly the registered entries of that type |
| Registry.GetAppsByStatus | src/homehelper/managers/app_manager.py:253-255 | the result holds exactly the registered entries with that status |
| Registry.FilterStatusCount | src/homehelper/managers/app_manager.py:253-255 | the status filter returns as many entries as carry that status |
| Registry.FilterTypeCount | src/homehelper/managers/app_manager.py:249-251 | the type filter returns as many entries as carry that type |
| Registry.StatusCountsPartition | src/homehelper/managers/app_manager.py:553-561 | the eight per-status counts add up to the number of entries |
| Registry.TypeCountsPartition | src/homehelper/managers/app_manager.py:553-562 | the two per-type counts add up to the number of entries |
| Discovery.BaseId | src/homehelper/managers/app_manager.py:371 | the base id keeps the directory name's length; each character is the lower-cased one, with space and underscore turned into '-'; so no space, underscore or upper-case letter remains |
| Discovery.CandidateInjective | src/homehelper/managers/app_manager.py:374-378 | the candidates base, base-1, base-2, ... are pairwise different |
| Discovery.CandidatesBound | src/homehelper/managers/app_manager.py:374-378 | n registered candidates need n registered entries, so the suffix loop ends |
| Discovery.GenerateAppId | src/homehelper/managers/app_manager.py:368-380 | the generated id is never registered, and is the base itself when the base is free |
| Discovery.GenerateAppIdLeast | src/homehelper/managers/app_manager.py:374-380 | the generated id is one of the candidates base or base-k |
| Discovery.FindAppId | src/homehelper/managers/app_manager.py:303-308 | the corrected lookup lands on a free id or on the entry already registered for this path |
| Discovery.ParseManifest | src/homehelper/managers/app_manager.py:338-366 | a manifest is used exactly when it reads, validates, and its main_file exists in the directory |
| Discovery.UpdateExistingEntry | src/homehelper/managers/app_manager.py:382-392 | refreshing an entry sets manifest, path, version, description and status DISCOVERED, stamps last_updated, and keeps every other attribute |
| Discovery.Place | src/homehelper/managers/app_manager.py:301-326 | a new id gets a DISCOVERED entry and counts 1; a known id is refreshed in place and counts 0; other entries are kept |
| Discovery.Step | src/homehelper/managers/app_manager.py:284-332 | a skipped directory leaves the registry unchanged; otherwise one entry is placed; the count is the growth of the registry |
| Discovery.Scan | src/homehelper/managers/app_manager.py:284-332 | the scan only adds entries and counts at most the accepted directories |
| Discovery.DiscoverApps | src/homehelper/managers/app_manager.py:271-336 | discover_apps as written only adds entries and returns how many it added |
| Discovery.DiscoverAppsFixed | src/homehelper/managers/app_manager.py:271-336 | the corrected discovery only adds entries and returns how many it added |
| Discovery.StepAsWrittenRegisters | src/homehelper/managers/app_manager.py:303-314 | as written every accepted directory registers a new entry, so the update branch is never taken |
| Discovery.DiscoverAppsCount | src/homehelper/managers/app_manager.py:284-336 | as written the count is the number of accepted directories, whatever is registered |
| Discovery.RediscoveryDuplicates | src/homehelper/managers/app_manager.py:303-314 | scanning an unchanged listing again adds a second entry for each accepted directory |
| Discovery.StepSettles | src/homehelper/managers/app_manager.py:303-326 | after the corrected step the directory's lookup lands on its own entry |
| Discovery.ScanSettlesAll | src/homehelper/managers/app_manager.py:284-332 | after a corrected scan every accepted directory has its entry |
| Discovery.ScanOverSettledNoop | src/homehelper/managers/app_manager.py:303-308 | a corrected scan over settled directories changes nothing and counts 0 |
| Discovery.DiscoverAppsFixedIdempotent | src/homehelper/managers/app_manager.py:271-336 | corrected discovery run twice on the same listing changes nothing the second time and returns 0 |
| AppManager.InstallDependencies | src/homehelper/managers/app_manager.py:394-459 | success when there is nothing to install or the install worked (status READY); a failure records its message; other entries kept |
| AppManager.RunSetupCommands | src/homehelper/managers/app_manager.py:461-503 | success exactly when there are no commands or none failed; a failure records the failing command's message |
| AppManager.AssignPort | src/homehelper/managers/app_manager.py:531-541 | the port comes from allocate_port; success records it as assigned_port, failure sets ERROR with "Failed to allocate port" |
| AppManager.PrepareApp | src/homehelper/managers/app_manager.py:505-544 | missing app is False with no change; READY is True with no change; success ends READY, and a service app then has its port |
| AppManager.PreparePortFailure | src/homehelper/managers/app_manager.py:531-541 | a service app whose allocation fails ends in ERROR with "Failed to allocate port" and False |
| AppManager.PrepareSetupFailure | src/homehelper/managers/app_manager.py:526-529 | a failing setup command makes prepare_app return False and record that command's error |
| AppManager.RequirementsAttribute | src/homehelper/managers/app_manager.py:409 | reading manifest.requirements raises, since the schema declares no such field |
| AppManager.PrepareAppAsWritten | src/homehelper/managers/app_manager.py:505-544 | as written, every existing app that is not READY reaches the requirements lookup and raises |
| AppManager.GetAppStatistics | src/homehelper/managers/app_manager.py:546-564 | total_apps is the entry count; each breakdown lists exactly the statuses or types present with their counts; ready/running/error counts |
| AppManager.CountsPositive | src/homehelper/managers/app_manager.py:546-564 | a status or type has a positive count exactly when some entry carries it |
| AppManager.AppStatisticsSum | src/homehelper/managers/app_manager.py:546-564 | the status breakdown and the type breakdown each add up to total_apps |
| Ports.Init | src/homehelper/managers/port_manager.py:44-57 | a new manager has the configured range and no allocations |
| Ports.FirstFree | src/homehelper/managers/port_manager.py:99-103 | the scan returns the least in-range port at or after its start that is unallocated and bindable, or None if there is none |
| Ports.Reserve | src/homehelper/managers/port_manager.py:108-122 | a specific allocation adds the app to both maps as 'allocated' and keeps them mutual inverses |
| Ports.ReleasePort | src/homehelper/managers/port_manager.py:124-147 | release_port is False with no change for an app without a port; otherwise exactly that app's entries leave both maps |
| Ports.AllocatePort | src/homehelper/managers/port_manager.py:68-106 | reuse a bindable held port; else the usable preferred port, else the least free port; None leaves the app without allocation; maps stay inverse and in range; the allocation records of every other app are kept exactly, and no new record belongs to another app |
| Ports.MarkPortInUse | src/homehelper/managers/port_manager.py:153-164 | True exactly when the app holds a port, whose record then becomes 'in_use'; nothing else changes |
| Ports.AvailableFrom | src/homehelper/managers/port_manager.py:170-176 | the ports listed from a start are ascending and are exactly the free ones |
| Ports.GetAvailablePorts | src/homehelper/managers/port_manager.py:170-176 | the list is ascending and holds exactly the in-range, unallocated, bindable ports |
| Ports.RangeSetSize | src/homehelper/managers/port_manager.py:171 | the range holds end-start+1 ports |
| Ports.AvailableFromSize | src/homehelper/managers/port_manager.py:170-176 | the list has one element per free port |
| Ports.AvailableCount | src/homehelper/managers/port_manager.py:170-176 | with every port bindable, (end-start+1) minus the allocation count ports are available |
| Ports.CleanupStaleAllocations | src/homehelper/managers/port_manager.py:178-205 | releases exactly the 'allocated', bindable apps older than 3600 s, returns their number, and never an 'in_use' one |
| Ports.StatusBreakdown | src/homehelper/managers/port_manager.py:213-219 | one count per status some allocation carries, equal to that status's number of ports |
| Ports.TypeBreakdown | src/homehelper/managers/port_manager.py:219-222 | one count per app type some allocation carries, equal to that type's number of ports |
| Ports.GetPortStatistics | src/homehelper/managers/port_manager.py:207-228 | total is the range size, allocated the allocation count, available the free-port count |
| Ports.StatusBreakdownSum | src/homehelper/managers/port_manager.py:207-228 | the status breakdown adds up to allocated_ports |
| Ports.AllocateReleaseRoundTrip | src/homehelper/managers/port_manager.py:68-147 | releasing right after a fresh allocation restores the table exactly |
| Ports.InUseNotStale | src/homehelper/managers/port_manager.py:153-205 | a port marked in use is never reclaimed by the stale sweep |
| Services.UnitName | src/homehelper/managers/service_manager.py:94 | every unit name is "homehelper-" + app id + ".service" |
| Services.UnitNameRoundTrip | src/homehelper/managers/service_manager.py:193 | the app id can be read back from its unit name |
| Services.UnitAppIdInverse | src/homehelper/managers/service_manager.py:229 | every name that follows the scheme is the unit of the id read from it |
| Services.UnitNameInjective | src/homehelper/managers/service_manager.py:229 | two apps never share a unit |
| Services.ExecArgs | src/homehelper/managers/service_manager.py:116-130 | ExecStart is python, main_file, --port, port, then --data-dir and --logs-dir in that order, each only when its flag is set |
| Services.ExecArgsPort | src/homehelper/managers/service_manager.py:116-118 | the port on the ExecStart line reads back as the assigned port |
| Services.EnvironmentVars | src/homehelper/managers/service_manager.py:133-139 | Redis host and port lines (and a password line when one is set) appear exactly when redis_required |
| Services.RestartPolicy | src/homehelper/managers/service_manager.py:146-149 | the unit's Restart= is the manifest policy, "always" without a config |
| Services.UnitLines | src/homehelper/managers/service_manager.py:151-174 | the unit's lines: [Unit] with Description, After=network.target, Wants=network.target and a blank line; [Service] with Type=simple, User, WorkingDirectory, ExecStart, Restart, RestartSec=5, StandardOutput=journal, StandardError=journal, SyslogIdentifier; one Environment line per variable; then the Install section |
| Services.GenerateServiceTemplate | src/homehelper/managers/service_manager.py:96-176 | None exactly for a missing app, a non-service app or no (zero) port; otherwise text from [Unit] to "[Install]\nWantedBy=default.target\n" |
| Services.UnitTextEnds | src/homehelper/managers/service_manager.py:151-174 | lines that start with [Unit] and end with the Install section give text with that prefix and suffix |
| Services.TemplateReadBack | src/homehelper/managers/service_manager.py:96-176 | the template split at newlines gives back its lines and a final empty line |
| Services.EnvironmentVarsAsWritten | src/homehelper/managers/service_manager.py:133-139 | against the declared Redis settings (no password field) the template raises exactly for Redis apps |
| Services.RedisWithoutPassword | src/homehelper/core/config.py:12-15 | as written a Redis app's template raises; the corrected one writes host and port only |
| Services.ParseServiceStatus | src/homehelper/managers/service_manager.py:370-385 | an ActiveState maps to its member; anything outside the five names is UNKNOWN |
| Services.ParseServiceState | src/homehelper/managers/service_manager.py:378-386 | a SubState maps to its member; anything outside the four names is UNKNOWN |
| Services.ServiceStatusRoundTrip | src/homehelper/managers/service_manager.py:22-30 | each status name parses back to its member |
| Services.ServiceStateRoundTrip | src/homehelper/managers/service_manager.py:32-39 | each state name parses back to its member |
| Services.SplitAtFirst | src/homehelper/managers/service_manager.py:365-366 | line.split('=', 1) gives a key free of '=' and the rest, and they rebuild the line |
| Services.SplitAtFirstKey | src/homehelper/managers/service_manager.py:365-366 | key=value with a key free of '=' splits back to that key and value |
| Services.ParsePropertiesLastWins | src/homehelper/managers/service_manager.py:363-367 | a key is present exactly when some line defines it, and its value is the last such line's |
| Services.ReadServiceStatus | src/homehelper/managers/service_manager.py:338-411 | None exactly when systemctl fails or MainPID is neither "0" nor an integer; otherwise the states map from their properties, MainPID "0" or absent gives no pid |
| Services.ShowOutputRoundTrip | src/homehelper/managers/service_manager.py:359-398 | reading systemctl's own three-property output gives back the states and the pid |
| Services.GetServiceStatus | src/homehelper/managers/service_manager.py:338-411 | a record read is stored in the manager's table; a failed read changes nothing |
| Services.StartService | src/homehelper/managers/service_manager.py:218-268 | rc 0 sets RUNNING and returns True; otherwise ERROR with "Failed to start service: " + stderr and False |
| Services.StopService | src/homehelper/managers/service_manager.py:270-300 | rc 0 sets STOPPED and returns True; a failure leaves the registry untouched |
| Services.RestartService | src/homehelper/managers/service_manager.py:302-336 | on success a tracked record counts one more restart and the app is RUNNING; a failure changes nothing |
| Services.RestartCountResetByQuery | src/homehelper/managers/service_manager.py:325 | a status query after a restart replaces the record and the counted restart is lost |
| Services.GetServiceLogs | src/homehelper/managers/service_manager.py:463-491 | [] when journalctl fails or the stripped output is empty; otherwise lines free of newlines that, joined with newlines, give back the stripped output |
| Services.LogsRoundTrip | src/homehelper/managers/service_manager.py:483-484 | journalctl output of whole lines reads back as exactly those lines |
| Services.QueryAll | src/homehelper/managers/service_manager.py:600-611 | the loop collects exactly the ids whose query succeeds, each with its record |
| Services.QueryAllTable | src/homehelper/managers/service_manager.py:600-611 | after the loop the table holds every record found and keeps the records of the other apps |
| Services.GetAllServiceStatuses | src/homehelper/managers/service_manager.py:593-611 | exactly the service apps in READY, RUNNING or STOPPED whose status reads are reported, each with its record |
| Services.GetServiceStatistics | src/homehelper/managers/service_manager.py:613-640 | running_services counts ACTIVE records; the breakdown counts each status; total_memory sums ACTIVE records only |
| Services.ServiceCountsPartition | src/homehelper/managers/service_manager.py:613-640 | the status breakdown adds up to total_services |
| Health.ParseHealth | src/homehelper/managers/health_monitor.py:197-206 | "good", "warning" and "error" map to their status; any other text is UNKNOWN |
| Health.HealthRoundTrip | src/homehelper/managers/health_monitor.py:21-28 | each health status name maps back to its status |
| Health.NewMonitor | src/homehelper/managers/health_monitor.py:70-89 | a new monitor is stopped with no results |
| Health.CountFailure | src/homehelper/managers/health_monitor.py:251-262 | one failure adds exactly 1 to the app's count and records an ERROR result carrying the message |
| Health.MarkUnhealthy | src/homehelper/managers/health_monitor.py:267-278 | at the threshold the app becomes ERROR with "Health check failures: " + message, and nothing else changes |
| Health.RecordFailure | src/homehelper/managers/health_monitor.py:251-278 | below the threshold the registry is untouched; at or above it the app is marked unhealthy |
| Health.AttemptRestart | src/homehelper/managers/health_monitor.py:285-306 | a successful restart resets the count to 0; a failed one changes nothing |
| Health.HandleFailure | src/homehelper/managers/health_monitor.py:243-283 | the count goes up by 1 unless a restart at max_failures succeeds (then 0); ERROR from the threshold on |
| Health.RestartRepeats | src/homehelper/managers/health_monitor.py:281-283 | because the test is >=, every failure after max_failures attempts a restart again |
| Health.ReadBody | src/homehelper/managers/health_monitor.py:189-206 | a body without "health" is UNKNOWN; a string is mapped by name; a missing message is "No message provided"; `extra_info` is passed on as sent, or an empty object when absent |
| Health.CheckAppHealth | src/homehelper/managers/health_monitor.py:166-241 | a missing app or one without a port gives None and no change; a result only comes from a 200 answer with an object body, and carries that body's `extra_info` (an empty object when absent) |
| Health.RecordAnswer | src/homehelper/managers/health_monitor.py:208-221 | good or warning resets the count to 0; any other status goes through the failure handler |
| Health.StampCheck | src/homehelper/managers/health_monitor.py:223-225 | the check stamps last_health_check and saves that entry only |
| Health.Answered | src/homehelper/managers/health_monitor.py:189-227 | a 200 answer returns the result with its status, message and extra information, records it, and stamps the check time |
| Health.UnlabelledBodyFails | src/homehelper/managers/health_monitor.py:189-221 | a 200 object answer with neither "health" nor "message" is returned as UNKNOWN with "No message provided", and the app's stored result is an ERROR |
| Health.SampleBodyCountsAsFailure | apps/sample-service/main.py:43-48 | the sample service's {"status": "healthy"} body reads as UNKNOWN and counts as a failure |
| Health.LabelledSampleBodyIsGood | src/homehelper/managers/health_monitor.py:189-221 | the same body with "health": "good" and a "message" is a GOOD result carrying that message, and the count is reset to 0 |
| Health.RunningServiceApps | src/homehelper/managers/health_monitor.py:143-144 | exactly the service apps in RUNNING, in registry order |
| Health.CheckedApps | src/homehelper/managers/health_monitor.py:150-155 | exactly the running service apps with has_UI get a check |
| Health.SelectUIShorter | src/homehelper/managers/health_monitor.py:143-155 | there are never more checked apps than running apps |
| Health.RunChecks | src/homehelper/managers/health_monitor.py:150-158 | apps outside the round keep their failure counts |
| Health.PerformHealthChecks | src/homehelper/managers/health_monitor.py:140-165 | as written, only running service apps' counts can change |
| Health.PerformHealthChecksFixed | src/homehelper/managers/health_monitor.py:140-165 | with failures charged to the checked app, only checked apps' counts can change |
| Health.MisattributedFailure | src/homehelper/managers/health_monitor.py:150-165 | as written, when the second of two running apps (the first without a UI) times out and its failure handling then raises, each app ends with one failure: the raise is charged to the unchecked first app |
| Health.RaiseChargedToCheckedApp | src/homehelper/managers/health_monitor.py:150-165 | in the same round with raises charged to the app checked, the first app keeps no failures and the second has two |
| Health.CheckTimesOut | src/homehelper/managers/health_monitor.py:166-183 | a timed-out check of an app with a port, whose restart fails, counts one failure for that app and none for any other |
| Health.ErrorStopsChecks | src/homehelper/managers/health_monitor.py:267-283 | with default limits the second failure sets ERROR, which takes the app out of later rounds before max_failures |
| Health.StartMonitoring | src/homehelper/managers/health_monitor.py:91-105 | start is a no-op while running, and otherwise only sets the flag |
| Health.StopMonitoring | src/homehelper/managers/health_monitor.py:107-126 | stop is a no-op while stopped, and otherwise only clears the flag |
| Health.StartStopRoundTrip | src/homehelper/managers/health_monitor.py:91-126 | starting a stopped monitor and stopping it again restores it |
| Health.UpdateConfigField | src/homehelper/managers/health_monitor.py:380-390 | after update_config each existing key holds the last value given for it; unknown keys change nothing |
| Health.SetConfigField | src/homehelper/managers/health_monitor.py:384-386 | one keyword changes only the attribute it names |
| Health.GetHealthStatistics | src/homehelper/managers/health_monitor.py:332-378 | empty results give all zeros; otherwise total, the four per-status counts, and total_failures as the sum of counts |
| Health.ListingSize | src/homehelper/managers/health_monitor.py:341-348 | iterating a dict visits as many keys as it has |
| Health.HealthCountsPartition | src/homehelper/managers/health_monitor.py:341-360 | healthy + warning + error + unknown counts equal total_apps |
| Health.HealthStatisticsConsistent | src/homehelper/managers/health_monitor.py:332-378 | the statistics' counts add up to total_apps, and empty results have no failures |
| Processes.LaunchArgs | src/homehelper/managers/process_manager_macos.py:63-80 | python3, main, --port, port, then --redis-url, --data-dir and --logs-dir in that order, each only when its flag is set |
| Processes.CommandReadBack | src/homehelper/managers/process_manager_macos.py:63-80 | the recorded command line splits back into its arguments |
| Processes.AbortStart | src/homehelper/managers/process_manager_macos.py:117-122 | a failed start forgets the entry and releases the port |
| Processes.StartFresh | src/homehelper/managers/process_manager_macos.py:47-122 | past the checks, a success tracks the spawned pid on the allocated port and marks the app RUNNING; a missing main file or failed spawn releases the port and leaves the registry alone |
| Processes.StartApp | src/homehelper/managers/process_manager_macos.py:28-122 | missing or non-service app is False with no change; an alive tracked app is True with no change; failures track nothing and release the port |
| Processes.Spawned | src/homehelper/managers/process_manager_macos.py:96-115 | as written the saved registry shows RUNNING before port, pid and start time are written |
| Processes.SpawnedFixed | src/homehelper/managers/process_manager_macos.py:96-115 | with the runtime fields set before the saving update, the saved registry equals the in-memory one |
| Processes.SavedRuntimeStale | src/homehelper/managers/process_manager_macos.py:105-112 | after a start as written, the saved record lacks the new port and pid |
| Processes.StopApp | src/homehelper/managers/process_manager_macos.py:124-166 | untracked is False with no change; otherwise the port is released, the app saved 'stopped' and the entry removed |
| Processes.GetAppStatus | src/homehelper/managers/process_manager_macos.py:168-184 | "stopped" when untracked, "running" when the pid is alive; a dead pid is removed, its port released, and "error" returned |
| Processes.StatusSettles | src/homehelper/managers/process_manager_macos.py:168-184 | asking again after "error" gives "stopped" |
| Processes.RestartApp | src/homehelper/managers/process_manager_macos.py:214-218 | restart is a stop followed by a start |
| Processes.RestartSpawnsAfresh | src/homehelper/managers/process_manager_macos.py:214-218 | after a successful stop the start cannot take the already-running shortcut |
| Processes.StopAll | src/homehelper/managers/process_manager_macos.py:220-224 | exactly the processes that could not be stopped remain, unchanged |
| Processes.StopAllEmpties | src/homehelper/managers/process_manager_macos.py:220-224 | when every process can be stopped, stop_all empties the table |
| Processes.UptimeParts | src/homehelper/managers/process_manager_macos.py:199-200 | h*3600 + m*60 + s is the seconds, with 0 <= m, s < 60 |
| Processes.UptimeRoundTrip | src/homehelper/managers/process_manager_macos.py:199-207 | "Xh Ym Zs", "Ym Zs" or "Zs" reads back as the uptime in seconds |
| Streamlit.StreamlitArgs | src/homehelper/managers/streamlit_manager.py:96-103 | the command runs the main file with --server.port and the port |
| Streamlit.StreamlitArgsPort | src/homehelper/managers/streamlit_manager.py:96-103 | the port in the command reads back |
| Streamlit.CleanupApp | src/homehelper/managers/streamlit_manager.py:168-210 | a tracked app's port is released, registry set 'discovered' with pid and port cleared, entry removed; others untouched |
| Streamlit.StopStreamlitApp | src/homehelper/managers/streamlit_manager.py:159-166 | an untracked app gives False with no change; otherwise it is _cleanup_app |
| Streamlit.TouchApp | src/homehelper/managers/streamlit_manager.py:212-217 | only the tracked app's last_accessed changes; an untracked app changes nothing |
| Streamlit.LaunchStreamlitApp | src/homehelper/managers/streamlit_manager.py:37-157 | an alive instance returns the same port and pid and only refreshes last_accessed; a dead one is cleaned up first |
| Streamlit.Launch | src/homehelper/managers/streamlit_manager.py:69-157 | None for a missing or non-streamlit app or no port; a missing main file or a failed spawn releases the port; success tracks and sets 'running' |
| Streamlit.LaunchIdempotent | src/homehelper/managers/streamlit_manager.py:49-63 | launching an alive app twice gives the same answer and allocates nothing |
| Streamlit.CleanupEach | src/homehelper/managers/streamlit_manager.py:237-239 | exactly the listed apps whose termination works leave the table |
| Streamlit.IdleApps | src/homehelper/managers/streamlit_manager.py:229-235 | exactly the tracked apps idle strictly longer than 300 s |
| Streamlit.Sweep | src/homehelper/managers/streamlit_manager.py:226-239 | one sweep removes exactly the idle apps (whose termination works) and keeps the others unchanged |
| Streamlit.TouchProtects | src/homehelper/managers/streamlit_manager.py:212-239 | an app touched at most 300 s ago survives a sweep |
| Streamlit.IdleRemoved | src/homehelper/managers/streamlit_manager.py:226-239 | an app idle longer than 300 s is removed by a sweep |
| Streamlit.StopAll | src/homehelper/managers/streamlit_manager.py:258-263 | stop_all leaves only the apps whose termination failed, so normally an empty table |
| Text.IntToStringRoundTrip | src/homehelper/managers/service_manager.py:118 | `str(port)` reads back as the port with `int()` |
| Text.SplitJoin | src/homehelper/managers/service_manager.py:484 | joining parts free of the separator and splitting again gives the parts back |
| Text.JoinSplit | src/homehelper/managers/service_manager.py:484 | splitting at a separator gives pieces free of it that join back to the text |
| Text.Strip | src/homehelper/managers/service_manager.py:484 | `str.strip()` on the ASCII whitespace set: the result is a contiguous part of the text, with no whitespace at either end, sitting at some position of the text with only whitespace before and after it; all-whitespace text gives "" |
| Text.Sort | src/homehelper/utils/logging.py:196 | `sorted()` returns an ascending permutation of its input |
| Text.SortedSet | src/homehelper/web/ui_renderer.py:101-106 | `sorted(set(...))` is strictly ascending and holds exactly the input's elements |
| Ui.Get | src/homehelper/web/ui_renderer.py:124 | a missing key reads as ''; a present one as that key's value |
| Ui.AllKeys | src/homehelper/web/ui_renderer.py:101-104 | a key is collected exactly when some item has it |
| Ui.RemoveStrictlySorted | src/homehelper/web/ui_renderer.py:107-109 | removing 'id' keeps the sorted keys sorted |
| Ui.Columns | src/homehelper/web/ui_renderer.py:101-110 | every key of every item once; ascending, with 'id' first when present |
| Ui.Title | src/homehelper/web/ui_renderer.py:117 | title case upper-cases a letter after a non-letter and lower-cases one after a letter, keeping the length |
| Ui.Header | src/homehelper/web/ui_renderer.py:116-118 | a header keeps the key's length, shows a space wherever the key has '_', and every character is the title-casing of the key with underscores replaced |
| Ui.TitleIdempotent | src/homehelper/web/ui_renderer.py:117 | title-casing twice is title-casing once |
| Ui.FormatValue | src/homehelper/web/ui_renderer.py:133-179 | None is N/A; date keys go first; then an http/data: string under an image key becomes an `<img>` thumbnail; bool is ✅/❌; lists (under any key) Empty or "n items"; dicts "n fields"; plain text as is up to 100 characters, cut beyond |
| Ui.ImageTagShows | src/homehelper/web/ui_renderer.py:160-162 | the thumbnail tag reads back: the image source sits right after `<img src="` and the key right after the following `" alt="` |
| Ui.TruncatedShows | src/homehelper/web/ui_renderer.py:175-179 | a long text shows exactly its first 100 characters then "...", with the whole text as tooltip |
| Ui.RowCells | src/homehelper/web/ui_renderer.py:122-128 | a row has exactly one cell per column, formatted from the item's value or '' |
| Ui.BuildView | src/homehelper/web/ui_renderer.py:101-128 | the view has one header per column and, for every item, one row of cells |
| Ui.RenderTableHtml | src/homehelper/web/ui_renderer.py:87-131 | empty data gives the "No <resource> found" info alert; other data gives text that opens with the responsive table and its header row and closes with the table's closing tags |
| Ui.FindClose | src/homehelper/web/ui_renderer.py:116-118 | the first place a closing tag occurs from a start |
| Ui.ReadCellsBack | src/homehelper/web/ui_renderer.py:116-128 | a run of tagged cells free of their closing tag is read back as exactly those cells, leaving the text after them |
| Ui.ReadRowsBack | src/homehelper/web/ui_renderer.py:120-129 | rendered rows whose cells are free of `</td>` read back as exactly those rows |
| Ui.RenderViewReadsBack | src/homehelper/web/ui_renderer.py:112-131 | a rendered view whose cells avoid their closing tags reads back as the same headers and rows |
| Ui.RenderTableReadsBack | src/homehelper/web/ui_renderer.py:87-131 | the table rendered from non-empty data reads back as one header per column and one row of formatted cells per item, when no cell contains its closing tag |
| SystemMonitor.StatusName | src/homehelper/utils/system_monitor.py:203-228 | the status text is one of good, warning and error |
| SystemMonitor.DetermineStatus | src/homehelper/utils/system_monitor.py:203-228 | "error" exactly with a hardware error; "warning" exactly when a present reading passes 80/85/90/70 (strictly); otherwise "good" |
| SystemMonitor.StatusMonotone | src/homehelper/utils/system_monitor.py:216-223 | higher readings never give a better status |
| SystemMonitor.MissingReadingsAreGood | src/homehelper/utils/system_monitor.py:210-225 | with every reading missing and no error the status is good |
| SystemMonitor.StatusIsWorstReading | src/homehelper/utils/system_monitor.py:216-223 | the status is the worst of what each reading alone gives |
| SystemMonitor.Megabytes | src/homehelper/utils/system_monitor.py:61-65 | the MB figure is bytes // 1048576 |
| SystemMonitor.RoundTenth | src/homehelper/utils/system_monitor.py:64 | `round(x, 1)` gives a whole number of tenths within 0.05 of x |
| SystemMonitor.RoundTenthKeepsTenths | src/homehelper/utils/system_monitor.py:64 | a value that is already a whole number of tenths is left as it is |
| SystemMonitor.RoundTenthIdempotent | src/homehelper/utils/system_monitor.py:64 | rounding twice to one decimal is rounding once |
| SystemMonitor.MemoryMetricsOf | src/homehelper/utils/system_monitor.py:55-69 | total, used, available and free are each the whole megabytes in the byte count (bytes // 1048576); the percentage is a whole number of tenths within 0.05 of the reported one |
| SystemMonitor.MemoryPercentExample | src/homehelper/utils/system_monitor.py:64 | a reported 42.37 percent is shown as 42.4 |
| SystemMonitor.ProcessesByName | src/homehelper/utils/system_monitor.py:144-160 | at most one result per entry reached before the first entry without a name, and nothing when the first entry has none |
| SystemMonitor.ProcessesByNameSound | src/homehelper/utils/system_monitor.py:144-160 | every process returned comes from an entry reached by the scan whose name contains the pattern ignoring case and whose metrics were read |
| SystemMonitor.ProcessesByNameComplete | src/homehelper/utils/system_monitor.py:144-160 | every entry reached by the scan whose name matches and whose metrics are read is returned |
| SystemMonitor.ProcessesByNameAppend | src/homehelper/utils/system_monitor.py:148-156 | results keep table order: over named entries followed by more, the result is the first part's matches followed by the rest's |
| SystemMonitor.ProcessesByNameStops | src/homehelper/utils/system_monitor.py:148-158 | an entry without a name raises out of the loop: nothing after it contributes, and the matches so far are returned |
| SystemMonitor.FirstPerPidPids | src/homehelper/utils/system_monitor.py:171-179 | de-duplication keeps every pid |
| SystemMonitor.FirstPerPidDistinct | src/homehelper/utils/system_monitor.py:171-179 | de-duplication keeps no pid twice |
| SystemMonitor.FirstPerPidFirsts | src/homehelper/utils/system_monitor.py:171-179 | the kept entries are exactly the first entries of their pid |
| SystemMonitor.DedupByPid | src/homehelper/utils/system_monitor.py:171-179 | the seen-set loop keeps exactly the first entry of each pid, in order, and loses no pid |
| SystemMonitor.HomehelperProcesses | src/homehelper/utils/system_monitor.py:162-179 | the list is the first entry of each pid among the three patterns' matches taken in pattern order, so it has distinct pids and covers every matched pid |
| SystemMonitor.SystemSummary | src/homehelper/utils/system_monitor.py:181-201 | the summary carries the hardware readings and time it was given, the de-duplicated process list and its length, and status "error" exactly with a hardware error |
| Logs.SliceFrom | src/homehelper/utils/logging.py:184 | `xs[start:]` is a suffix of xs: len(xs) - start elements for a start inside, none past the end; a negative start keeps the last -start elements, or all of xs when -start exceeds its length |
| Logs.LastLines | src/homehelper/utils/logging.py:184 | xs[-n:] is the last n elements for n > 0, and everything for n = 0 |
| Logs.BackupNames | src/homehelper/utils/logging.py:130-133 | the k rotated files app.log.1 ... app.log.k |
| Logs.AppLogFiles | src/homehelper/utils/logging.py:117-135 | none without the directory; otherwise exactly the main file and the backups that exist, at most 11 |
| Logs.KeepLevel | src/homehelper/utils/logging.py:167-171 | with a level, exactly the lines containing " - LEVEL - " (upper-cased); without one, all lines |
| Logs.KeepLevelOne | src/homehelper/utils/logging.py:167-171 | a single line is kept exactly when there is no level or it contains " - LEVEL - " |
| Logs.KeepLevelAppend | src/homehelper/utils/logging.py:167-171 | filtering two runs of lines one after the other gives the two filtered runs in the same order, so lines keep their order and multiplicity |
| Logs.StopFrom | src/homehelper/utils/logging.py:161-177 | the loop's stopping point: the first readable file whose lines bring the count to `lines`, or the end of the list when none does; no earlier file stops it |
| Logs.Gather | src/homehelper/utils/logging.py:161-177 | the result is the lines gathered so far followed by the kept lines of exactly the files up to the stopping point, newest file first; unreadable files add nothing |
| Logs.GatherKeeps | src/homehelper/utils/logging.py:161-177 | reading keeps earlier lines in front and only lines that pass the filter |
| Logs.ReadRecentLogs | src/homehelper/utils/logging.py:137-184 | no files give []; at most `lines` lines for lines > 0; every line passes the filter; otherwise the result is the last `lines` of the kept lines of the files up to the stopping point, newest file first |
| Logs.ZeroLinesReadsOneFile | src/homehelper/utils/logging.py:176-184 | with lines = 0 the result is the first readable file's kept lines, whole |
| Logs.ReadRecentLogsFixed | src/homehelper/utils/logging.py:137-184 | the corrected reader returns the most recent `lines` kept lines, oldest first |
| Logs.GatherFixedRecent | src/homehelper/utils/logging.py:161-184 | the corrected loop's last `lines` lines are the last `lines` of all kept lines in time order |
| Logs.NewestLinesDropped | src/homehelper/utils/logging.py:174-184 | a short newest file and a longer older one: as written only the older lines come back |
| Logs.AppDirs | src/homehelper/utils/logging.py:191-194 | exactly the names of directories not starting with '.' |
| Logs.AvailableApps | src/homehelper/utils/logging.py:186-196 | sorted, and exactly the visible directory names; [] without a logs directory |

## Left out

- Sockets, subprocesses, psutil, systemctl, journalctl, `/proc`, file writes and `mkdir` are not modelled. Their results are inputs: bindable ports, live pids, command results, spawn outcomes, file contents and directory listings.
- Concurrency is not modelled: the asyncio loops, the aiohttp session, `asyncio.sleep`, and the Streamlit manager's thread and lock. Each locked method and each loop iteration is one transition.
- The Redis client, the event subscriber, `main.py`, the dashboard, the HTML fetches of the UI renderer and the sample service's own code are not part of this model. The sample service's health body is used as evidence only.
- `core/config.py` is not modelled beyond the declared Redis fields. The data, logs and Redis URL settings are plain inputs.
- `create_service_file`, `enable_service`, `disable_service` and `remove_service` are left out. They are file writes and systemctl calls with no bookkeeping beyond what start/stop show.
- The pip run and the setup shell commands are not executed. `AppManager.InstallDependencies` and `AppManager.RunSetupCommands` take their outcome as an input.
- Floats are modelled as reals only for the system-status readings and the memory percentage; these float fields are left out:
  - average_response_time;
  - utilization_percent;
  - the CPU and uptime placeholders of get_service_status;
  - temperature and disk rounding;
  - HealthCheckResult.response_time;
  - resource_usage in the runtime record.
- ISO timestamps are not represented. A timestamp is a whole number of seconds, written as its decimal text by `Records.RuntimeToJson` and `Records.EntryToJson`.
- ServiceInfo, HealthCheckResult and PortAllocation to_dict/from_dict are left out. Their timedelta and float fields are not represented.
- The date branch of `_format_value` is an input function (`date`), as are the timestamp and ISO-text conversions inside it.
- The custom environment of the unit template (`manifest.environment`) is left out. The manifest schema declares no such field, so that branch adds nothing.
- `str.title()`, `lower()` and `upper()` are modelled on ASCII letters only.
- Text.IsDigit: only the ASCII digits 0-9 count, while the version pattern's `\d` also matches the other Unicode decimal digits.
- Text.Strip: the whitespace set is ASCII whitespace plus the separators U+001C-U+001F; the Unicode whitespace that `str.strip()` also removes (U+0085, U+00A0, U+2028 and others) is kept. The same holds for `Text.IsSpace`.
- Text.ParseInt: Python's `int()` also accepts surrounding whitespace, a `+` sign, Unicode decimal digits and `_` between digits; the model rejects all of these.
- SystemMonitor.RoundTenth: Python rounds the double nearest to the reading and returns the double nearest to k/10; the model rounds the exact real half to even and returns k/10 exactly.
- Ui.RenderTableReadsBack: the renderer escapes nothing, so the read-back is promised only when no header contains `</th>` and no formatted cell contains `</td>`.
- Path joins are written as text with "/".
- The mtime ordering of log files in get_app_log_files is left out. `Logs.ReadRecentLogs` takes the files already in the order the source reads them, newest first.
- The log-handler setup functions of logging.py are left out.
- CPU, disk, temperature and per-process metric collection are left out; their results are inputs.
- The except branch of `_determine_system_status` ("unknown") is left out: the model's readings cannot raise.
- A failed registry save (logged and ignored) is not modelled; a save always takes its snapshot.
- The partial effects of a health check that raises halfway are not modelled. Only the failure charged for it by `_perform_health_checks` is.
- Registry.ApplyKwargsGet: only the entry's data attributes other than `app_id` are addressable. setattr would also overwrite `app_id` and the methods `to_dict`/`from_dict`; no caller passes them, and the model treats them as unknown keys that change nothing.
- Health.ReadBody: a `message` that is a list or an object is shown as the placeholder "[...]" or "{...}". The source keeps the value itself, and its Python repr ends up in the error text; the repr of JSON values is not modelled.
- Health.UpdateConfigField: fields are typed, so a keyword whose value has the wrong type for its attribute is ignored rather than stored. Dunder attributes are not addressable as keywords.
- Records.RuntimeFromJson: a timestamp is a number here. An empty timestamp string, which the source keeps as text, is rejected, and so is any text that is not a decimal number.
- Records.EntryFromJson, Records.EntryRoundTrip: the dataclass fields accept any type in the source; the model reads each field at its declared type, so a record with a wrongly typed field is rejected.
- JSON numbers with a fraction are not represented, so pydantic's coercion of 0.0 and 1.0 to booleans is left out.

## Findings

| source | as written | input that shows it | evidently intended | confidence | as-written member | corrected member |
|---|---|---|---|---|---|---|
| src/homehelper/managers/app_manager.py:368-380 | `_generate_app_id` always returns an unregistered id, so the "already registered, update in place" branch at lines 303-308 is dead | discover an apps directory with one valid app twice | a second discovery of an unchanged directory registers nothing new | not executed | Discovery.RediscoveryDuplicates | Discovery.DiscoverAppsFixedIdempotent |
| src/homehelper/managers/app_manager.py:409 | `prepare_app` reads `manifest.requirements`, a field the manifest schema (lines 57-70) does not declare, so it raises for every app not yet READY | prepare_app on any DISCOVERED app | requirements are read from a declared field (or skipped) and preparation proceeds | not executed | AppManager.PrepareAppAsWritten | AppManager.PrepareApp |
| src/homehelper/managers/service_manager.py:134-139 | the template reads `redis.password`, which the Redis settings (core/config.py:12-15) do not declare | generate_service_template for an app with redis_required | the password line is written only when a password is configured | not executed | Services.EnvironmentVarsAsWritten | Services.EnvironmentVars |
| src/homehelper/managers/health_monitor.py:150-165 | a raised check at task index i is charged to `running_apps[i]`, but tasks exist only for apps with a UI | two running service apps with ports, the first without a UI, after `update_config(failure_threshold="3")`: the second app's check times out and its failure handler raises a TypeError comparing the count with the string (health_monitor.py:267) from inside the except clause (lines 233-236) | the failure is charged to the app whose check raised | not executed | Health.MisattributedFailure | Health.RaiseChargedToCheckedApp |
| src/homehelper/managers/process_manager_macos.py:105-112 | `start_app` saves the registry before writing port, pid and start time, so the saved record lacks them | start_app on a service app that spawns | the saved registry holds the running app's port and pid | not executed | Processes.SavedRuntimeStale | Processes.SpawnedFixed |
| apps/sample-service/main.py:43-48 | the bundled sample service answers its health probe with a `status` key, but the monitor reads `health` and `message` (health_monitor.py:197-198) | a 200 answer from the sample service | the sample service reports itself healthy | not executed | Health.SampleBodyCountsAsFailure | Health.LabelledSampleBodyIsGood |
| src/homehelper/utils/logging.py:158-184 | `read_recent_logs` appends older files' lines after newer ones and then takes the tail, so the newest lines can be dropped | files newest first ["new"], ["old1", "old2"] with lines = 2 | the most recent two lines, oldest first: ["old2", "new"] | not executed | Logs.NewestLinesDropped | Logs.ReadRecentLogsFixed |

=== FILE: appmanager.dfy ===
/**
 The application manager's lifecycle step `prepare_app` and its statistics.
 Installing dependencies and running setup commands shell out to pip and
 the shell; their outcomes are inputs here.
 */
module AppManager {
  import opened Wrappers
  import opened Apps
  import opened Registry
  import opened Env
  import Ports

  // ---------------------------------------------------------------------------
  // prepare_app
  // ---------------------------------------------------------------------------

  /** What install_app_dependencies ran into. */
  datatype InstallOutcome =
    | NoRequirements                 // nothing to install
    | RequirementsFileMissing        // the declared file does not exist
    | Installed                      // pip exited with 0
    | InstallFailed(message: string) // non-zero exit, timeout or error: the recorded message

  /** Whether the manifest lists setup commands (None and [] both mean no). */
  predicate HasSetupCommands(m: Manifest) {
    m.install.Some? && m.install.value.setupCommands.Some? && |m.install.value.setupCommands.value| > 0
  }

  /** install_app_dependencies, given what the install ran into. */
  function InstallDependencies(reg: Registry, appId: string, outcome: InstallOutcome, now: int): (r: (Registry, bool))
    requires reg.Valid() && appId in reg.apps
    ensures r.0.Valid() && r.0.ids == reg.ids && r.0.apps.Keys == reg.apps.Keys
    ensures r.1 <==> outcome.NoRequirements? || outcome.Installed?
    ensures outcome.NoRequirements? || outcome.RequirementsFileMissing? ==> r.0 == reg
    ensures outcome.Installed? ==> r.0.apps[appId].status == Ready
    ensures outcome.InstallFailed? ==>
              r.0.apps[appId].status == Error && r.0.apps[appId].runtime.errorMessage == Some(outcome.message)
    ensures forall k :: k in reg.apps && k != appId ==> r.0.apps[k] == reg.apps[k]
  {
    match outcome
    case NoRequirements => (reg, true)
    case RequirementsFileMissing => (reg, false)
    case Installed => (SetStatus(SetStatus(reg, appId, Installing, now), appId, Ready, now), true)
    case InstallFailed(msg) =>
      (SetErrorMessage(SetStatus(SetStatus(reg, appId, Installing, now), appId, Error, now), appId, msg), false)
  }

  /** run_setup_commands, given the message of the first failing command (if any). */
  function RunSetupCommands(reg: Registry, appId: string, failure: Option<string>): (r: (Registry, bool))
    requires reg.Valid() && appId in reg.apps
    ensures r.0.Valid() && r.0.ids == reg.ids && r.0.apps.Keys == reg.apps.Keys
    ensures r.1 <==> !HasSetupCommands(reg.apps[appId].manifest) || failure.None?
    ensures r.1 ==> r.0 == reg
    ensures !r.1 ==> r.0.apps[appId].runtime.errorMessage == failure
    ensures forall k :: k in reg.apps && k != appId ==> r.0.apps[k] == reg.apps[k]
  {
    if !HasSetupCommands(reg.apps[appId].manifest) || failure.None? then (reg, true)
    else (SetErrorMessage(reg, appId, failure.value), false)
  }

  datatype PrepareResult = PrepareResult(registry: Registry, ports: Ports.PortTable, ok: bool)

  const PortFailureMessage: string := "Failed to allocate port"

  /** The port step of prepare_app for a service app: the allocated port is
      written into the runtime record and saved, then the app becomes READY;
      no port (or port 0, which is falsy) leaves the app in ERROR. */
  function AssignPort(reg: Registry, ports: Ports.PortTable, appId: string, bindable: set<int>, now: int): (r: PrepareResult)
    requires reg.Valid() && ports.Valid() && appId in reg.apps
    ensures r.registry.Valid() && r.ports.Valid() && r.registry.apps.Keys == reg.apps.Keys
    ensures r.ports == Ports.AllocatePort(ports, appId, AppTypeName(Service), None, bindable, now).table
    ensures r.ok ==>
              r.registry.apps[appId].status == Ready && appId in r.ports.appPorts
              && r.registry.apps[appId].runtime.assignedPort == Some(r.ports.appPorts[appId])
    ensures !r.ok ==>
              r.registry.apps[appId].status == Error
              && r.registry.apps[appId].runtime.errorMessage == Some(PortFailureMessage)
    ensures forall k :: k in reg.apps && k != appId ==> r.registry.apps[k] == reg.apps[k]
  {
    var alloc := Ports.AllocatePort(ports, appId, AppTypeName(Service), None, bindable, now);
    if alloc.port.Some? && alloc.port.value != 0 then
      PrepareResult(RecordPort(reg, appId, alloc.port.value, now), alloc.table, true)
    else
      PrepareResult(RecordPortFailure(reg, appId, now), alloc.table, false)
  }

  /** The success branch: the port goes into the runtime record, which is
      saved, and the app becomes READY. */
  function RecordPort(reg: Registry, appId: string, port: int, now: int): (r: Registry)
    requires reg.Valid() && appId in reg.apps
    ensures r.Valid() && r.apps.Keys == reg.apps.Keys
    ensures r.apps[appId].status == Ready && r.apps[appId].runtime.assignedPort == Some(port)
    ensures forall k :: k in reg.apps && k != appId ==> r.apps[k] == reg.apps[k]
  {
    var ri := reg.apps[appId].runtime.(assignedPort := Some(port));
    var reg1 := SetRuntimeSaved(SetRuntime(reg, appId, ri), appId, ri, now);
    assert reg1.apps[appId].runtime == ri;
    SetStatus(reg1, appId, Ready, now)
  }

  /** The failure branch: the error message is recorded and the app goes to ERROR. */
  function RecordPortFailure(reg: Registry, appId: string, now: int): (r: Registry)
    requires reg.Valid() && appId in reg.apps
    ensures r.Valid() && r.apps.Keys == reg.apps.Keys
    ensures r.apps[appId].status == Error && r.apps[appId].runtime.errorMessage == Some(PortFailureMessage)
    ensures forall k :: k in reg.apps && k != appId ==> r.apps[k] == reg.apps[k]
  {
    var ri := reg.apps[appId].runtime.(errorMessage := Some(PortFailureMessage));
    SetStatusAndRuntime(SetRuntime(reg, appId, ri), appId, Error, ri, now)
  }

  /** prepare_app with the install and setup outcomes as inputs. */
  function PrepareApp(reg: Registry, ports: Ports.PortTable, appId: string, install: InstallOutcome,
                      setupFailure: Option<string>, bindable: set<int>, now: int): (r: PrepareResult)
    requires reg.Valid() && ports.Valid()
    ensures r.registry.Valid() && r.ports.Valid()
    ensures r.registry.apps.Keys == reg.apps.Keys
    ensures appId !in reg.apps ==> r == PrepareResult(reg, ports, false)
    ensures appId in reg.apps && reg.apps[appId].status == Ready ==> r == PrepareResult(reg, ports, true)
    // Success ends READY; a service app then holds the port recorded in its runtime record.
    ensures r.ok && appId in reg.apps ==> r.registry.apps[appId].status == Ready
    ensures r.ok && appId in reg.apps && reg.apps[appId].status != Ready && reg.apps[appId].appType == Service ==>
              appId in r.ports.appPorts
              && r.registry.apps[appId].runtime.assignedPort == Some(r.ports.appPorts[appId])
    // Only service apps touch the port table.
    ensures appId in reg.apps && reg.apps[appId].appType == Streamlit ==> r.ports == ports
    // Every other entry is left alone.
    ensures forall k :: k in reg.apps && k != appId ==> r.registry.apps[k] == reg.apps[k]
  {
    if appId !in reg.apps then PrepareResult(reg, ports, false)
    else if reg.apps[appId].status == Ready then PrepareResult(reg, ports, true)
    else
      var (reg1, installed) := InstallDependencies(reg, appId, install, now);
      if !installed then PrepareResult(reg1, ports, false)
      else
        var (reg2, setUp) := RunSetupCommands(reg1, appId, setupFailure);
        if !setUp then PrepareResult(SetStatus(reg2, appId, Error, now), ports, false)
        else if reg.apps[appId].appType == Service then AssignPort(reg2, ports, appId, bindable, now)
        else PrepareResult(SetStatus(reg2, appId, Ready, now), ports, true)
  }

  /** A service app whose port allocation fails ends in ERROR with the
      allocation message, provided install and setup succeeded. */
  lemma PreparePortFailure(reg: Registry, ports: Ports.PortTable, appId: string, install: InstallOutcome,
                           bindable: set<int>, now: int)
    requires reg.Valid() && ports.Valid()
    requires appId in reg.apps && reg.apps[appId].status != Ready && reg.apps[appId].appType == Service
    requires install.NoRequirements? || install.Installed?
    requires Ports.AllocatePort(ports, appId, "service", None, bindable, now).port.None?
    ensures var r := PrepareApp(reg, ports, appId, install, None, bindable, now);
            !r.ok && r.registry.apps[appId].status == Error
            && r.registry.apps[appId].runtime.errorMessage == Some(PortFailureMessage)
            && appId !in r.ports.appPorts
  {
  }

  /** A failed setup command ends in ERROR carrying that command's message. */
  lemma PrepareSetupFailure(reg: Registry, ports: Ports.PortTable, appId: string, install: InstallOutcome,
                            msg: string, bindable: set<int>, now: int)
    requires reg.Valid() && ports.Valid()
    requires appId in reg.apps && reg.apps[appId].status != Ready && HasSetupCommands(reg.apps[appId].manifest)
    requires install.NoRequirements? || install.Installed?
    ensures var r := PrepareApp(reg, ports, appId, install, Some(msg), bindable, now);
            !r.ok && r.registry.apps[appId].status == Error
            && r.registry.apps[appId].runtime.errorMessage == Some(msg) && r.ports == ports
  {
  }

  /** The attribute lookup of `manifest.requirements`: the manifest schema
      declares no such field, so the lookup raises for every manifest. */
  function RequirementsAttribute(m: Manifest): (r: Outcome<bool>)
    ensures r.Raised?
  {
    Raised("AttributeError: 'AppManifest' object has no attribute 'requirements'")
  }

  /** prepare_app as written: any app that exists and is not READY reaches the
      requirements lookup, whose exception is not caught. */
  function PrepareAppAsWritten(reg: Registry, appId: string): (r: Outcome<bool>)
    ensures appId !in reg.apps ==> r == Returned(false)
    ensures appId in reg.apps && reg.apps[appId].status == Ready ==> r == Returned(true)
    ensures appId in reg.apps && reg.apps[appId].status != Ready ==> r.Raised?
  {
    if appId !in reg.apps then Returned(false)
    else if reg.apps[appId].status == Ready then Returned(true)
    else RequirementsAttribute(reg.apps[appId].manifest)
  }

  // ---------------------------------------------------------------------------
  // get_app_statistics
  // ---------------------------------------------------------------------------

  datatype AppStatistics = AppStatistics(
    totalApps: nat, statusBreakdown: map<AppStatus, nat>, typeBreakdown: map<AppType, nat>,
    readyApps: nat, runningApps: nat, errorApps: nat)

  function CountOf<K>(m: map<K, nat>, k: K): nat {
    if k in m then m[k] else 0
  }

  function GetAppStatistics(reg: Registry): (r: AppStatistics)
    requires reg.Valid()
    ensures r.totalApps == |reg.ids|
    ensures forall s :: s in r.statusBreakdown <==> CountStatus(AllApps(reg), s) > 0
    ensures forall s :: CountOf(r.statusBreakdown, s) == CountStatus(AllApps(reg), s)
    ensures forall t :: t in r.typeBreakdown <==> CountType(AllApps(reg), t) > 0
    ensures forall t :: CountOf(r.typeBreakdown, t) == CountType(AllApps(reg), t)
    ensures r.readyApps == CountStatus(AllApps(reg), Ready)
    ensures r.runningApps == CountStatus(AllApps(reg), Running)
    ensures r.errorApps == CountStatus(AllApps(reg), Error)
  {
    var all := AllApps(reg);
    var statuses := set e | e in all :: e.status;
    var types := set e | e in all :: e.appType;
    FilterStatusCount(all, Ready);
    FilterStatusCount(all, Running);
    FilterStatusCount(all, Error);
    CountsPositive(all);
    AppStatistics(
      |all|,
      map s | s in statuses :: CountStatus(all, s),
      map t | t in types :: CountType(all, t),
      |GetAppsByStatus(reg, Ready)|, |GetAppsByStatus(reg, Running)|, |GetAppsByStatus(reg, Error)|)
  }

  /** A status (type) has a positive count exactly when some entry carries it. */
  lemma {:induction false} CountsPositive(es: seq<Entry>)
    ensures forall s :: CountStatus(es, s) > 0 <==> exists e :: e in es && e.status == s
    ensures forall t :: CountType(es, t) > 0 <==> exists e :: e in es && e.appType == t
  {
    if |es| > 0 {
      CountsPositive(es[1..]);
      assert forall e :: e in es <==> e == es[0] || e in es[1..];
    }
  }

  /** The status breakdown and the type breakdown each add up to total_apps. */
  lemma AppStatisticsSum(reg: Registry)
    requires reg.Valid()
    ensures var st := GetAppStatistics(reg);
            CountOf(st.statusBreakdown, Discovered) + CountOf(st.statusBreakdown, Installing)
            + CountOf(st.statusBreakdown, Ready) + CountOf(st.statusBreakdown, Starting)
            + CountOf(st.statusBreakdown, Running) + CountOf(st.statusBreakdown, Stopping)
            + CountOf(st.statusBreakdown, Stopped) + CountOf(st.statusBreakdown, Error) == st.totalApps
            && CountOf(st.typeBreakdown, Service) + CountOf(st.typeBreakdown, Streamlit) == st.totalApps
  {
    StatusCountsPartition(AllApps(reg));
    TypeCountsPartition(AllApps(reg));
  }
}

=== FILE: apps.dfy ===
/**
 The application data model: app types and statuses with their wire names,
 the manifest (`homehelper.json`) schema and its validation from parsed JSON,
 the manifest's dump back to JSON, and the per-app runtime record and
 registry entry.
 */
module Apps {
  import opened Wrappers
  import opened Text
  import opened JsonData

  // ---------------------------------------------------------------------------
  // Types and statuses
  // ---------------------------------------------------------------------------

  datatype AppType = Service | Streamlit

  function AppTypeName(t: AppType): string {
    match t
    case Service => "service"
    case Streamlit => "streamlit"
  }

  /** `AppType(s)`: the enum member whose value is `s`. */
  function ParseAppType(s: string): (r: Option<AppType>)
    ensures r.Some? ==> AppTypeName(r.value) == s
    ensures r.None? ==> forall t :: AppTypeName(t) != s
  {
    if s == "service" then Some(Service)
    else if s == "streamlit" then Some(Streamlit)
    else None
  }

  lemma AppTypeRoundTrip(t: AppType)
    ensures ParseAppType(AppTypeName(t)) == Some(t)
  {
  }

  datatype AppStatus = Discovered | Installing | Ready | Starting | Running | Stopping | Stopped | Error

  function AppStatusName(s: AppStatus): string {
    match s
    case Discovered => "discovered"
    case Installing => "installing"
    case Ready => "ready"
    case Starting => "starting"
    case Running => "running"
    case Stopping => "stopping"
    case Stopped => "stopped"
    case Error => "error"
  }

  /** `AppStatus(s)`: the enum member whose value is `s`. */
  function ParseAppStatus(s: string): (r: Option<AppStatus>)
    ensures r.Some? ==> AppStatusName(r.value) == s
    ensures r.None? ==> forall st :: AppStatusName(st) != s
  {
    if s == "discovered" then Some(Discovered)
    else if s == "installing" then Some(Installing)
    else if s == "ready" then Some(Ready)
    else if s == "starting" then Some(Starting)
    else if s == "running" then Some(Running)
    else if s == "stopping" then Some(Stopping)
    else if s == "stopped" then Some(Stopped)
    else if s == "error" then Some(Error)
    else None
  }

  lemma AppStatusRoundTrip(s: AppStatus)
    ensures ParseAppStatus(AppStatusName(s)) == Some(s)
  {
  }

  // ---------------------------------------------------------------------------
  // Manifest schema
  // ---------------------------------------------------------------------------

  datatype AppConfig = AppConfig(
    hasUI: bool, redisRequired: bool, logsDir: bool, dataDir: bool, autoStart: bool,
    restartPolicy: string)

  const DefaultConfig: AppConfig := AppConfig(false, false, false, false, false, "always")

  datatype AppInstall = AppInstall(setupCommands: Option<seq<string>>)

  const DefaultInstall: AppInstall := AppInstall(None)

  datatype Manifest = Manifest(
    name: string, appType: AppType, description: string, version: string,
    author: string, mainFile: string, config: Option<AppConfig>, install: Option<AppInstall>)

  predicate RestartPolicyOk(p: string) {
    p == "always" || p == "on-failure" || p == "never"
  }

  /** Declarative reading of the version pattern: exactly three dot-separated
      runs, each a non-empty string of decimal digits. */
  predicate VersionShape(v: string) {
    var parts := Split(v, '.');
    |parts| == 3 && forall i :: 0 <= i < |parts| ==> 0 < |parts[i]| && AllDigits(parts[i])
  }

  /** Every constraint the schema places on a manifest's fields. */
  predicate ManifestOk(m: Manifest) {
    1 <= |m.name| <= 50
    && 1 <= |m.description| <= 200
    && VersionShape(m.version)
    && 1 <= |m.author| <= 100
    && 1 <= |m.mainFile|
    && (m.config.Some? ==> RestartPolicyOk(m.config.value.restartPolicy))
  }

  // ---------------------------------------------------------------------------
  // The version pattern as a left-to-right scan
  // ---------------------------------------------------------------------------

  /** `s` matches a digit run followed by `dots` more ".digits" groups. */
  predicate MatchRun(s: string, dots: nat)
    decreases |s|, 1
  {
    0 < |s| && IsDigit(s[0]) && MatchAfterDigit(s[1..], dots)
  }

  /** `s` continues a digit run already started, then `dots` more groups. */
  predicate MatchAfterDigit(s: string, dots: nat)
    decreases |s|, 0
  {
    if |s| == 0 then dots == 0
    else if IsDigit(s[0]) then MatchAfterDigit(s[1..], dots)
    else if s[0] == '.' && dots > 0 then MatchRun(s[1..], dots - 1)
    else false
  }

  /** The version check the schema applies: a full match of three digit runs. */
  predicate VersionMatches(v: string) {
    MatchRun(v, 2)
  }

  predicate PartsOk(parts: seq<string>, from: nat) {
    forall i :: from <= i < |parts| ==> 0 < |parts[i]| && AllDigits(parts[i])
  }

  lemma SplitCons(s: string, c: char)
    requires 0 < |s| && s[0] != c
    ensures var rest := Split(s[1..], c);
            Split(s, c) == [[s[0]] + rest[0]] + rest[1..]
  {
  }

  lemma AllDigitsCons(d: char, s: string)
    ensures AllDigits([d] + s) <==> IsDigit(d) && AllDigits(s)
  {
    if IsDigit(d) && AllDigits(s) {
      assert forall i :: 1 <= i < |[d] + s| ==> ([d] + s)[i] == s[i - 1];
    }
    if AllDigits([d] + s) {
      assert IsDigit(([d] + s)[0]);
      assert forall i :: 0 <= i < |s| ==> s[i] == ([d] + s)[i + 1];
    }
  }

  lemma {:induction false} MatchRunSplit(s: string, dots: nat)
    ensures MatchRun(s, dots) <==> |Split(s, '.')| == dots + 1 && PartsOk(Split(s, '.'), 0)
    decreases |s|, 1
  {
    var parts := Split(s, '.');
    if |s| == 0 {
      assert parts[0] == "";
    } else if s[0] == '.' {
      assert parts[0] == "";
    } else {
      var rest := Split(s[1..], '.');
      SplitCons(s, '.');
      AllDigitsCons(s[0], rest[0]);
      MatchAfterDigitSplit(s[1..], dots);
      assert parts[0] == [s[0]] + rest[0];
      assert forall i :: 1 <= i < |parts| ==> parts[i] == rest[i];
    }
  }

  lemma {:induction false} MatchAfterDigitSplit(s: string, dots: nat)
    ensures MatchAfterDigit(s, dots) <==>
              var parts := Split(s, '.');
              |parts| == dots + 1 && AllDigits(parts[0]) && PartsOk(parts, 1)
    decreases |s|, 0
  {
    var parts := Split(s, '.');
    if |s| == 0 {
      assert parts == [""];
    } else if s[0] == '.' {
      var rest := Split(s[1..], '.');
      assert parts == [""] + rest;
      if dots > 0 {
        MatchRunSplit(s[1..], dots - 1);
        assert forall i :: 1 <= i < |parts| ==> parts[i] == rest[i - 1];
        if PartsOk(parts, 1) {
          assert forall i :: 0 <= i < |rest| ==> rest[i] == parts[i + 1];
        }
      }
    } else {
      var rest := Split(s[1..], '.');
      SplitCons(s, '.');
      AllDigitsCons(s[0], rest[0]);
      assert parts[0] == [s[0]] + rest[0];
      assert forall i :: 1 <= i < |parts| ==> parts[i] == rest[i];
      if IsDigit(s[0]) {
        MatchAfterDigitSplit(s[1..], dots);
      }
    }
  }

  /** The scan accepts exactly the three-digit-run shape. */
  lemma VersionMatchesShape(v: string)
    ensures VersionMatches(v) <==> VersionShape(v)
  {
    MatchRunSplit(v, 2);
  }

  // ---------------------------------------------------------------------------
  // Validation from JSON (lax-mode coercions for booleans, no coercion to str)
  // ---------------------------------------------------------------------------

  /** A boolean field: a JSON boolean, the integers 0 and 1, or one of the
      recognised words in any letter case. */
  function ParseBool(j: Json): (r: Option<bool>)
    ensures j.JBool? ==> r == Some(j.b)
    ensures j.JNull? || j.JArray? || j.JObject? ==> r.None?
    ensures j.JInt? ==> (r == Some(false) <==> j.i == 0) && (r == Some(true) <==> j.i == 1)
    ensures j.JString? ==> (r == Some(false) <==> Lower(j.s) in FalseWords)
    ensures j.JString? ==> (r == Some(true) <==> Lower(j.s) in TrueWords)
  {
    match j
    case JBool(b) => Some(b)
    case JInt(i) => if i == 0 then Some(false) else if i == 1 then Some(true) else None
    case JString(s) =>
      var w := Lower(s);
      if w in FalseWords then Some(false)
      else if w in TrueWords then Some(true)
      else None
    case _ => None
  }

  /** The words accepted as false and as true, after lower-casing. */
  const FalseWords: set<string> := {"0", "off", "f", "false", "n", "no"}
  const TrueWords: set<string> := {"1", "on", "t", "true", "y", "yes"}

  /** Letter case never changes how a word is read as a boolean. */
  lemma {:induction false} ParseBoolIgnoresCase(s: string, t: string)
    requires Lower(s) == Lower(t)
    ensures ParseBool(JString(s)) == ParseBool(JString(t))
    ensures ParseBool(JString(s)).Some? <==> Lower(s) in FalseWords + TrueWords
  {
  }

  /** A boolean field that defaults to false when absent. */
  function BoolField(fields: map<string, Json>, key: string): Option<bool> {
    if key in fields then ParseBool(fields[key]) else Some(false)
  }

  /** AppConfig(**data). */
  function ValidateConfig(j: Json): (r: Option<AppConfig>)
    ensures r.Some? ==> RestartPolicyOk(r.value.restartPolicy)
    ensures j == JObject(map[]) ==> r == Some(DefaultConfig)
    ensures !j.JObject? ==> r.None?
  {
    if !j.JObject? then None
    else
      var f := j.fields;
      var hasUI := BoolField(f, "has_UI");
      var redis := BoolField(f, "redis_required");
      var logs := BoolField(f, "logs_dir");
      var data := BoolField(f, "data_dir");
      var auto := BoolField(f, "auto_start");
      var policy :=
        if "restart_policy" !in f then Some("always")
        else if f["restart_policy"].JString? && RestartPolicyOk(f["restart_policy"].s) then Some(f["restart_policy"].s)
        else None;
      if hasUI.None? || redis.None? || logs.None? || data.None? || auto.None? || policy.None? then None
      else Some(AppConfig(hasUI.value, redis.value, logs.value, data.value, auto.value, policy.value))
  }

  /** AppInstall(**data). */
  function ValidateInstall(j: Json): (r: Option<AppInstall>)
    ensures j == JObject(map[]) ==> r == Some(DefaultInstall)
    ensures !j.JObject? ==> r.None?
  {
    if !j.JObject? then None
    else if "setup_commands" !in j.fields || j.fields["setup_commands"] == JNull then Some(AppInstall(None))
    else match j.fields["setup_commands"]
      case JArray(items) =>
        if forall i :: 0 <= i < |items| ==> items[i].JString? then
          Some(AppInstall(Some(seq(|items|, i requires 0 <= i < |items| && items[i].JString? => items[i].s))))
        else None
      case _ => None
  }

  predicate HasString(f: map<string, Json>, key: string, v: string) {
    key in f && f[key] == JString(v)
  }

  /** A required string field with a length window. */
  function StringField(f: map<string, Json>, key: string, lo: nat, hi: int): (r: Option<string>)
    ensures r.Some? ==> key in f && f[key] == JString(r.value) && lo <= |r.value| && (hi < 0 || |r.value| <= hi)
    ensures key in f && f[key].JString? && lo <= |f[key].s| && (hi < 0 || |f[key].s| <= hi) ==> r == Some(f[key].s)
  {
    if key in f && f[key].JString? && lo <= |f[key].s| && (hi < 0 || |f[key].s| <= hi) then Some(f[key].s)
    else None
  }

  /** An optional sub-model with a default factory: absent gives the default,
      null gives None, anything else must validate. */
  function OptionalModel<T>(f: map<string, Json>, key: string, default: T, validate: Json -> Option<T>): Option<Option<T>> {
    if key !in f then Some(Some(default))
    else if f[key] == JNull then Some(None)
    else match validate(f[key])
      case Some(v) => Some(Some(v))
      case None => None
  }

  /** AppManifest(**data): None for anything the schema rejects. Unknown keys
      are ignored. */
  function ValidateManifest(j: Json): (r: Option<Manifest>)
    ensures r.Some? ==> ManifestOk(r.value)
    ensures r.Some? ==>
              && j.JObject?
              && HasString(j.fields, "name", r.value.name)
              && HasString(j.fields, "type", AppTypeName(r.value.appType))
              && HasString(j.fields, "description", r.value.description)
              && HasString(j.fields, "version", r.value.version)
              && HasString(j.fields, "author", r.value.author)
              && HasString(j.fields, "main_file", r.value.mainFile)
  {
    if !j.JObject? then None
    else
      var f := j.fields;
      var name := StringField(f, "name", 1, 50);
      var description := StringField(f, "description", 1, 200);
      var version := StringField(f, "version", 0, -1);
      var author := StringField(f, "author", 1, 100);
      var mainFile := StringField(f, "main_file", 1, -1);
      var appType := if "type" in f && f["type"].JString? then ParseAppType(f["type"].s) else None;
      var config := OptionalModel(f, "config", DefaultConfig, ValidateConfig);
      var install := OptionalModel(f, "install", DefaultInstall, ValidateInstall);
      if name.None? || description.None? || version.None? || author.None? || mainFile.None?
         || appType.None? || config.None? || install.None? then None
      else if !VersionMatches(version.value) then None
      else
        VersionMatchesShape(version.value);
        Some(Manifest(name.value, appType.value, description.value, version.value, author.value,
                      mainFile.value, config.value, install.value))
  }

  // ---------------------------------------------------------------------------
  // model_dump
  // ---------------------------------------------------------------------------

  function DumpConfig(c: AppConfig): Json {
    JObject(map[
      "has_UI" := JBool(c.hasUI), "redis_required" := JBool(c.redisRequired),
      "logs_dir" := JBool(c.logsDir), "data_dir" := JBool(c.dataDir),
      "auto_start" := JBool(c.autoStart), "restart_policy" := JString(c.restartPolicy)])
  }

  function DumpInstall(i: AppInstall): Json {
    JObject(map["setup_commands" :=
      match i.setupCommands
      case None => JNull
      case Some(cmds) => JArray(seq(|cmds|, k requires 0 <= k < |cmds| => JString(cmds[k])))])
  }

  /** model_dump(): every field, with the enum written as its value. */
  function DumpManifest(m: Manifest): Json {
    JObject(map[
      "name" := JString(m.name), "type" := JString(AppTypeName(m.appType)),
      "description" := JString(m.description), "version" := JString(m.version),
      "author" := JString(m.author), "main_file" := JString(m.mainFile),
      "config" := (match m.config case None => JNull case Some(c) => DumpConfig(c)),
      "install" := (match m.install case None => JNull case Some(i) => DumpInstall(i))])
  }

  lemma ConfigRoundTrip(c: AppConfig)
    requires RestartPolicyOk(c.restartPolicy)
    ensures ValidateConfig(DumpConfig(c)) == Some(c)
  {
  }

  lemma InstallRoundTrip(i: AppInstall)
    ensures ValidateInstall(DumpInstall(i)) == Some(i)
  {
    if i.setupCommands.Some? {
      var cmds := i.setupCommands.value;
      var items := seq(|cmds|, k requires 0 <= k < |cmds| => JString(cmds[k]));
      assert DumpInstall(i).fields["setup_commands"] == JArray(items);
      assert seq(|items|, k requires 0 <= k < |items| && items[k].JString? => items[k].s) == cmds;
    }
  }

  /** Re-validating a dumped manifest gives the same manifest back: the
      registry file's manifest survives a save and a load. */
  lemma ManifestRoundTrip(m: Manifest)
    requires ManifestOk(m)
    ensures ValidateManifest(DumpManifest(m)) == Some(m)
  {
    VersionMatchesShape(m.version);
    DumpedFieldsRead(m);
  }

  /** Each field of a dumped manifest reads back under the schema's checks. */
  lemma DumpedFieldsRead(m: Manifest)
    requires ManifestOk(m)
    ensures var f := DumpManifest(m).fields;
            StringField(f, "name", 1, 50) == Some(m.name)
            && StringField(f, "description", 1, 200) == Some(m.description)
            && StringField(f, "version", 0, -1) == Some(m.version)
            && StringField(f, "author", 1, 100) == Some(m.author)
            && StringField(f, "main_file", 1, -1) == Some(m.mainFile)
            && "type" in f && f["type"].JString? && ParseAppType(f["type"].s) == Some(m.appType)
            && OptionalModel(f, "config", DefaultConfig, ValidateConfig) == Some(m.config)
            && OptionalModel(f, "install", DefaultInstall, ValidateInstall) == Some(m.install)
  {
    DumpedModelsRead(m);
  }

  lemma DumpedModelsRead(m: Manifest)
    requires ManifestOk(m)
    ensures var f := DumpManifest(m).fields;
            OptionalModel(f, "config", DefaultConfig, ValidateConfig) == Some(m.config)
            && OptionalModel(f, "install", DefaultInstall, ValidateInstall) == Some(m.install)
  {
    var f := DumpManifest(m).fields;
    assert f["config"] == (match m.config case None => JNull case Some(c) => DumpConfig(c));
    assert f["install"] == (match m.install case None => JNull case Some(i) => DumpInstall(i));
    if m.config.Some? {
      ConfigRoundTrip(m.config.value);
    }
    if m.install.Some? {
      InstallRoundTrip(m.install.value);
    }
  }

  // ---------------------------------------------------------------------------
  // Runtime record and registry entry
  // ---------------------------------------------------------------------------

  /** AppRuntimeInfo. `resource_usage` (a float map) is not represented;
      timestamps are whole seconds. */
  datatype RuntimeInfo = RuntimeInfo(
    assignedPort: Option<int>, processId: Option<string>, serviceName: Option<string>,
    startedAt: Option<int>, lastHealthCheck: Option<int>, errorMessage: Option<string>)

  const EmptyRuntime: RuntimeInfo := RuntimeInfo(None, None, None, None, None, None)

  /** AppRegistryEntry. The path is kept as its string form. */
  datatype Entry = Entry(
    appId: string, name: string, appType: AppType, description: string, version: string,
    status: AppStatus, path: string, manifest: Manifest, runtime: RuntimeInfo,
    discoveredAt: int, lastUpdated: int)

  /** The entry has a port assigned: Python's truthiness makes no port and
      port 0 alike. */
  predicate HasPort(e: Entry) {
    e.runtime.assignedPort.Some? && e.runtime.assignedPort.value != 0
  }
}

=== FILE: discovery.dfy ===
/**
 App discovery: scanning the apps directory, validating each manifest, and
 choosing the registry id. The directory listing is an input: each entry
 says whether it is a directory, what its `homehelper.json` holds, and which
 files exist inside it.

 Two versions of the scan are modelled. `DiscoverApps` is the scan as the
 source writes it: the id generator always returns an id that is not yet
 registered, so the "already registered" branch is dead and every re-scan
 registers suffixed duplicates. `DiscoverAppsFixed` looks ids up by path
 instead (the first candidate that is free or already holds this directory),
 which is what the "update if path or version changed" branch expects.
 */
module Discovery {
  import opened Wrappers
  import opened Text
  import opened JsonData
  import opened Apps
  import opened Registry

  // ---------------------------------------------------------------------------
  // Id candidates
  // ---------------------------------------------------------------------------

  /** The directory name lower-cased, with ' ' and '_' turned into '-'. */
  function BaseId(dirName: string): (r: string)
    ensures |r| == |dirName|
    ensures forall i :: 0 <= i < |r| ==> r[i] != ' ' && r[i] != '_' && !IsUpper(r[i])
    ensures forall i :: 0 <= i < |dirName| ==>
              r[i] == (if LowerChar(dirName[i]) == ' ' || LowerChar(dirName[i]) == '_' then '-' else LowerChar(dirName[i]))
  {
    ReplaceChar(ReplaceChar(Lower(dirName), ' ', '-'), '_', '-')
  }

  /** The k-th id tried: the base itself, then base-1, base-2, ... */
  function Candidate(base: string, k: nat): string {
    if k == 0 then base else base + "-" + NatToString(k)
  }

  lemma CandidateInjective(base: string, j: nat, k: nat)
    requires Candidate(base, j) == Candidate(base, k)
    ensures j == k
  {
    if j > 0 && k > 0 {
      var a := Candidate(base, j);
      assert a[|base| + 1..] == NatToString(j);
      assert Candidate(base, k)[|base| + 1..] == NatToString(k);
      NatToStringInjective(j, k);
    }
  }

  /** The first n candidates, as a set. */
  function Candidates(base: string, n: nat): (r: set<string>)
    ensures forall j :: 0 <= j < n ==> Candidate(base, j) in r
    ensures forall x :: x in r ==> exists j :: 0 <= j < n && x == Candidate(base, j)
  {
    if n == 0 then {} else Candidates(base, n - 1) + {Candidate(base, n - 1)}
  }

  lemma {:induction false} CandidatesSize(base: string, n: nat)
    ensures |Candidates(base, n)| == n
  {
    if n > 0 {
      CandidatesSize(base, n - 1);
      CandidateFresh(base, n - 1);
    }
  }

  /** Candidate n is not among the first n. */
  lemma CandidateFresh(base: string, n: nat)
    ensures Candidate(base, n) !in Candidates(base, n)
  {
    if Candidate(base, n) in Candidates(base, n) {
      var j :| 0 <= j < n && Candidate(base, n) == Candidate(base, j);
      CandidateInjective(base, j, n);
    }
  }

  /** If the first n candidates are all registered, there are at least n entries. */
  lemma CandidatesBound(reg: Registry, base: string, n: nat)
    requires forall j :: 0 <= j < n ==> Candidate(base, j) in reg.apps
    ensures n <= |reg.apps|
  {
    CandidatesSize(base, n);
    var cs := Candidates(base, n);
    forall x | x in cs
      ensures x in reg.apps
    {
      var j :| 0 <= j < n && x == Candidate(base, j);
    }
    var keys := reg.apps.Keys;
    assert keys == cs + (keys - cs);
    assert cs * (keys - cs) == {};
    assert |keys| == |cs| + |keys - cs|;
  }

  /** The scan stops at candidate j: it is free, or (when looking up by path)
      it already holds the directory at `path`. */
  predicate Stops(reg: Registry, base: string, path: Option<string>, j: nat) {
    var c := Candidate(base, j);
    c !in reg.apps || (path.Some? && reg.apps[c].path == path.value)
  }

  lemma PassedRegistered(reg: Registry, base: string, path: Option<string>, n: nat)
    requires forall j :: 0 <= j < n ==> !Stops(reg, base, path, j)
    ensures forall j :: 0 <= j < n ==> Candidate(base, j) in reg.apps
  {
    forall j | 0 <= j < n
      ensures Candidate(base, j) in reg.apps
    {
      assert !Stops(reg, base, path, j);
    }
  }

  /** The least index from `k` upward at which the scan stops. */
  function LocateIndex(reg: Registry, base: string, path: Option<string>, k: nat): (r: nat)
    requires forall j :: 0 <= j < k ==> !Stops(reg, base, path, j)
    ensures k <= r && Stops(reg, base, path, r)
    ensures forall j :: 0 <= j < r ==> !Stops(reg, base, path, j)
    decreases |reg.apps| - k
  {
    if Stops(reg, base, path, k) then k
    else
      PassedRegistered(reg, base, path, k + 1);
      CandidatesBound(reg, base, k + 1);
      LocateIndex(reg, base, path, k + 1)
  }

  /** _generate_app_id: the first candidate that is not registered. */
  function GenerateAppId(reg: Registry, dirName: string): (id: string)
    ensures id !in reg.apps
    ensures BaseId(dirName) !in reg.apps ==> id == BaseId(dirName)
  {
    var k := LocateIndex(reg, BaseId(dirName), None, 0);
    Candidate(BaseId(dirName), k)
  }

  /** The generated id is base or base-k for the least k whose candidate is
      free: every earlier candidate is registered. */
  lemma GenerateAppIdLeast(reg: Registry, dirName: string)
    ensures exists k: nat :: GenerateAppId(reg, dirName) == Candidate(BaseId(dirName), k)
              && forall j :: 0 <= j < k ==> Candidate(BaseId(dirName), j) in reg.apps
  {
    var k := LocateIndex(reg, BaseId(dirName), None, 0);
    PassedRegistered(reg, BaseId(dirName), None, k);
    assert GenerateAppId(reg, dirName) == Candidate(BaseId(dirName), k);
  }

  /** The id the corrected scan uses: the first candidate that is free or
      already registered for this same path. */
  function FindAppId(reg: Registry, dirName: string, path: string): (id: string)
    ensures id !in reg.apps || reg.apps[id].path == path
  {
    var k := LocateIndex(reg, BaseId(dirName), Some(path), 0);
    Candidate(BaseId(dirName), k)
  }

  // ---------------------------------------------------------------------------
  // Directory entries and manifests
  // ---------------------------------------------------------------------------

  datatype ManifestFile = Missing | Unparsable | Parsed(json: Json)

  /** One item of the apps directory listing. `files` are the paths, relative
      to the item, that exist inside it. */
  datatype DirEntry = DirEntry(name: string, isDir: bool, manifest: ManifestFile, files: set<string>)

  function PathOf(appsDir: string, name: string): string {
    appsDir + "/" + name
  }

  lemma PathOfInjective(appsDir: string, a: string, b: string)
    requires PathOf(appsDir, a) == PathOf(appsDir, b)
    ensures a == b
  {
    assert PathOf(appsDir, a)[|appsDir| + 1..] == a;
    assert PathOf(appsDir, b)[|appsDir| + 1..] == b;
  }

  /** _parse_manifest: a manifest that reads, validates, and whose main file exists. */
  function ParseManifest(d: DirEntry): (r: Option<Manifest>)
    ensures r.Some? ==> d.manifest.Parsed? && ValidateManifest(d.manifest.json) == r && r.value.mainFile in d.files
    ensures (d.manifest.Parsed? && ValidateManifest(d.manifest.json).Some?
             && ValidateManifest(d.manifest.json).value.mainFile in d.files) ==> r.Some?
  {
    match d.manifest
    case Parsed(j) =>
      (match ValidateManifest(j)
       case Some(m) => if m.mainFile in d.files then Some(m) else None
       case None => None)
    case _ => None
  }

  /** The listing items the scan registers or updates. */
  predicate Accepted(d: DirEntry) {
    d.isDir && ParseManifest(d).Some?
  }

  function AcceptedCount(dirs: seq<DirEntry>): nat {
    if |dirs| == 0 then 0 else (if Accepted(dirs[0]) then 1 else 0) + AcceptedCount(dirs[1..])
  }

  function NewEntry(id: string, m: Manifest, path: string, now: int): Entry {
    Entry(id, m.name, m.appType, m.description, m.version, Discovered, path, m, EmptyRuntime, now, now)
  }

  /** The keyword arguments _update_existing_app passes to update_app. */
  function UpdateKwargs(m: Manifest, path: string): (kw: seq<(string, Value)>)
    ensures WellTyped(kw)
  {
    [("manifest", ManifestV(m)), ("path", StrV(path)), ("version", StrV(m.version)),
     ("description", StrV(m.description)), ("status", StatusV(Discovered))]
  }

  // ---------------------------------------------------------------------------
  // The scan
  // ---------------------------------------------------------------------------

  /** update_app with _update_existing_app's arguments: the five attributes
      set, `last_updated` refreshed, nothing else changed. */
  lemma UpdateExistingEntry(reg: Registry, id: string, m: Manifest, path: string, now: int)
    requires reg.Valid() && id in reg.apps
    ensures UpdateApp(reg, id, UpdateKwargs(m, path), now).0.apps[id]
            == reg.apps[id].(manifest := m, path := path, version := m.version, description := m.description,
                             status := Discovered, lastUpdated := now)
  {
    var e0 := reg.apps[id];
    var a, b, c, d, x := ("manifest", ManifestV(m)), ("path", StrV(path)), ("version", StrV(m.version)),
                         ("description", StrV(m.description)), ("status", StatusV(Discovered));
    var k1 := [a];
    var k2 := k1 + [b];
    var k3 := k2 + [c];
    var k4 := k3 + [d];
    var k5 := k4 + [x];
    assert UpdateKwargs(m, path) == k5;
    ApplyKwargsSnoc(e0, k4, x);
    ApplyKwargsSnoc(e0, k3, d);
    ApplyKwargsSnoc(e0, k2, c);
    ApplyKwargsSnoc(e0, k1, b);
    assert [] + [a] == k1;
    ApplyKwargsSnoc(e0, [], a);
    var e1 := ApplyKwargs(e0, k1);
    assert e1 == e0.(manifest := m);
    var e2 := ApplyKwargs(e0, k2);
    assert e2 == e1.(path := path);
    var e3 := ApplyKwargs(e0, k3);
    assert e3 == e2.(version := m.version);
    var e4 := ApplyKwargs(e0, k4);
    assert e4 == e3.(description := m.description);
    assert ApplyKwargs(e0, k5) == e4.(status := Discovered);
  }

  /** Registers a new entry under `id`, or refreshes the entry already there
      when its path or version differs. */
  function Place(reg: Registry, id: string, m: Manifest, path: string, now: int): (r: (Registry, nat))
    requires reg.Valid()
    ensures r.0.Valid()
    ensures r.1 == (if id in reg.apps then 0 else 1)
    ensures r.0.apps.Keys == reg.apps.Keys + {id}
    ensures r.0.apps[id].version == m.version && r.0.apps[id].path == path
    ensures id !in reg.apps ==> r.0.apps[id] == NewEntry(id, m, path, now)
    ensures id in reg.apps && reg.apps[id].path == path && reg.apps[id].version == m.version ==> r.0 == reg
    ensures forall k :: k in reg.apps && k != id ==> r.0.apps[k] == reg.apps[k]
  {
    if id in reg.apps then
      var existing := reg.apps[id];
      if existing.path != path || existing.version != m.version then
        UpdateExistingEntry(reg, id, m, path, now);
        (UpdateApp(reg, id, UpdateKwargs(m, path), now).0, 0)
      else (reg, 0)
    else
      (Register(reg, NewEntry(id, m, path, now)), 1)
  }

  /** The id the scan uses for an accepted item. */
  function IdFor(reg: Registry, appsDir: string, d: DirEntry, byPath: bool): string {
    if byPath then FindAppId(reg, d.name, PathOf(appsDir, d.name)) else GenerateAppId(reg, d.name)
  }

  /** One iteration of the scan loop: the new registry and 1 when a new entry
      was registered. `byPath` selects the corrected id lookup. */
  function Step(reg: Registry, appsDir: string, d: DirEntry, now: int, byPath: bool): (r: (Registry, nat))
    requires reg.Valid()
    ensures r.0.Valid()
    ensures r.1 <= 1
    ensures !Accepted(d) ==> r == (reg, 0)
    ensures Accepted(d) ==> r == Place(reg, IdFor(reg, appsDir, d, byPath), ParseManifest(d).value, PathOf(appsDir, d.name), now)
    ensures reg.apps.Keys <= r.0.apps.Keys
    ensures |r.0.apps| == |reg.apps| + r.1
  {
    if !d.isDir || d.manifest.Missing? then (reg, 0)
    else match ParseManifest(d)
      case None => (reg, 0)
      case Some(m) => Place(reg, IdFor(reg, appsDir, d, byPath), m, PathOf(appsDir, d.name), now)
  }

  function Scan(reg: Registry, appsDir: string, dirs: seq<DirEntry>, now: int, byPath: bool): (r: (Registry, nat))
    requires reg.Valid()
    decreases |dirs|
    ensures r.0.Valid()
    ensures reg.apps.Keys <= r.0.apps.Keys
    ensures |r.0.apps| == |reg.apps| + r.1
    ensures r.1 <= AcceptedCount(dirs)
  {
    if |dirs| == 0 then (reg, 0)
    else
      var first := Step(reg, appsDir, dirs[0], now, byPath);
      var rest := Scan(first.0, appsDir, dirs[1..], now, byPath);
      (rest.0, first.1 + rest.1)
  }

  /** discover_apps as written. */
  function DiscoverApps(reg: Registry, appsDir: string, dirs: seq<DirEntry>, now: int): (r: (Registry, nat))
    requires reg.Valid()
    ensures r.0.Valid()
    ensures reg.apps.Keys <= r.0.apps.Keys
    ensures |r.0.apps| == |reg.apps| + r.1
  {
    Scan(reg, appsDir, dirs, now, false)
  }

  /** discover_apps with the id looked up by path. */
  function DiscoverAppsFixed(reg: Registry, appsDir: string, dirs: seq<DirEntry>, now: int): (r: (Registry, nat))
    requires reg.Valid()
    ensures r.0.Valid()
    ensures reg.apps.Keys <= r.0.apps.Keys
    ensures |r.0.apps| == |reg.apps| + r.1
  {
    Scan(reg, appsDir, dirs, now, true)
  }

  // ---------------------------------------------------------------------------
  // Properties of the scan as written
  // ---------------------------------------------------------------------------

  /** The generated id is never registered, so the update-in-place branch
      never runs: each accepted directory adds one new entry. */
  lemma StepAsWrittenRegisters(reg: Registry, appsDir: string, d: DirEntry, now: int)
    requires reg.Valid() && Accepted(d)
    ensures var r := Step(reg, appsDir, d, now, false);
            r.1 == 1 && GenerateAppId(reg, d.name) in r.0.apps
            && r.0.apps[GenerateAppId(reg, d.name)].status == Discovered
  {
  }

  /** The count returned is the number of accepted directories, whatever the
      registry already holds. */
  lemma {:induction false} DiscoverAppsCount(reg: Registry, appsDir: string, dirs: seq<DirEntry>, now: int)
    requires reg.Valid()
    ensures DiscoverApps(reg, appsDir, dirs, now).1 == AcceptedCount(dirs)
    decreases |dirs|
  {
    if |dirs| > 0 {
      var first := Step(reg, appsDir, dirs[0], now, false);
      if Accepted(dirs[0]) {
        StepAsWrittenRegisters(reg, appsDir, dirs[0], now);
      }
      DiscoverAppsCount(first.0, appsDir, dirs[1..], now);
    }
  }

  /** Scanning an unchanged directory a second time registers every accepted
      app again under a suffixed id. */
  lemma RediscoveryDuplicates(reg: Registry, appsDir: string, dirs: seq<DirEntry>, now: int, later: int)
    requires reg.Valid() && AcceptedCount(dirs) > 0
    ensures var first := DiscoverApps(reg, appsDir, dirs, now);
            var second := DiscoverApps(first.0, appsDir, dirs, later);
            second.1 == first.1 > 0 && |second.0.apps| == |first.0.apps| + first.1
  {
    var first := DiscoverApps(reg, appsDir, dirs, now);
    DiscoverAppsCount(reg, appsDir, dirs, now);
    DiscoverAppsCount(first.0, appsDir, dirs, later);
  }

  // ---------------------------------------------------------------------------
  // Properties of the corrected scan
  // ---------------------------------------------------------------------------

  /** After a scan, an accepted directory's lookup lands on an entry for its
      path with its manifest's version. */
  predicate Settled(reg: Registry, appsDir: string, d: DirEntry)
    requires Accepted(d)
  {
    var path := PathOf(appsDir, d.name);
    var id := FindAppId(reg, d.name, path);
    id in reg.apps && reg.apps[id].version == ParseManifest(d).value.version
  }

  /** The lookup result is determined by the candidates before it and itself. */
  lemma LocateAt(reg: Registry, base: string, path: string, k: nat)
    requires forall j :: 0 <= j < k ==> Candidate(base, j) in reg.apps && reg.apps[Candidate(base, j)].path != path
    requires Candidate(base, k) in reg.apps && reg.apps[Candidate(base, k)].path == path
    ensures LocateIndex(reg, base, Some(path), 0) == k
  {
    assert Stops(reg, base, Some(path), k);
  }

  /** A settled directory stays settled when the registry only grows, keeps
      every path, and leaves the entry for this directory's path alone. */
  lemma SettledKept(reg: Registry, reg2: Registry, appsDir: string, d: DirEntry)
    requires Accepted(d) && Settled(reg, appsDir, d)
    requires reg.apps.Keys <= reg2.apps.Keys
    requires forall k :: k in reg.apps ==> reg2.apps[k].path == reg.apps[k].path
    requires forall k :: k in reg.apps && reg.apps[k].path == PathOf(appsDir, d.name) ==> reg2.apps[k] == reg.apps[k]
    ensures Settled(reg2, appsDir, d)
  {
    var path := PathOf(appsDir, d.name);
    var base := BaseId(d.name);
    var k := LocateIndex(reg, base, Some(path), 0);
    assert Candidate(base, k) == FindAppId(reg, d.name, path);
    forall j | 0 <= j < k
      ensures Candidate(base, j) in reg2.apps && reg2.apps[Candidate(base, j)].path != path
    {
      assert !Stops(reg, base, Some(path), j);
    }
    LocateAt(reg2, base, path, k);
  }

  /** One corrected step settles the directory it processes. */
  lemma StepSettles(reg: Registry, appsDir: string, d: DirEntry, now: int)
    requires reg.Valid() && Accepted(d)
    ensures Settled(Step(reg, appsDir, d, now, true).0, appsDir, d)
  {
    var reg2 := Step(reg, appsDir, d, now, true).0;
    var path := PathOf(appsDir, d.name);
    var base := BaseId(d.name);
    var k := LocateIndex(reg, base, Some(path), 0);
    var id := Candidate(base, k);
    assert id == IdFor(reg, appsDir, d, true);
    var placed := Place(reg, id, ParseManifest(d).value, path, now);
    assert reg2 == placed.0;
    forall j | 0 <= j < k
      ensures Candidate(base, j) in reg2.apps && reg2.apps[Candidate(base, j)].path != path
    {
      assert !Stops(reg, base, Some(path), j);
      if Candidate(base, j) == id {
        CandidateInjective(base, j, k);
      }
    }
    LocateAt(reg2, base, path, k);
  }

  /** A corrected step on a settled directory changes nothing. */
  lemma SettledStepNoop(reg: Registry, appsDir: string, d: DirEntry, now: int)
    requires reg.Valid() && Accepted(d) && Settled(reg, appsDir, d)
    ensures Step(reg, appsDir, d, now, true) == (reg, 0)
  {
  }

  predicate DistinctNames(dirs: seq<DirEntry>) {
    forall i, j :: 0 <= i < j < |dirs| ==> dirs[i].name != dirs[j].name
  }

  /** A corrected step keeps every key and every path, and changes only the
      entry for the path of the item it processes. */
  lemma CorrectedStepFrame(reg: Registry, appsDir: string, d0: DirEntry, now: int)
    requires reg.Valid()
    ensures var r := Step(reg, appsDir, d0, now, true).0;
            reg.apps.Keys <= r.apps.Keys
            && (forall k :: k in reg.apps ==> r.apps[k].path == reg.apps[k].path)
            && (forall k :: k in reg.apps && reg.apps[k].path != PathOf(appsDir, d0.name) ==> r.apps[k] == reg.apps[k])
  {
    if Accepted(d0) {
      var id := IdFor(reg, appsDir, d0, true);
      var path := PathOf(appsDir, d0.name);
      assert id !in reg.apps || reg.apps[id].path == path;
      PlaceFrame(reg, id, ParseManifest(d0).value, path, now);
    }
  }

  /** Placing under an id that is free or already holds `path` keeps every
      key and every path, and changes no entry for another path. */
  lemma PlaceFrame(reg: Registry, id: string, m: Manifest, path: string, now: int)
    requires reg.Valid() && (id !in reg.apps || reg.apps[id].path == path)
    ensures var r := Place(reg, id, m, path, now).0;
            reg.apps.Keys <= r.apps.Keys
            && (forall k :: k in reg.apps ==> r.apps[k].path == reg.apps[k].path)
            && (forall k :: k in reg.apps && reg.apps[k].path != path ==> r.apps[k] == reg.apps[k])
  {
  }

  /** The rest of a scan leaves a settled directory settled when none of the
      remaining items has its name. */
  lemma {:induction false} ScanKeepsSettled(reg: Registry, appsDir: string, dirs: seq<DirEntry>, now: int, d: DirEntry)
    requires reg.Valid() && Accepted(d) && Settled(reg, appsDir, d)
    requires forall i :: 0 <= i < |dirs| ==> dirs[i].name != d.name
    ensures Settled(Scan(reg, appsDir, dirs, now, true).0, appsDir, d)
    decreases |dirs|
  {
    if |dirs| > 0 {
      var first := Step(reg, appsDir, dirs[0], now, true).0;
      CorrectedStepFrame(reg, appsDir, dirs[0], now);
      assert dirs[0].name != d.name;
      if PathOf(appsDir, d.name) == PathOf(appsDir, dirs[0].name) {
        PathOfInjective(appsDir, d.name, dirs[0].name);
      }
      SettledKept(reg, first, appsDir, d);
      var rest := dirs[1..];
      forall i | 0 <= i < |rest| ensures rest[i].name != d.name {
        assert rest[i] == dirs[i + 1];
      }
      ScanUnfold(reg, appsDir, dirs, now);
      ScanKeepsSettled(first, appsDir, rest, now, d);
    }
  }

  /** After a corrected scan every accepted directory is settled. */
  lemma ScanSettlesAll(reg: Registry, appsDir: string, dirs: seq<DirEntry>, now: int)
    requires reg.Valid() && DistinctNames(dirs)
    ensures forall i :: 0 <= i < |dirs| && Accepted(dirs[i]) ==> Settled(Scan(reg, appsDir, dirs, now, true).0, appsDir, dirs[i])
  {
    forall i | 0 <= i < |dirs| && Accepted(dirs[i])
      ensures Settled(Scan(reg, appsDir, dirs, now, true).0, appsDir, dirs[i])
    {
      ScanSettlesOne(reg, appsDir, dirs, now, i);
    }
  }

  /** The directory at position i is settled after the corrected scan. */
  lemma {:induction false} ScanSettlesOne(reg: Registry, appsDir: string, dirs: seq<DirEntry>, now: int, i: nat)
    requires reg.Valid() && DistinctNames(dirs) && i < |dirs| && Accepted(dirs[i])
    ensures Settled(Scan(reg, appsDir, dirs, now, true).0, appsDir, dirs[i])
    decreases |dirs|
  {
    if i == 0 {
      ScanSettlesHead(reg, appsDir, dirs, now);
    } else {
      var first := Step(reg, appsDir, dirs[0], now, true).0;
      var rest := dirs[1..];
      ScanUnfold(reg, appsDir, dirs, now);
      DistinctNamesTail(dirs);
      assert dirs[i] == rest[i - 1];
      ScanSettlesOne(first, appsDir, rest, now, i - 1);
    }
  }

  /** The first directory is settled by its step and stays settled. */
  lemma ScanSettlesHead(reg: Registry, appsDir: string, dirs: seq<DirEntry>, now: int)
    requires reg.Valid() && DistinctNames(dirs) && 0 < |dirs| && Accepted(dirs[0])
    ensures Settled(Scan(reg, appsDir, dirs, now, true).0, appsDir, dirs[0])
  {
    var first := Step(reg, appsDir, dirs[0], now, true).0;
    var rest := dirs[1..];
    ScanUnfold(reg, appsDir, dirs, now);
    StepSettles(reg, appsDir, dirs[0], now);
    forall j | 0 <= j < |rest| ensures rest[j].name != dirs[0].name {
      assert rest[j] == dirs[j + 1];
    }
    ScanKeepsSettled(first, appsDir, rest, now, dirs[0]);
  }

  lemma ScanUnfold(reg: Registry, appsDir: string, dirs: seq<DirEntry>, now: int)
    requires reg.Valid() && 0 < |dirs|
    ensures Scan(reg, appsDir, dirs, now, true).0 == Scan(Step(reg, appsDir, dirs[0], now, true).0, appsDir, dirs[1..], now, true).0
  {
  }

  lemma DistinctNamesTail(dirs: seq<DirEntry>)
    requires DistinctNames(dirs) && 0 < |dirs|
    ensures DistinctNames(dirs[1..])
  {
    var rest := dirs[1..];
    forall a, b | 0 <= a < b < |rest| ensures rest[a].name != rest[b].name {
      assert rest[a] == dirs[a + 1] && rest[b] == dirs[b + 1];
    }
  }

  /** A corrected scan over settled directories changes nothing and counts 0. */
  lemma {:induction false} ScanOverSettledNoop(reg: Registry, appsDir: string, dirs: seq<DirEntry>, now: int)
    requires reg.Valid()
    requires forall i :: 0 <= i < |dirs| && Accepted(dirs[i]) ==> Settled(reg, appsDir, dirs[i])
    ensures Scan(reg, appsDir, dirs, now, true) == (reg, 0)
    decreases |dirs|
  {
    if |dirs| > 0 {
      if Accepted(dirs[0]) {
        SettledStepNoop(reg, appsDir, dirs[0], now);
      }
      ScanOverSettledNoop(reg, appsDir, dirs[1..], now);
    }
  }

  /** The corrected scan is idempotent: scanning the same listing again
      registers nothing and leaves the registry as it was. */
  lemma DiscoverAppsFixedIdempotent(reg: Registry, appsDir: string, dirs: seq<DirEntry>, now: int, later: int)
    requires reg.Valid() && DistinctNames(dirs)
    ensures var first := DiscoverAppsFixed(reg, appsDir, dirs, now);
            DiscoverAppsFixed(first.0, appsDir, dirs, later) == (first.0, 0)
  {
    var first := DiscoverAppsFixed(reg, appsDir, dirs, now);
    ScanSettlesAll(reg, appsDir, dirs, now);
    ScanOverSettledNoop(first.0, appsDir, dirs, later);
  }
}

=== FILE: env.dfy ===
/** What the managers get back from the operating system, and how a Python
    call can end. */
module Env {
  /** The result of `subprocess.run`: the command exited with a code and its
      captured output, or running it raised (the exception's text). */
  datatype CmdResult =
    | Exited(rc: int, stdout: string, stderr: string)
    | NotRun(error: string)
  {
    predicate Succeeded() {
      Exited? && rc == 0
    }
  }

  /** A Python call either returns a value or raises. */
  datatype Outcome<T> = Returned(value: T) | Raised(error: string)
}

=== FILE: health.dfy ===
/**
 The health monitor: per-app consecutive-failure counters, escalation to
 ERROR and to a service restart, the mapping of a health response to a
 result, which apps a round checks, and the statistics. Each asynchronous
 step is one transition; the HTTP exchange and the restart command's result
 are inputs.
 */
module Health {
  import opened Wrappers
  import opened Text
  import opened JsonData
  import opened Apps
  import opened Registry
  import opened Env
  import Services

  // ---------------------------------------------------------------------------
  // Statuses, results, configuration
  // ---------------------------------------------------------------------------

  datatype HealthStatus = Good | Warning | HealthError | HealthUnknown

  function HealthName(h: HealthStatus): string {
    match h
    case Good => "good"
    case Warning => "warning"
    case HealthError => "error"
    case HealthUnknown => "unknown"
  }

  /** The status map of a 200 response: anything but the three names is unknown. */
  function ParseHealth(text: string): (h: HealthStatus)
    ensures h != HealthUnknown ==> HealthName(h) == text
    ensures h == HealthUnknown <==> text != "good" && text != "warning" && text != "error"
  {
    if text == "good" then Good
    else if text == "warning" then Warning
    else if text == "error" then HealthError
    else HealthUnknown
  }

  lemma HealthRoundTrip(h: HealthStatus)
    ensures ParseHealth(HealthName(h)) == h
  {
  }

  /** HealthCheckResult; the response time (a float) is not represented.
      `extraInfo` is JNull where the source leaves `extra_info` as None. */
  datatype CheckResult = CheckResult(appId: string, status: HealthStatus, message: string, extraInfo: Json, timestamp: int)

  /** HealthCheckConfig. */
  datatype HealthConfig = HealthConfig(enabled: bool, interval: int, timeout: int, maxFailures: int, failureThreshold: int)

  const DefaultHealthConfig: HealthConfig := HealthConfig(true, 30, 5, 3, 2)

  /** The monitor's own tables. Every failure count and every check time
      belongs to an app that has a result. */
  datatype Monitor = Monitor(
    config: HealthConfig, results: map<string, CheckResult>, failures: map<string, int>,
    lastCheck: map<string, int>, running: bool)
  {
    predicate Valid() {
      (forall k :: k in failures ==> k in results)
      && lastCheck.Keys == results.Keys
    }
  }

  function NewMonitor(): (m: Monitor)
    ensures m.Valid() && !m.running && m.results == map[]
  {
    Monitor(DefaultHealthConfig, map[], map[], map[], false)
  }

  /** What the monitor acts on: its tables, the registry, and the service
      manager's records (which a restart touches). */
  datatype World = World(monitor: Monitor, reg: Registry, services: map<string, Services.ServiceInfo>) {
    predicate Valid() {
      monitor.Valid() && reg.Valid()
    }
  }

  /** `failure_counts.get(app_id, 0)`. */
  function FailureCount(m: Monitor, appId: string): int {
    if appId in m.failures then m.failures[appId] else 0
  }

  /** The monitor's tables for apps other than `appId`, its configuration and
      its running flag are as before. */
  ghost predicate MonitorFrame(m: Monitor, m2: Monitor, appId: string) {
    m2.config == m.config && m2.running == m.running
    && (forall k :: k != appId ==> (k in m2.results <==> k in m.results))
    && (forall k :: k in m.results && k != appId ==> m2.results[k] == m.results[k])
    && (forall k :: k in m.lastCheck && k != appId ==> k in m2.lastCheck && m2.lastCheck[k] == m.lastCheck[k])
    && (forall k :: k != appId ==> FailureCount(m2, k) == FailureCount(m, k))
  }

  /** Everything the monitor, the registry and the service records hold for
      apps other than `appId` is as before. */
  ghost predicate OthersUnchanged(w: World, w2: World, appId: string) {
    RegFrame(w.reg, w2.reg, appId) && MonitorFrame(w.monitor, w2.monitor, appId)
    && w2.services.Keys == w.services.Keys
    && (forall k :: k in w.services && k != appId ==> w2.services[k] == w.services[k])
  }

  // ---------------------------------------------------------------------------
  // Failure handling and restart
  // ---------------------------------------------------------------------------

  const FailurePrefix: string := "Health check failures: "

  /** The monitor's side of a failure: one more consecutive failure and an
      ERROR result carrying the message. */
  function CountFailure(m: Monitor, appId: string, msg: string, now: int): (r: Monitor)
    requires m.Valid()
    ensures r.Valid() && MonitorFrame(m, r, appId)
    ensures FailureCount(r, appId) == FailureCount(m, appId) + 1
    ensures appId in r.results && r.results[appId] == CheckResult(appId, HealthError, msg, JNull, now)
    ensures r.lastCheck[appId] == now
  {
    m.(failures := m.failures[appId := FailureCount(m, appId) + 1],
       results := m.results[appId := CheckResult(appId, HealthError, msg, JNull, now)],
       lastCheck := m.lastCheck[appId := now])
  }

  /** The registry's side at the threshold: the app is ERROR and its runtime
      record carries the failure message; the update is saved. */
  function MarkUnhealthy(reg: Registry, appId: string, msg: string, now: int): (r: Registry)
    requires reg.Valid() && appId in reg.apps
    ensures r.Valid() && RegFrame(reg, r, appId) && r.saved == r.apps
    ensures r.apps[appId].status == Error
    ensures r.apps[appId].runtime == reg.apps[appId].runtime.(errorMessage := Some(FailurePrefix + msg))
    ensures r.apps[appId] == reg.apps[appId].(status := Error, runtime := r.apps[appId].runtime, lastUpdated := now)
  {
    var ri := reg.apps[appId].runtime.(errorMessage := Some(FailurePrefix + msg));
    SetStatusAndRuntime(SetRuntime(reg, appId, ri), appId, Error, ri, now)
  }

  /** The bookkeeping part of _handle_health_check_failure. */
  function RecordFailure(w: World, appId: string, msg: string, now: int): (r: World)
    requires w.Valid()
    ensures r.Valid() && OthersUnchanged(w, r, appId) && r.services == w.services
    ensures r.monitor == CountFailure(w.monitor, appId, msg, now)
    ensures FailureCount(r.monitor, appId) < w.monitor.config.failureThreshold || appId !in w.reg.apps ==> r.reg == w.reg
    ensures FailureCount(r.monitor, appId) >= w.monitor.config.failureThreshold && appId in w.reg.apps ==>
              r.reg == MarkUnhealthy(w.reg, appId, msg, now)
  {
    var m1 := CountFailure(w.monitor, appId, msg, now);
    if FailureCount(m1, appId) >= w.monitor.config.failureThreshold && appId in w.reg.apps then
      World(m1, MarkUnhealthy(w.reg, appId, msg, now), w.services)
    else World(m1, w.reg, w.services)
  }

  /** _attempt_service_restart: a successful restart clears the count and
      leaves the app RUNNING; a failed one changes nothing. */
  function AttemptRestart(w: World, appId: string, restart: CmdResult, now: int): (r: World)
    requires w.Valid() && appId in w.monitor.results  // the failure has been recorded
    ensures r.Valid() && OthersUnchanged(w, r, appId)
    ensures !restart.Succeeded() ==> r == w
    ensures restart.Succeeded() ==> FailureCount(r.monitor, appId) == 0
    ensures r.monitor.results == w.monitor.results && r.monitor.lastCheck == w.monitor.lastCheck
    ensures restart.Succeeded() && appId in w.reg.apps ==>
              r.reg.apps[appId] == w.reg.apps[appId].(status := Running, lastUpdated := now)
  {
    var (services, reg, ok) := Services.RestartService(w.services, w.reg, appId, restart, now);
    if ok then
      World(w.monitor.(failures := w.monitor.failures[appId := 0]), reg, services)
    else w
  }

  /** _handle_health_check_failure, given the result the restart command
      would have; the flag says whether a restart was attempted. */
  function HandleFailure(w: World, appId: string, msg: string, restart: CmdResult, now: int): (r: (World, bool))
    requires w.Valid()
    ensures r.0.Valid() && OthersUnchanged(w, r.0, appId)
    // A restart is attempted exactly when the new count reaches both limits.
    ensures r.1 <==> FailureCount(w.monitor, appId) + 1 >= w.monitor.config.failureThreshold
                     && FailureCount(w.monitor, appId) + 1 >= w.monitor.config.maxFailures
    ensures appId in r.0.monitor.results && r.0.monitor.results[appId] == CheckResult(appId, HealthError, msg, JNull, now)
    // The count goes up by one, unless a restart succeeded and cleared it.
    ensures r.1 && restart.Succeeded() ==> FailureCount(r.0.monitor, appId) == 0
    ensures !(r.1 && restart.Succeeded()) ==> FailureCount(r.0.monitor, appId) == FailureCount(w.monitor, appId) + 1
    // Below the threshold the registry is untouched; at it the app is in ERROR
    // with the failure message, unless a restart brought it back to RUNNING.
    ensures FailureCount(w.monitor, appId) + 1 < w.monitor.config.failureThreshold ==> r.0.reg == w.reg
    ensures FailureCount(w.monitor, appId) + 1 >= w.monitor.config.failureThreshold && appId in w.reg.apps ==>
              r.0.reg.apps[appId].runtime.errorMessage == Some(FailurePrefix + msg)
              && r.0.reg.apps[appId].status == (if r.1 && restart.Succeeded() then Running else Error)
  {
    var w1 := RecordFailure(w, appId, msg, now);
    var count := FailureCount(w1.monitor, appId);
    if count >= w.monitor.config.failureThreshold && count >= w.monitor.config.maxFailures then
      (AttemptRestart(w1, appId, restart, now), true)
    else (w1, false)
  }

  /** Because the comparison is `>=`, once the count has reached both limits
      every further failure attempts another restart while restarts fail. */
  lemma RestartRepeats(w: World, appId: string, msg1: string, msg2: string, restart: CmdResult, now: int)
    requires w.Valid() && !restart.Succeeded()
    requires HandleFailure(w, appId, msg1, restart, now).1
    ensures HandleFailure(HandleFailure(w, appId, msg1, restart, now).0, appId, msg2, restart, now).1
  {
  }

  // ---------------------------------------------------------------------------
  // One health check
  // ---------------------------------------------------------------------------

  /** What the GET on the app's /health URL produced. */
  datatype HealthProbe =
    | Responded(code: int, body: Outcome<Json>, text: string)  // body: the decoded JSON, or the decoder's error
    | TimedOut
    | RequestFailed(error: string)                                         // any other exception's text

  /** Python's `str()` of a JSON scalar; structures get a placeholder. */
  function JsonText(j: Json): string {
    match j
    case JNull => "None"
    case JBool(b) => if b then "True" else "False"
    case JInt(i) => IntToString(i)
    case JString(s) => s
    case JArray(_) => "[...]"
    case JObject(_) => "{...}"
  }

  /** Python's name for the type a JSON value decodes to. */
  function PyTypeName(j: Json): string {
    match j
    case JNull => "NoneType"
    case JBool(_) => "bool"
    case JInt(_) => "int"
    case JString(_) => "str"
    case JArray(_) => "list"
    case JObject(_) => "dict"
  }

  /** What a 200 body means: the status (or the error a non-hashable
      `health` value raises) and the message. */
  function ReadBody(fields: map<string, Json>): (r: (Outcome<HealthStatus>, string, Json))
    ensures "health" !in fields ==> r.0 == Returned(HealthUnknown)
    ensures "health" in fields && fields["health"].JString? ==> r.0 == Returned(ParseHealth(fields["health"].s))
    ensures "message" !in fields ==> r.1 == "No message provided"
    // `extra_info` is passed on as sent, and is an empty object when absent.
    ensures "extra_info" in fields ==> r.2 == fields["extra_info"]
    ensures "extra_info" !in fields ==> r.2 == JObject(map[])
  {
    var health :=
      if "health" !in fields then Returned(HealthUnknown)
      else match fields["health"]
        case JString(s) => Returned(ParseHealth(s))
        case JArray(_) => Raised("unhashable type: 'list'")
        case JObject(_) => Raised("unhashable type: 'dict'")
        case _ => Returned(HealthUnknown);
    (health, if "message" in fields then JsonText(fields["message"]) else "No message provided",
     if "extra_info" in fields then fields["extra_info"] else JObject(map[]))
  }

  /** _check_app_health. */
  function CheckAppHealth(w: World, appId: string, probe: HealthProbe, restart: CmdResult, now: int)
    : (r: (World, Option<CheckResult>))
    requires w.Valid()
    ensures r.0.Valid() && OthersUnchanged(w, r.0, appId)
    ensures appId !in w.reg.apps || !HasPort(w.reg.apps[appId]) ==> r == (w, None)
    // A result is returned only for a 200 response with a readable object body.
    ensures r.1.Some? ==> probe.Responded? && probe.code == 200 && r.1.value.appId == appId && r.1.value.timestamp == now
    // Its extra information is the body's `extra_info`, or an empty object.
    ensures r.1.Some? ==>
              probe.Responded? && probe.body.Returned? && probe.body.value.JObject?
              && (var fields := probe.body.value.fields;
                  r.1.value.extraInfo == if "extra_info" in fields then fields["extra_info"] else JObject(map[]))
    // A good or warning answer is recorded and resets the count.
    ensures r.1.Some? && (r.1.value.status == Good || r.1.value.status == Warning) ==>
              FailureCount(r.0.monitor, appId) == 0 && appId in r.0.monitor.results && r.0.monitor.results[appId] == r.1.value
    // Every other outcome of a checked app goes through the failure handler.
    ensures appId in w.reg.apps && HasPort(w.reg.apps[appId])
            && !(r.1.Some? && (r.1.value.status == Good || r.1.value.status == Warning)) ==>
              appId in r.0.monitor.results && r.0.monitor.results[appId].status == HealthError
              && (FailureCount(r.0.monitor, appId) == FailureCount(w.monitor, appId) + 1
                  || FailureCount(r.0.monitor, appId) == 0)
  {
    if appId !in w.reg.apps || !HasPort(w.reg.apps[appId]) then (w, None)
    else match probe
      case Responded(code, body, text) =>
        if code != 200 then
          (Failed(w, appId, "HTTP " + IntToString(code) + ": " + text, restart, now), None)
        else if body.Raised? then
          (Failed(w, appId, "Health check error: " + body.error, restart, now), None)
        else if !body.value.JObject? then
          var msg := "Health check error: '" + PyTypeName(body.value) + "' object has no attribute 'get'";
          (Failed(w, appId, msg, restart, now), None)
        else
          var (health, message, extraInfo) := ReadBody(body.value.fields);
          if health.Raised? then
            (Failed(w, appId, "Health check error: " + health.error, restart, now), None)
          else
            Answered(w, appId, health.value, message, extraInfo, restart, now)
      case TimedOut =>
        var msg := "Health check timeout after " + IntToString(w.monitor.config.timeout) + "s";
        (Failed(w, appId, msg, restart, now), None)
      case RequestFailed(error) =>
        (Failed(w, appId, "Health check error: " + error, restart, now), None)
  }

  /** The failure handler, seen from one check: the app's result is an ERROR
      and its count went up by one or was cleared by a restart. */
  function Failed(w: World, appId: string, msg: string, restart: CmdResult, now: int): (r: World)
    requires w.Valid()
    ensures r.Valid() && OthersUnchanged(w, r, appId)
    ensures appId in r.monitor.results && r.monitor.results[appId].status == HealthError
    ensures FailureCount(r.monitor, appId) == FailureCount(w.monitor, appId) + 1 || FailureCount(r.monitor, appId) == 0
  {
    HandleFailure(w, appId, msg, restart, now).0
  }

  /** The 200 answer is recorded, then either resets the count or goes
      through the failure handler. */
  function RecordAnswer(w: World, appId: string, result: CheckResult, restart: CmdResult, now: int): (r: World)
    requires w.Valid() && result.appId == appId
    ensures r.Valid() && OthersUnchanged(w, r, appId)
    ensures result.status == Good || result.status == Warning ==>
              FailureCount(r.monitor, appId) == 0 && appId in r.monitor.results && r.monitor.results[appId] == result
              && r.reg == w.reg
    ensures result.status != Good && result.status != Warning ==>
              r == HandleFailure(w, appId, result.message, restart, now).0
  {
    var m := w.monitor;
    if result.status == Good || result.status == Warning then
      w.(monitor := m.(results := m.results[appId := result], lastCheck := m.lastCheck[appId := now],
                       failures := m.failures[appId := 0]))
    else
      // The answer's own entry is overwritten by the handler's ERROR result.
      HandleFailure(w, appId, result.message, restart, now).0
  }

  /** `app.runtime_info.last_health_check = now` followed by the saving update. */
  function StampCheck(reg: Registry, appId: string, now: int): (r: Registry)
    requires reg.Valid() && appId in reg.apps
    ensures r.Valid() && RegFrame(reg, r, appId) && r.saved == r.apps
    ensures r.apps[appId] == reg.apps[appId].(runtime := reg.apps[appId].runtime.(lastHealthCheck := Some(now)), lastUpdated := now)
  {
    var ri := reg.apps[appId].runtime.(lastHealthCheck := Some(now));
    SetRuntimeSaved(SetRuntime(reg, appId, ri), appId, ri, now)
  }

  /** The 200 branch once the body has been read. */
  function Answered(w: World, appId: string, status: HealthStatus, message: string, extraInfo: Json,
                    restart: CmdResult, now: int)
    : (r: (World, Option<CheckResult>))
    requires w.Valid() && appId in w.reg.apps
    ensures r.0.Valid() && OthersUnchanged(w, r.0, appId)
    ensures r.1 == Some(CheckResult(appId, status, message, extraInfo, now))
    ensures r.0.monitor == RecordAnswer(w, appId, r.1.value, restart, now).monitor
    ensures r.0.reg.apps[appId].runtime.lastHealthCheck == Some(now)
  {
    var result := CheckResult(appId, status, message, extraInfo, now);
    var w1 := RecordAnswer(w, appId, result, restart, now);
    (w1.(reg := StampCheck(w1.reg, appId, now)), Some(result))
  }

  /** The bundled sample service answers with a `status` key and no `health`
      key, so every check of it counts as a failure. */
  lemma SampleBodyCountsAsFailure(w: World, appId: string, restart: CmdResult, now: int, timestamp: string)
    requires w.Valid() && appId in w.reg.apps && HasPort(w.reg.apps[appId])
    ensures var body := map["status" := JString("healthy"), "service" := JString("sample-service"),
                            "timestamp" := JString(timestamp)];
            var r := CheckAppHealth(w, appId, Responded(200, Returned(JObject(body)), ""), restart, now);
            r.1 == Some(CheckResult(appId, HealthUnknown, "No message provided", JObject(map[]), now))
            && r.0.monitor.results[appId].status == HealthError
  {
    var body := map["status" := JString("healthy"), "service" := JString("sample-service"),
                    "timestamp" := JString(timestamp)];
    assert body.Keys == {"status", "service", "timestamp"};
    assert |"health"| == 6 && |"message"| == 7 && |"status"| == 6 && |"service"| == 7 && |"timestamp"| == 9;
    assert "health" != "status" && "message" != "service" && "extra_info" !in body;
    UnlabelledBodyFails(w, appId, body, restart, now);
  }

  /** The same answer with the `health` and `message` keys the monitor reads:
      the check is GOOD, carries the message, and the count is reset. */
  lemma LabelledSampleBodyIsGood(w: World, appId: string, restart: CmdResult, now: int, timestamp: string)
    requires w.Valid() && appId in w.reg.apps && HasPort(w.reg.apps[appId])
    ensures var body := map["health" := JString("good"), "message" := JString("healthy"),
                            "service" := JString("sample-service"), "timestamp" := JString(timestamp)];
            var r := CheckAppHealth(w, appId, Responded(200, Returned(JObject(body)), ""), restart, now);
            r.1 == Some(CheckResult(appId, Good, "healthy", JObject(map[]), now)) && FailureCount(r.0.monitor, appId) == 0
  {
    var body := map["health" := JString("good"), "message" := JString("healthy"),
                    "service" := JString("sample-service"), "timestamp" := JString(timestamp)];
    assert "health" in body && body["health"] == JString("good");
    assert "message" in body && body["message"] == JString("healthy");
    assert "extra_info" !in body;
    assert ReadBody(body) == (Returned(Good), "healthy", JObject(map[]));
  }

  /** A 200 answer whose object has neither a `health` nor a `message` key is
      read as UNKNOWN and handed to the failure handler. */
  lemma UnlabelledBodyFails(w: World, appId: string, body: map<string, Json>, restart: CmdResult, now: int)
    requires w.Valid() && appId in w.reg.apps && HasPort(w.reg.apps[appId])
    requires "health" !in body && "message" !in body
    ensures var r := CheckAppHealth(w, appId, Responded(200, Returned(JObject(body)), ""), restart, now);
            var extra := if "extra_info" in body then body["extra_info"] else JObject(map[]);
            r.1 == Some(CheckResult(appId, HealthUnknown, "No message provided", extra, now))
            && r.0.monitor.results[appId].status == HealthError
  {
    var msg := "No message provided";
    var extra := if "extra_info" in body then body["extra_info"] else JObject(map[]);
    assert ReadBody(body) == (Returned(HealthUnknown), msg, extra);
    var r := Answered(w, appId, HealthUnknown, msg, extra, restart, now);
    assert CheckAppHealth(w, appId, Responded(200, Returned(JObject(body)), ""), restart, now) == r;
    var result := CheckResult(appId, HealthUnknown, msg, extra, now);
    var h := HandleFailure(w, appId, msg, restart, now).0;
    assert RecordAnswer(w, appId, result, restart, now) == h;
    assert r.0.monitor == h.monitor;
  }

  // ---------------------------------------------------------------------------
  // One round of checks
  // ---------------------------------------------------------------------------

  /** The running service apps, in registry order. */
  function RunningServiceApps(reg: Registry): (r: seq<string>)
    requires reg.Valid()
    ensures forall i :: 0 <= i < |r| ==> r[i] in reg.apps && reg.apps[r[i]].appType == Service && reg.apps[r[i]].status == Running
    ensures forall k :: k in reg.apps && reg.apps[k].appType == Service && reg.apps[k].status == Running ==> k in r
  {
    SelectIds(reg, reg.ids, false)
  }

  predicate HasUI(e: Entry) {
    e.manifest.config.Some? && e.manifest.config.value.hasUI
  }

  /** The apps a round starts a check for: running service apps with a UI. */
  function CheckedApps(reg: Registry): (r: seq<string>)
    requires reg.Valid()
    ensures forall i :: 0 <= i < |r| ==>
              r[i] in reg.apps && reg.apps[r[i]].appType == Service && reg.apps[r[i]].status == Running && HasUI(reg.apps[r[i]])
    ensures forall k :: k in reg.apps && reg.apps[k].appType == Service && reg.apps[k].status == Running && HasUI(reg.apps[k]) ==> k in r
  {
    SelectIds(reg, reg.ids, true)
  }

  function SelectIds(reg: Registry, ids: seq<string>, needUI: bool): (r: seq<string>)
    requires reg.Valid() && forall i :: 0 <= i < |ids| ==> ids[i] in reg.apps
    ensures forall i :: 0 <= i < |r| ==>
              r[i] in ids && reg.apps[r[i]].appType == Service && reg.apps[r[i]].status == Running
              && (needUI ==> HasUI(reg.apps[r[i]]))
    ensures forall k :: (k in ids && reg.apps[k].appType == Service && reg.apps[k].status == Running
              && (needUI ==> HasUI(reg.apps[k]))) ==> k in r
    ensures |r| <= |ids|
  {
    if |ids| == 0 then []
    else
      var e := reg.apps[ids[0]];
      var rest := SelectIds(reg, ids[1..], needUI);
      if e.appType == Service && e.status == Running && (!needUI || HasUI(e)) then [ids[0]] + rest else rest
  }

  /** There are no more apps with a UI than running apps. */
  lemma {:induction false} SelectUIShorter(reg: Registry, ids: seq<string>)
    requires reg.Valid() && forall i :: 0 <= i < |ids| ==> ids[i] in reg.apps
    ensures |SelectIds(reg, ids, true)| <= |SelectIds(reg, ids, false)|
    decreases |ids|
  {
    if |ids| > 0 {
      SelectUIShorter(reg, ids[1..]);
    }
  }

  /** The checks of a round, one after another. */
  function RunChecks(w: World, ids: seq<string>, probe: string -> HealthProbe, restart: string -> CmdResult, now: int)
    : (r: World)
    requires w.Valid()
    ensures r.Valid()
    ensures r.reg.apps.Keys == w.reg.apps.Keys
    ensures forall k :: k !in ids ==> FailureCount(r.monitor, k) == FailureCount(w.monitor, k)
    decreases |ids|
  {
    if |ids| == 0 then w
    else RunChecks(CheckAppHealth(w, ids[0], probe(ids[0]), restart(ids[0]), now).0, ids[1..], probe, restart, now)
  }

  /** The failure handler runs for each check whose task raised, charged to
      the app `owners[i]`. */
  function ChargeRaised(w: World, owners: seq<string>, raised: seq<Option<string>>, restart: string -> CmdResult, now: int)
    : (r: World)
    requires w.Valid() && |raised| <= |owners|
    ensures r.Valid()
    ensures r.reg.apps.Keys == w.reg.apps.Keys
    ensures forall k :: k !in owners ==> FailureCount(r.monitor, k) == FailureCount(w.monitor, k)
    decreases |raised|
  {
    if |raised| == 0 then w
    else
      var w1 := if raised[0].Some? then HandleFailure(w, owners[0], raised[0].value, restart(owners[0]), now).0 else w;
      ChargeRaised(w1, owners[1..], raised[1..], restart, now)
  }

  /** Which checks raised out of their own handlers, in task order. */
  function RaisedChecks(ids: seq<string>, escaped: string -> Option<string>): (r: seq<Option<string>>)
    ensures |r| == |ids| && forall i :: 0 <= i < |ids| ==> r[i] == escaped(ids[i])
  {
    seq(|ids|, i requires 0 <= i < |ids| => escaped(ids[i]))
  }

  /** _perform_health_checks as written: a raised check at task index i is
      charged to `running_apps[i]`, although tasks exist only for apps with a UI. */
  function PerformHealthChecks(w: World, probe: string -> HealthProbe, restart: string -> CmdResult,
                               escaped: string -> Option<string>, now: int): (r: World)
    requires w.Valid()
    ensures r.Valid()
    ensures forall k :: k !in RunningServiceApps(w.reg) ==> FailureCount(r.monitor, k) == FailureCount(w.monitor, k)
  {
    var running := RunningServiceApps(w.reg);
    var checked := CheckedApps(w.reg);
    SelectUIShorter(w.reg, w.reg.ids);
    var w1 := RunChecks(w, checked, probe, restart, now);
    assert forall k :: k !in running ==> k !in checked;
    ChargeRaised(w1, running, RaisedChecks(checked, escaped), restart, now)
  }

  /** The same round with each raised check charged to the app it checked. */
  function PerformHealthChecksFixed(w: World, probe: string -> HealthProbe, restart: string -> CmdResult,
                                    escaped: string -> Option<string>, now: int): (r: World)
    requires w.Valid()
    ensures r.Valid()
    // Only checked apps' counts can change.
    ensures forall k :: k !in CheckedApps(w.reg) ==> FailureCount(r.monitor, k) == FailureCount(w.monitor, k)
  {
    var checked := CheckedApps(w.reg);
    var w1 := RunChecks(w, checked, probe, restart, now);
    ChargeRaised(w1, checked, RaisedChecks(checked, escaped), restart, now)
  }

  /** The situation of MisattributedFailure: two running service apps, the
      first without a UI, no failures yet. The check of the second times out,
      and its failure handling then raises out of the task (`escaped`).
      A concrete trigger: after `update_config(failure_threshold="3")` the
      handler counts the failure and records the ERROR result, then compares
      the count with a string, and the TypeError leaves the except clause of
      the check. The typed configuration here cannot hold a string, so the
      raise is the input `escaped`; the count and result written before it
      are what the handler writes below the threshold. */
  predicate RaisingRound(w: World, a: string, b: string, probe: string -> HealthProbe,
                         restart: string -> CmdResult, escaped: string -> Option<string>)
  {
    w.Valid() && w.monitor.failures == map[]
    && w.reg.ids == [a, b] && a != b
    && w.reg.apps[a].appType == Service && w.reg.apps[a].status == Running && !HasUI(w.reg.apps[a])
    && w.reg.apps[b].appType == Service && w.reg.apps[b].status == Running && HasUI(w.reg.apps[b])
    && HasPort(w.reg.apps[b]) && probe(b) == TimedOut && escaped(b).Some?
    && !restart(a).Succeeded() && !restart(b).Succeeded()
  }

  /** The round as written charges the raise of the second app's check to the
      first app, which was never checked: each app ends with one failure. */
  lemma MisattributedFailure(w: World, a: string, b: string, probe: string -> HealthProbe,
                             restart: string -> CmdResult, escaped: string -> Option<string>, now: int)
    requires RaisingRound(w, a, b, probe, restart, escaped)
    ensures var asWritten := PerformHealthChecks(w, probe, restart, escaped, now);
            FailureCount(asWritten.monitor, a) == 1 && FailureCount(asWritten.monitor, b) == 1
  {
    AsWrittenRoundCounts(w, a, b, probe, restart, escaped, now);
    CheckTimesOut(w, a, b, probe, restart, now);
  }

  /** The round as written adds one failure to the first app's count after
      the check, and none to the second's. */
  lemma AsWrittenRoundCounts(w: World, a: string, b: string, probe: string -> HealthProbe,
                             restart: string -> CmdResult, escaped: string -> Option<string>, now: int)
    requires RaisingRound(w, a, b, probe, restart, escaped)
    ensures var w1 := RunChecks(w, [b], probe, restart, now);
            var asWritten := PerformHealthChecks(w, probe, restart, escaped, now);
            FailureCount(asWritten.monitor, a) == FailureCount(w1.monitor, a) + 1
            && FailureCount(asWritten.monitor, b) == FailureCount(w1.monitor, b)
  {
    AsWrittenRound(w, a, b, probe, restart, escaped, now);
    ChargeFirstOfTwo(RunChecks(w, [b], probe, restart, now), a, b, escaped(b).value, restart, now);
  }

  /** The same round fixed charges the raise to the app whose check raised:
      the first app stays at no failures and the second has two. */
  lemma RaiseChargedToCheckedApp(w: World, a: string, b: string, probe: string -> HealthProbe,
                                 restart: string -> CmdResult, escaped: string -> Option<string>, now: int)
    requires RaisingRound(w, a, b, probe, restart, escaped)
    ensures var fixed := PerformHealthChecksFixed(w, probe, restart, escaped, now);
            FailureCount(fixed.monitor, a) == 0 && FailureCount(fixed.monitor, b) == 2
  {
    FixedRoundCounts(w, a, b, probe, restart, escaped, now);
    CheckTimesOut(w, a, b, probe, restart, now);
  }

  /** The fixed round adds one failure to the second app's count after its
      check, and none to the first's. */
  lemma FixedRoundCounts(w: World, a: string, b: string, probe: string -> HealthProbe,
                         restart: string -> CmdResult, escaped: string -> Option<string>, now: int)
    requires RaisingRound(w, a, b, probe, restart, escaped)
    ensures var w1 := RunChecks(w, [b], probe, restart, now);
            var fixed := PerformHealthChecksFixed(w, probe, restart, escaped, now);
            FailureCount(fixed.monitor, b) == FailureCount(w1.monitor, b) + 1
            && FailureCount(fixed.monitor, a) == FailureCount(w1.monitor, a)
  {
    FixedRound(w, a, b, probe, restart, escaped, now);
    ChargeOnly(RunChecks(w, [b], probe, restart, now), b, a, escaped(b).value, restart, now);
  }

  lemma AsWrittenRound(w: World, a: string, b: string, probe: string -> HealthProbe,
                       restart: string -> CmdResult, escaped: string -> Option<string>, now: int)
    requires RaisingRound(w, a, b, probe, restart, escaped)
    ensures PerformHealthChecks(w, probe, restart, escaped, now)
            == ChargeRaised(RunChecks(w, [b], probe, restart, now), [a] + [b], [Some(escaped(b).value)], restart, now)
  {
    assert w.reg.ids[1..] == [b];
    assert w.reg.ids[1..][1..] == [];
    assert RunningServiceApps(w.reg) == [a] + [b];
    assert CheckedApps(w.reg) == [b];
    assert RaisedChecks([b], escaped) == [Some(escaped(b).value)];
  }

  lemma FixedRound(w: World, a: string, b: string, probe: string -> HealthProbe,
                   restart: string -> CmdResult, escaped: string -> Option<string>, now: int)
    requires RaisingRound(w, a, b, probe, restart, escaped)
    ensures PerformHealthChecksFixed(w, probe, restart, escaped, now)
            == ChargeRaised(RunChecks(w, [b], probe, restart, now), [b], [Some(escaped(b).value)], restart, now)
  {
    assert w.reg.ids[1..] == [b];
    assert w.reg.ids[1..][1..] == [];
    assert CheckedApps(w.reg) == [b];
    assert RaisedChecks([b], escaped) == [Some(escaped(b).value)];
  }

  /** A timed-out check of an app with a port and a failing restart counts one
      failure for that app and none for any other. */
  lemma CheckTimesOut(w: World, a: string, b: string, probe: string -> HealthProbe, restart: string -> CmdResult, now: int)
    requires w.Valid() && w.monitor.failures == map[] && a != b
    requires b in w.reg.apps && HasPort(w.reg.apps[b]) && probe(b) == TimedOut && !restart(b).Succeeded()
    ensures var w1 := RunChecks(w, [b], probe, restart, now);
            w1.Valid() && FailureCount(w1.monitor, b) == 1 && FailureCount(w1.monitor, a) == 0
  {
    var msg := "Health check timeout after " + IntToString(w.monitor.config.timeout) + "s";
    var h := HandleFailure(w, b, msg, restart(b), now).0;
    assert CheckAppHealth(w, b, probe(b), restart(b), now).0 == h;
    assert [b][1..] == [];
    assert RunChecks(h, [], probe, restart, now) == h;
    assert RunChecks(w, [b], probe, restart, now) == h;
  }

  /** One raised check charged to `owner`, the first of two apps, with a
      failing restart: the owner's count goes up by one and `other`'s does not
      move. */
  lemma ChargeFirstOfTwo(w: World, owner: string, other: string, msg: string, restart: string -> CmdResult, now: int)
    requires w.Valid() && owner != other && !restart(owner).Succeeded()
    ensures var r := ChargeRaised(w, [owner] + [other], [Some(msg)], restart, now);
            FailureCount(r.monitor, owner) == FailureCount(w.monitor, owner) + 1
            && FailureCount(r.monitor, other) == FailureCount(w.monitor, other)
  {
    var h := HandleFailure(w, owner, msg, restart(owner), now).0;
    assert [Some(msg)][1..] == [];
    assert ([owner] + [other])[1..] == [other];
    assert ChargeRaised(h, [other], [], restart, now) == h;
  }

  /** The same with `owner` the only app charged. */
  lemma ChargeOnly(w: World, owner: string, other: string, msg: string, restart: string -> CmdResult, now: int)
    requires w.Valid() && owner != other && !restart(owner).Succeeded()
    ensures var r := ChargeRaised(w, [owner], [Some(msg)], restart, now);
            FailureCount(r.monitor, owner) == FailureCount(w.monitor, owner) + 1
            && FailureCount(r.monitor, other) == FailureCount(w.monitor, other)
  {
    var h := HandleFailure(w, owner, msg, restart(owner), now).0;
    assert [Some(msg)][1..] == [];
    assert [owner][1..] == [];
    assert ChargeRaised(h, [], [], restart, now) == h;
  }

  /** With the default limits (threshold 2, restart at 3) the second failure
      puts the app in ERROR, and an app in ERROR is no longer checked, so the
      rounds alone never reach the restart. */
  lemma ErrorStopsChecks(w: World, appId: string, msg: string, restart: CmdResult, now: int)
    requires w.Valid() && w.monitor.config == DefaultHealthConfig
    requires appId in w.reg.apps && FailureCount(w.monitor, appId) == 1
    ensures var r := HandleFailure(w, appId, msg, restart, now);
            !r.1 && r.0.reg.apps[appId].status == Error
            && appId !in CheckedApps(r.0.reg) && appId !in RunningServiceApps(r.0.reg)
  {
    var r := HandleFailure(w, appId, msg, restart, now);
    assert r.0.reg.apps[appId].status == Error;
  }

  // ---------------------------------------------------------------------------
  // Start / stop, configuration, statistics
  // ---------------------------------------------------------------------------

  /** start_monitoring: a no-op while running. */
  function StartMonitoring(m: Monitor): (r: Monitor)
    ensures r.running
    ensures m.running ==> r == m
    ensures r.config == m.config && r.results == m.results && r.failures == m.failures && r.lastCheck == m.lastCheck
  {
    m.(running := true)
  }

  /** stop_monitoring: a no-op while stopped. */
  function StopMonitoring(m: Monitor): (r: Monitor)
    ensures !r.running
    ensures !m.running ==> r == m
    ensures r.config == m.config && r.results == m.results && r.failures == m.failures && r.lastCheck == m.lastCheck
  {
    m.(running := false)
  }

  lemma StartStopRoundTrip(m: Monitor)
    requires !m.running
    ensures StopMonitoring(StartMonitoring(m)) == m
  {
  }

  /** A configuration value handed to update_config. */
  datatype ConfigValue = BoolV(b: bool) | IntV(i: int)

  /** `hasattr(config, key)` and the field's type: "enabled" is a flag, the rest are integers. */
  predicate ConfigFits(key: string, v: ConfigValue) {
    (key == "enabled" ==> v.BoolV?)
    && (key == "interval" || key == "timeout" || key == "max_failures" || key == "failure_threshold" ==> v.IntV?)
  }

  function SetConfig(c: HealthConfig, kv: (string, ConfigValue)): HealthConfig
    requires ConfigFits(kv.0, kv.1)
  {
    match kv.0
    case "enabled" => c.(enabled := kv.1.b)
    case "interval" => c.(interval := kv.1.i)
    case "timeout" => c.(timeout := kv.1.i)
    case "max_failures" => c.(maxFailures := kv.1.i)
    case "failure_threshold" => c.(failureThreshold := kv.1.i)
    case _ => c
  }

  /** update_config: each known key is set in order, unknown keys are ignored. */
  function UpdateConfig(c: HealthConfig, kwargs: seq<(string, ConfigValue)>): HealthConfig
    requires forall i :: 0 <= i < |kwargs| ==> ConfigFits(kwargs[i].0, kwargs[i].1)
    decreases |kwargs|
  {
    if |kwargs| == 0 then c else UpdateConfig(SetConfig(c, kwargs[0]), kwargs[1..])
  }

  /** The last value given for a key, if any. */
  function LastConfigValue(kwargs: seq<(string, ConfigValue)>, key: string): Option<ConfigValue>
    decreases |kwargs|
  {
    if |kwargs| == 0 then None
    else if LastConfigValue(kwargs[1..], key).Some? then LastConfigValue(kwargs[1..], key)
    else if kwargs[0].0 == key then Some(kwargs[0].1)
    else None
  }

  /** The configuration attribute a key names, as a value; None for a key
      that names no attribute. */
  function ConfigField(c: HealthConfig, key: string): Option<ConfigValue> {
    match key
    case "enabled" => Some(BoolV(c.enabled))
    case "interval" => Some(IntV(c.interval))
    case "timeout" => Some(IntV(c.timeout))
    case "max_failures" => Some(IntV(c.maxFailures))
    case "failure_threshold" => Some(IntV(c.failureThreshold))
    case _ => None
  }

  /** The five attributes determine a configuration. */
  lemma ConfigFieldsDetermine(c: HealthConfig, d: HealthConfig)
    requires forall key :: ConfigField(c, key) == ConfigField(d, key)
    ensures c == d
  {
    assert ConfigField(c, "enabled") == ConfigField(d, "enabled");
    assert ConfigField(c, "interval") == ConfigField(d, "interval");
    assert ConfigField(c, "timeout") == ConfigField(d, "timeout");
    assert ConfigField(c, "max_failures") == ConfigField(d, "max_failures");
    assert ConfigField(c, "failure_threshold") == ConfigField(d, "failure_threshold");
  }

  /** Setting one keyword changes the attribute it names and nothing else. */
  lemma SetConfigField(c: HealthConfig, kv: (string, ConfigValue), key: string)
    requires ConfigFits(kv.0, kv.1)
    ensures ConfigField(SetConfig(c, kv), key) == if kv.0 == key && ConfigField(c, key).Some? then Some(kv.1) else ConfigField(c, key)
  {
  }

  /** After update_config each attribute holds the last value given for it,
      or its old value; keys naming no attribute change nothing. */
  lemma {:induction false} UpdateConfigField(c: HealthConfig, kwargs: seq<(string, ConfigValue)>, key: string)
    requires forall i :: 0 <= i < |kwargs| ==> ConfigFits(kwargs[i].0, kwargs[i].1)
    ensures ConfigField(UpdateConfig(c, kwargs), key)
            == if LastConfigValue(kwargs, key).Some? && ConfigField(c, key).Some? then LastConfigValue(kwargs, key)
               else ConfigField(c, key)
    decreases |kwargs|
  {
    if |kwargs| > 0 {
      var c1 := SetConfig(c, kwargs[0]);
      SetConfigField(c, kwargs[0], key);
      UpdateConfigField(c1, kwargs[1..], key);
    }
  }

  datatype HealthStatistics = HealthStatistics(
    totalApps: nat, healthyApps: nat, warningApps: nat, errorApps: nat, unknownApps: nat, totalFailures: int)

  /** `keys` lists the keys of a map once each (a dict's iteration order). */
  ghost predicate Listing<V>(keys: seq<string>, m: map<string, V>) {
    Distinct(keys) && forall k :: k in keys <==> k in m
  }

  function CountHealth(keys: seq<string>, results: map<string, CheckResult>, h: HealthStatus): nat
    requires forall i :: 0 <= i < |keys| ==> keys[i] in results
    decreases |keys|
  {
    if |keys| == 0 then 0
    else CountHealth(keys[..|keys| - 1], results, h) + (if results[keys[|keys| - 1]].status == h then 1 else 0)
  }

  function SumFailures(keys: seq<string>, failures: map<string, int>): int
    requires forall i :: 0 <= i < |keys| ==> keys[i] in failures
    decreases |keys|
  {
    if |keys| == 0 then 0 else SumFailures(keys[..|keys| - 1], failures) + failures[keys[|keys| - 1]]
  }

  /** get_health_statistics, iterating the two tables in the given orders
      (the average response time is left out). */
  method GetHealthStatistics(m: Monitor, resultKeys: seq<string>, failureKeys: seq<string>) returns (st: HealthStatistics)
    requires Listing(resultKeys, m.results) && Listing(failureKeys, m.failures)
    ensures |m.results| == 0 ==> st == HealthStatistics(0, 0, 0, 0, 0, 0)
    ensures st.totalApps == |m.results|
    ensures st.healthyApps == CountHealth(resultKeys, m.results, Good)
    ensures st.warningApps == CountHealth(resultKeys, m.results, Warning)
    ensures st.errorApps == CountHealth(resultKeys, m.results, HealthError)
    ensures st.unknownApps == CountHealth(resultKeys, m.results, HealthUnknown)
    ensures |m.results| > 0 ==> st.totalFailures == SumFailures(failureKeys, m.failures)
  {
    ListingSize(resultKeys, m.results);
    if |m.results| == 0 {
      return HealthStatistics(0, 0, 0, 0, 0, 0);
    }
    var total := TotalFailures(failureKeys, m.failures);
    var good, warning, error, unknown := TallyHealth(resultKeys, m.results);
    st := HealthStatistics(|m.results|, good, warning, error, unknown, total);
  }

  /** The failure counts of the listed apps, summed in listing order. */
  method TotalFailures(keys: seq<string>, failures: map<string, int>) returns (total: int)
    requires forall i :: 0 <= i < |keys| ==> keys[i] in failures
    ensures total == SumFailures(keys, failures)
  {
    total := 0;
    for i := 0 to |keys|
      invariant total == SumFailures(keys[..i], failures)
    {
      assert keys[..i + 1][..i] == keys[..i];
      total := total + failures[keys[i]];
    }
    assert keys[..|keys|] == keys;
  }

  /** The listed apps counted by the status of their last check. */
  method TallyHealth(keys: seq<string>, results: map<string, CheckResult>)
    returns (good: nat, warning: nat, error: nat, unknown: nat)
    requires forall i :: 0 <= i < |keys| ==> keys[i] in results
    ensures good == CountHealth(keys, results, Good)
    ensures warning == CountHealth(keys, results, Warning)
    ensures error == CountHealth(keys, results, HealthError)
    ensures unknown == CountHealth(keys, results, HealthUnknown)
  {
    good, warning, error, unknown := 0, 0, 0, 0;
    for i := 0 to |keys|
      invariant good == CountHealth(keys[..i], results, Good)
      invariant warning == CountHealth(keys[..i], results, Warning)
      invariant error == CountHealth(keys[..i], results, HealthError)
      invariant unknown == CountHealth(keys[..i], results, HealthUnknown)
    {
      assert keys[..i + 1][..i] == keys[..i];
      match results[keys[i]].status
      case Good => good := good + 1;
      case Warning => warning := warning + 1;
      case HealthError => error := error + 1;
      case HealthUnknown => unknown := unknown + 1;
    }
    assert keys[..|keys|] == keys;
  }

  /** A listing is as long as the map is large. */
  lemma {:induction false} ListingSize<V>(keys: seq<string>, m: map<string, V>)
    requires Listing(keys, m)
    ensures |keys| == |m|
    decreases |keys|
  {
    if |keys| == 0 {
      assert forall k :: k in m.Keys ==> k in keys;
      assert m.Keys == {};
    } else {
      var k := keys[|keys| - 1];
      var m1 := map j | j in m && j != k :: m[j];
      ListingDropLast(keys, m);
      ListingSize(keys[..|keys| - 1], m1);
      assert m.Keys == m1.Keys + {k};
    }
  }

  /** Dropping the last key of a listing lists the map without that key. */
  lemma ListingDropLast<V>(keys: seq<string>, m: map<string, V>)
    requires Listing(keys, m) && |keys| > 0
    ensures Listing(keys[..|keys| - 1], map j | j in m && j != keys[|keys| - 1] :: m[j])
  {
    var k := keys[|keys| - 1];
    var rest := keys[..|keys| - 1];
    var m1 := map j | j in m && j != k :: m[j];
    assert Distinct(rest) by {
      forall i, j | 0 <= i < j < |rest| ensures rest[i] != rest[j] {
        assert rest[i] == keys[i] && rest[j] == keys[j];
      }
    }
    forall j
      ensures j in rest <==> j in m1
    {
      if j in rest {
        var i :| 0 <= i < |rest| && rest[i] == j;
        assert keys[i] == j;
      }
      if j in m1 {
        assert j in keys;
        var i :| 0 <= i < |keys| && keys[i] == j;
        assert i != |keys| - 1;
        assert rest[i] == j;
      }
    }
  }

  /** Every result has one status, so the four counts add up to total_apps. */
  lemma {:induction false} HealthCountsPartition(keys: seq<string>, results: map<string, CheckResult>)
    requires forall i :: 0 <= i < |keys| ==> keys[i] in results
    ensures CountHealth(keys, results, Good) + CountHealth(keys, results, Warning)
            + CountHealth(keys, results, HealthError) + CountHealth(keys, results, HealthUnknown) == |keys|
    decreases |keys|
  {
    if |keys| > 0 {
      HealthCountsPartition(keys[..|keys| - 1], results);
    }
  }

  /** The statistics' counts add up to total_apps, and the early return for
      no results loses no failures: without results there are no counts. */
  lemma HealthStatisticsConsistent(m: Monitor, resultKeys: seq<string>, failureKeys: seq<string>)
    requires m.Valid() && Listing(resultKeys, m.results) && Listing(failureKeys, m.failures)
    ensures CountHealth(resultKeys, m.results, Good) + CountHealth(resultKeys, m.results, Warning)
            + CountHealth(resultKeys, m.results, HealthError) + CountHealth(resultKeys, m.results, HealthUnknown)
            == |m.results|
    ensures |m.results| == 0 ==> SumFailures(failureKeys, m.failures) == 0
  {
    HealthCountsPartition(resultKeys, m.results);
    ListingSize(resultKeys, m.results);
    assert forall i :: 0 <= i < |failureKeys| ==> failureKeys[i] in m.failures && failureKeys[i] in m.results;
    assert |m.results| == 0 ==> m.results.Keys == {};
  }
}

=== FILE: jsondata.dfy ===
/** The JSON values the orchestrator reads and writes (manifests, the registry
    file): floating-point numbers are not represented. An object is a map from
    key to value, so a duplicated key keeps one value, as `json.load` does. */
module JsonData {
  datatype Json =
    | JNull
    | JBool(b: bool)
    | JInt(i: int)
    | JString(s: string)
    | JArray(items: seq<Json>)
    | JObject(fields: map<string, Json>)
}

=== FILE: logs.dfy ===
/**
 The log reader: which log files an app has, the recent lines read from
 them with an optional level filter, and the apps that have a log
 directory. File contents and directory listings are inputs; a file that
 cannot be read is a raised outcome.
 */
module Logs {
  import opened Wrappers
  import opened Text
  import opened Env

  // ---------------------------------------------------------------------------
  // Python slices
  // ---------------------------------------------------------------------------

  /** `xs[start:]` with Python's reading of a negative start. */
  function SliceFrom<T>(xs: seq<T>, start: int): (r: seq<T>)
    ensures |r| <= |xs| && xs == xs[..|xs| - |r|] + r
    ensures start >= 0 ==> |r| == (if start <= |xs| then |xs| - start else 0)
    ensures start < 0 ==> |r| == (if -start <= |xs| then -start else |xs|)
  {
    if start >= 0 then xs[if start <= |xs| then start else |xs|..]
    else xs[if |xs| + start >= 0 then |xs| + start else 0..]
  }

  /** `xs[-n:]`: the last `n` elements when `n` is positive, but all of them
      when `n` is 0 (the slice starts at -0, that is at 0). */
  function LastLines<T>(xs: seq<T>, n: int): (r: seq<T>)
    ensures n > 0 ==> |r| == (if |xs| < n then |xs| else n) && r == xs[|xs| - |r|..]
    ensures n == 0 ==> r == xs
  {
    SliceFrom(xs, -n)
  }

  lemma LastLinesOfLonger<T>(a: seq<T>, b: seq<T>, n: int)
    requires 0 < n <= |b|
    ensures LastLines(a + b, n) == LastLines(b, n)
  {
    assert (a + b)[|a + b| - n..] == b[|b| - n..];
  }

  // ---------------------------------------------------------------------------
  // The files of an app
  // ---------------------------------------------------------------------------

  const MaxBackups: nat := 10

  /** The rotated files `<app>.log.1` … `<app>.log.k`. */
  function BackupNames(appId: string, k: nat): (r: seq<string>)
    ensures |r| == k
    ensures forall i :: 0 <= i < k ==> r[i] == appId + ".log." + NatToString(i + 1)
  {
    if k == 0 then [] else BackupNames(appId, k - 1) + [appId + ".log." + NatToString(k)]
  }

  function Existing(names: seq<string>, exists_: string -> bool): (r: seq<string>)
    ensures forall x :: x in r <==> x in names && exists_(x)
    ensures |r| <= |names|
  {
    if |names| == 0 then []
    else (if exists_(names[0]) then [names[0]] else []) + Existing(names[1..], exists_)
  }

  /** get_app_log_files before the ordering by modification time: none when
      the app's directory is missing, else the main file and the backups
      that exist. */
  function AppLogFiles(appId: string, dirExists: bool, exists_: string -> bool): (r: seq<string>)
    ensures !dirExists ==> r == []
    ensures |r| <= 1 + MaxBackups
    ensures forall x :: x in r <==> dirExists && exists_(x) && (x == appId + ".log" || x in BackupNames(appId, MaxBackups))
  {
    if !dirExists then [] else Existing([appId + ".log"] + BackupNames(appId, MaxBackups), exists_)
  }

  // ---------------------------------------------------------------------------
  // Recent lines
  // ---------------------------------------------------------------------------

  /** The text a line must contain to pass the level filter. */
  function Needle(level: string): string {
    " - " + Upper(level) + " - "
  }

  /** A filter of None or "" keeps every line. */
  predicate Filtering(level: Option<string>) {
    level.Some? && level.value != ""
  }

  /** The list comprehension of the level filter: the lines containing
      `needle`, in their order. */
  function Matching(lines: seq<string>, needle: string): (r: seq<string>)
    ensures |r| <= |lines|
  {
    if |lines| == 0 then []
    else (if Contains(lines[0], needle) then [lines[0]] else []) + Matching(lines[1..], needle)
  }

  lemma {:induction false} MatchingMembers(lines: seq<string>, needle: string)
    ensures forall l :: l in Matching(lines, needle) <==> l in lines && Contains(l, needle)
    decreases |lines|
  {
    if |lines| > 0 {
      MatchingMembers(lines[1..], needle);
      assert lines == [lines[0]] + lines[1..];
    }
  }

  lemma {:induction false} MatchingAppend(a: seq<string>, b: seq<string>, needle: string)
    ensures Matching(a + b, needle) == Matching(a, needle) + Matching(b, needle)
    decreases |a|
  {
    if |a| == 0 {
      assert a + b == b;
    } else {
      MatchingAppend(a[1..], b, needle);
      assert (a + b)[1..] == a[1..] + b;
    }
  }

  function KeepLevel(lines: seq<string>, level: Option<string>): (r: seq<string>)
    ensures |r| <= |lines|
    ensures forall l :: l in r ==> l in lines
    ensures Filtering(level) ==> forall l :: l in r <==> l in lines && Contains(l, Needle(level.value))
    ensures !Filtering(level) ==> r == lines
  {
    if !Filtering(level) then lines
    else
      MatchingMembers(lines, Needle(level.value));
      Matching(lines, Needle(level.value))
  }

  /** The filter looks at one line at a time: a single line is kept exactly
      when it passes. */
  lemma KeepLevelOne(l: string, level: Option<string>)
    ensures KeepLevel([l], level) == if !Filtering(level) || Contains(l, Needle(level.value)) then [l] else []
  {
    assert [l][1..] == [];
  }

  /** The filter keeps the order of the lines: filtering a concatenation is
      filtering each part. With KeepLevelOne this fixes the result line by line. */
  lemma KeepLevelAppend(a: seq<string>, b: seq<string>, level: Option<string>)
    ensures KeepLevel(a + b, level) == KeepLevel(a, level) + KeepLevel(b, level)
  {
    if Filtering(level) {
      MatchingAppend(a, b, Needle(level.value));
    }
  }

  /** The kept lines of one file: none when it cannot be read. */
  function Kept(file: Outcome<seq<string>>, level: Option<string>): seq<string> {
    if file.Returned? then KeepLevel(file.value, level) else []
  }

  /** Every kept line of every readable file, in the order the files are
      given (newest first), each file's lines in order. */
  function NewestFirst(files: seq<Outcome<seq<string>>>, level: Option<string>): seq<string> {
    if |files| == 0 then [] else Kept(files[0], level) + NewestFirst(files[1..], level)
  }

  lemma PrefixCons(files: seq<Outcome<seq<string>>>, j: int, level: Option<string>)
    requires 0 < j <= |files|
    ensures NewestFirst(files[..j], level) == Kept(files[0], level) + NewestFirst(files[1..][..j - 1], level)
  {
    assert files[..j][1..] == files[1..][..j - 1];
    assert files[..j][0] == files[0];
  }

  /** Reading the first `j` files ends on a readable file and brings the
      count, starting from `have`, to at least `lines`. */
  predicate Reaches(files: seq<Outcome<seq<string>>>, j: int, have: int, lines: int, level: Option<string>) {
    0 < j <= |files| && files[j - 1].Returned? && have + |NewestFirst(files[..j], level)| >= lines
  }

  lemma ShiftReaches(files: seq<Outcome<seq<string>>>, have: int, lines: int, level: Option<string>)
    requires |files| > 0
    ensures forall j :: 1 < j <= |files| ==>
              (Reaches(files, j, have, lines, level)
               <==> Reaches(files[1..], j - 1, have + |Kept(files[0], level)|, lines, level))
  {
    forall j | 1 < j <= |files|
      ensures Reaches(files, j, have, lines, level)
              <==> Reaches(files[1..], j - 1, have + |Kept(files[0], level)|, lines, level)
    {
      PrefixCons(files, j, level);
      assert files[1..][j - 2] == files[j - 1];
    }
  }

  /** How many files the loop reads when it already holds `have` lines: up to
      the first readable file that brings the count to `lines`, or all of
      them when none does. */
  function StopFrom(files: seq<Outcome<seq<string>>>, have: int, lines: int, level: Option<string>): (k: nat)
    ensures k <= |files| && (|files| > 0 ==> k > 0)
    ensures k == |files| || Reaches(files, k, have, lines, level)
    ensures forall j :: 0 < j < k ==> !Reaches(files, j, have, lines, level)
  {
    if |files| == 0 then 0
    else
      PrefixCons(files, 1, level);
      assert files[1..][..0] == [];
      if files[0].Returned? && have + |Kept(files[0], level)| >= lines then 1
      else
        var k := StopFrom(files[1..], have + |Kept(files[0], level)|, lines, level);
        ShiftReaches(files, have, lines, level);
        1 + k
  }

  /** One step of the stopping point: a readable first file that reaches
      `lines` is the last one read; otherwise the count goes on past it. */
  /** A first file that is read and reaches the count stops the loop there. */
  lemma StopHere(files: seq<Outcome<seq<string>>>, have: int, lines: int, level: Option<string>)
    requires |files| > 0 && files[0].Returned? && have + |Kept(files[0], level)| >= lines
    ensures StopFrom(files, have, lines, level) == 1
    ensures NewestFirst(files[..1], level) == Kept(files[0], level)
  {
    PrefixCons(files, 1, level);
    assert files[1..][..0] == [];
  }

  /** Otherwise the loop goes on with the rest, one file further. */
  lemma StopLater(files: seq<Outcome<seq<string>>>, have: int, lines: int, level: Option<string>)
    requires |files| > 0 && !(files[0].Returned? && have + |Kept(files[0], level)| >= lines)
    ensures var k' := StopFrom(files[1..], have + |Kept(files[0], level)|, lines, level);
            StopFrom(files, have, lines, level) == 1 + k'
            && NewestFirst(files[..1 + k'], level) == Kept(files[0], level) + NewestFirst(files[1..][..k'], level)
  {
    PrefixCons(files, StopFrom(files, have, lines, level), level);
  }

  /** The number of files read_recent_logs reads. */
  function Stop(files: seq<Outcome<seq<string>>>, lines: int, level: Option<string>): nat {
    StopFrom(files, 0, lines, level)
  }

  /** The loop of read_recent_logs as written: files newest first, each
      file's kept lines appended, stopping once there are at least `lines`. */
  function Gather(files: seq<Outcome<seq<string>>>, acc: seq<string>, lines: int, level: Option<string>): (r: seq<string>)
    // The files read are exactly those up to the stopping point, in order.
    ensures r == acc + NewestFirst(files[..StopFrom(files, |acc|, lines, level)], level)
  {
    if |files| == 0 then
      assert files[..0] == [];
      acc
    else
      // A file that cannot be read adds nothing and never ends the loop.
      var first := Kept(files[0], level);
      var more := acc + first;
      if files[0].Returned? && |more| >= lines then
        StopHere(files, |acc|, lines, level);
        more
      else
        StopLater(files, |acc|, lines, level);
        var r := Gather(files[1..], more, lines, level);
        var rest := NewestFirst(files[1..][..StopFrom(files[1..], |more|, lines, level)], level);
        assert r == (acc + first) + rest == acc + (first + rest);
        r
  }

  /** The loop keeps the lines it started with in front, and adds only lines
      that pass the filter. */
  lemma GatherKeeps(files: seq<Outcome<seq<string>>>, acc: seq<string>, lines: int, level: Option<string>)
    ensures var r := Gather(files, acc, lines, level);
            |acc| <= |r| && r[..|acc|] == acc
            && (Filtering(level) && (forall l :: l in acc ==> Contains(l, Needle(level.value))) ==>
                  forall l :: l in r ==> Contains(l, Needle(level.value)))
  {
    var read := NewestFirst(files[..StopFrom(files, |acc|, lines, level)], level);
    NewestFirstFiltered(files[..StopFrom(files, |acc|, lines, level)], level);
    assert (acc + read)[..|acc|] == acc;
  }

  /** read_recent_logs as written. */
  function ReadRecentLogs(files: seq<Outcome<seq<string>>>, lines: int, level: Option<string>): (r: seq<string>)
    ensures |files| == 0 ==> r == []
    ensures lines > 0 ==> |r| <= lines
    ensures Filtering(level) ==> forall l :: l in r ==> Contains(l, Needle(level.value))
    // The tail of the lines gathered from the files read, newest file first.
    ensures |files| > 0 ==> r == LastLines(NewestFirst(files[..Stop(files, lines, level)], level), lines)
  {
    if |files| == 0 then []
    else
      var all := Gather(files, [], lines, level);
      var read := NewestFirst(files[..Stop(files, lines, level)], level);
      assert all == [] + read == read;
      NewestFirstFiltered(files[..Stop(files, lines, level)], level);
      LastLinesFrom(read, lines);
      if |all| == 0 then [] else LastLines(all, lines)
  }

  /** Every line gathered passes the level filter. */
  lemma {:induction false} NewestFirstFiltered(files: seq<Outcome<seq<string>>>, level: Option<string>)
    ensures Filtering(level) ==> forall l :: l in NewestFirst(files, level) ==> Contains(l, Needle(level.value))
    decreases |files|
  {
    if |files| > 0 {
      NewestFirstFiltered(files[1..], level);
    }
  }

  /** The lines kept by a slice are lines of the sequence. */
  lemma LastLinesFrom<T>(xs: seq<T>, n: int)
    ensures forall x :: x in LastLines(xs, n) ==> x in xs
  {
    var r := LastLines(xs, n);
    assert xs == xs[..|xs| - |r|] + r;
  }

  /** The lines of the first readable file. */
  function FirstReadable(files: seq<Outcome<seq<string>>>): seq<string> {
    if |files| == 0 then []
    else if files[0].Returned? then files[0].value
    else FirstReadable(files[1..])
  }

  /** With `lines` = 0 the result is every kept line of the first readable
      file and nothing else: the loop stops after it and the slice is whole. */
  lemma {:induction false} ZeroLinesReadsOneFile(files: seq<Outcome<seq<string>>>, level: Option<string>)
    ensures ReadRecentLogs(files, 0, level) == KeepLevel(FirstReadable(files), level)
  {
    if |files| > 0 {
      GatherZero(files, level);
    }
  }

  lemma {:induction false} GatherZero(files: seq<Outcome<seq<string>>>, level: Option<string>)
    ensures Gather(files, [], 0, level) == KeepLevel(FirstReadable(files), level)
  {
    if |files| > 0 && files[0].Raised? {
      GatherZero(files[1..], level);
    }
    if |files| == 0 {
      assert KeepLevel([], level) == [];
    }
  }

  /** Every kept line of every readable file, oldest file first, each file's
      lines in order. */
  function Chronological(files: seq<Outcome<seq<string>>>, level: Option<string>): seq<string> {
    if |files| == 0 then []
    else Chronological(files[1..], level) + (if files[0].Returned? then KeepLevel(files[0].value, level) else [])
  }

  /** The loop with each file's lines put in front of the lines of the newer
      files read before it. */
  function GatherFixed(files: seq<Outcome<seq<string>>>, acc: seq<string>, lines: int, level: Option<string>): seq<string> {
    if |files| == 0 then acc
    else match files[0]
      case Raised(_) => GatherFixed(files[1..], acc, lines, level)
      case Returned(text) =>
        var more := KeepLevel(text, level) + acc;
        if |more| >= lines then more else GatherFixed(files[1..], more, lines, level)
  }

  /** read_recent_logs as intended: the most recent `lines` lines, oldest first. */
  function ReadRecentLogsFixed(files: seq<Outcome<seq<string>>>, lines: int, level: Option<string>): (r: seq<string>)
    ensures |files| == 0 ==> r == []
    ensures lines > 0 ==> r == LastLines(Chronological(files, level), lines)
  {
    if |files| == 0 then []
    else
      var all := GatherFixed(files, [], lines, level);
      assert lines > 0 ==> LastLines(all, lines) == LastLines(Chronological(files, level), lines) by {
        if lines > 0 {
          GatherFixedRecent(files, [], lines, level);
          assert Chronological(files, level) + [] == Chronological(files, level);
        }
      }
      if |all| == 0 then [] else LastLines(all, lines)
  }

  lemma {:induction false} GatherFixedRecent(files: seq<Outcome<seq<string>>>, acc: seq<string>, lines: int, level: Option<string>)
    requires lines > 0
    ensures LastLines(GatherFixed(files, acc, lines, level), lines) == LastLines(Chronological(files, level) + acc, lines)
  {
    if |files| == 0 {
      assert Chronological(files, level) + acc == acc;
    } else {
      var older := Chronological(files[1..], level);
      if files[0].Returned? {
        var more := KeepLevel(files[0].value, level) + acc;
        assert Chronological(files, level) == older + KeepLevel(files[0].value, level);
        assert Chronological(files, level) + acc == older + more;
        if |more| >= lines {
          assert GatherFixed(files, acc, lines, level) == more;
          LastLinesOfLonger(older, more, lines);
        } else {
          assert GatherFixed(files, acc, lines, level) == GatherFixed(files[1..], more, lines, level);
          GatherFixedRecent(files[1..], more, lines, level);
        }
      } else {
        assert Chronological(files, level) == older;
        assert GatherFixed(files, acc, lines, level) == GatherFixed(files[1..], acc, lines, level);
        GatherFixedRecent(files[1..], acc, lines, level);
      }
    }
  }

  /** A short newest file and a longer older one: the code as written returns
      only the older file's lines; the intended reading ends with the newest. */
  lemma NewestLinesDropped()
    ensures var files := [Returned(["new\n"]), Returned(["old1\n", "old2\n"])];
            ReadRecentLogs(files, 2, None) == ["old1\n", "old2\n"]
            && ReadRecentLogsFixed(files, 2, None) == ["old2\n", "new\n"]
  {
    var files: seq<Outcome<seq<string>>> := [Returned(["new\n"]), Returned(["old1\n", "old2\n"])];
    assert Gather(files[1..], ["new\n"], 2, None) == ["new\n", "old1\n", "old2\n"];
    assert Gather(files, [], 2, None) == ["new\n", "old1\n", "old2\n"];
    assert GatherFixed(files[1..], ["new\n"], 2, None) == ["old1\n", "old2\n", "new\n"];
    assert GatherFixed(files, [], 2, None) == ["old1\n", "old2\n", "new\n"];
  }

  // ---------------------------------------------------------------------------
  // Apps with logs
  // ---------------------------------------------------------------------------

  /** An entry of the logs directory: its name and whether it is a directory. */
  datatype DirEntry = DirEntry(name: string, isDir: bool)

  predicate ListedApp(e: DirEntry) {
    e.isDir && !StartsWith(e.name, ".")
  }

  function AppDirs(entries: seq<DirEntry>): (r: seq<string>)
    ensures forall x :: x in r <==> exists e :: e in entries && ListedApp(e) && e.name == x
  {
    if |entries| == 0 then []
    else
      var rest := AppDirs(entries[1..]);
      assert forall e :: e in entries[1..] ==> e in entries;
      assert forall e :: e in entries ==> e == entries[0] || e in entries[1..];
      (if ListedApp(entries[0]) then [entries[0].name] else []) + rest
  }

  /** get_available_apps: the names of the visible directories, sorted. */
  function AvailableApps(dirExists: bool, entries: seq<DirEntry>): (r: seq<string>)
    ensures !dirExists ==> r == []
    ensures Sorted(r)
    ensures forall x :: x in r <==> dirExists && exists e :: e in entries && ListedApp(e) && e.name == x
  {
    if !dirExists then []
    else
      var names := AppDirs(entries);
      var r := Sort(names);
      assert forall x :: x in r <==> x in names by {
        forall x
          ensures x in r <==> x in names
        {
          assert x in r <==> x in multiset(r);
          assert x in names <==> x in multiset(names);
        }
      }
      r
  }
}

=== FILE: ports.dfy ===
// The dynamic port allocator: two in-memory maps (port -> allocation and
// app id -> port) that must stay mutual inverses, with every allocated port
// inside the configured range. The bind probe is an oracle: `bindable` is the
// set of ports a bind to localhost would succeed on at the moment of the call.
// Time is a whole number of seconds supplied by the caller.
module Ports {
  import opened Wrappers

  /** Seconds after which an 'allocated' (not yet 'in_use') port counts as stale. */
  const StaleAfter: int := 3600

  /** The states a stored allocation can be in. The source's 'released' is only
      ever written to a record that is removed in the same step. */
  datatype PortStatus = Allocated | InUse

  datatype Allocation = Allocation(port: int, appId: string, appType: string, allocatedAt: int, status: PortStatus)

  datatype PortTable = PortTable(portStart: int, portEnd: int, allocations: map<int, Allocation>, appPorts: map<string, int>)
  {
    predicate InRange(p: int) {
      portStart <= p <= portEnd
    }

    /** Each app owns at most one port, each port has one owner, the record
        agrees with both keys, and every allocated port lies in the range. */
    predicate Valid() {
      (forall a :: a in appPorts ==> appPorts[a] in allocations && allocations[appPorts[a]].appId == a)
      && (forall p :: p in allocations ==>
            allocations[p].port == p && InRange(p)
            && allocations[p].appId in appPorts && appPorts[allocations[p].appId] == p)
    }
  }

  /** A freshly constructed manager holds no allocations. */
  function Init(portStart: int, portEnd: int): (t: PortTable)
    ensures t.Valid()
    ensures t.allocations == map[] && t.appPorts == map[]
    ensures t.portStart == portStart && t.portEnd == portEnd
  {
    PortTable(portStart, portEnd, map[], map[])
  }

  /** A port the allocator may hand out: in range, not allocated, bindable. */
  predicate Free(t: PortTable, bindable: set<int>, p: int) {
    t.InRange(p) && p !in t.allocations && p in bindable
  }

  /** The app's current port is still bindable, so the allocator reuses it. */
  predicate Reuses(t: PortTable, appId: string, bindable: set<int>) {
    appId in t.appPorts && t.appPorts[appId] in bindable
  }

  /** The preferred port is honoured: given, non-zero (Python truthiness),
      and free. */
  predicate PreferredUsable(t: PortTable, preferred: Option<int>, bindable: set<int>) {
    preferred.Some? && preferred.value != 0 && Free(t, bindable, preferred.value)
  }

  /** The ascending scan of the range starting at `from`. */
  function FirstFree(t: PortTable, bindable: set<int>, from: int): (r: Option<int>)
    requires t.portStart <= from
    ensures r.Some? ==> from <= r.value && Free(t, bindable, r.value)
    ensures r.Some? ==> forall q :: from <= q < r.value ==> !Free(t, bindable, q)
    ensures r.None? ==> forall q :: from <= q ==> !Free(t, bindable, q)
    decreases t.portEnd + 1 - from
  {
    if from > t.portEnd then None
    else if from !in t.allocations && from in bindable then Some(from)
    else FirstFree(t, bindable, from + 1)
  }

  /** Records a new 'allocated' entry for `port` under `appId`. */
  function Reserve(t: PortTable, appId: string, appType: string, port: int, now: int): (r: PortTable)
    requires t.Valid() && appId !in t.appPorts && port !in t.allocations && t.InRange(port)
    ensures r.Valid()
    ensures r.appPorts == t.appPorts[appId := port]
    ensures r.allocations == t.allocations[port := Allocation(port, appId, appType, now, Allocated)]
  {
    t.(allocations := t.allocations[port := Allocation(port, appId, appType, now, Allocated)],
       appPorts := t.appPorts[appId := port])
  }

  datatype ReleaseResult = ReleaseResult(table: PortTable, released: bool)

  /** Drops the app's allocation from both maps. */
  function ReleasePort(t: PortTable, appId: string): (r: ReleaseResult)
    requires t.Valid()
    ensures r.table.Valid()
    ensures r.released <==> appId in t.appPorts
    ensures !r.released ==> r.table == t
    ensures appId !in r.table.appPorts
    ensures r.table.portStart == t.portStart && r.table.portEnd == t.portEnd
    ensures forall a :: a != appId ==>
              (a in r.table.appPorts <==> a in t.appPorts)
              && (a in t.appPorts ==> r.table.appPorts[a] == t.appPorts[a])
    ensures forall p :: p in r.table.allocations <==> p in t.allocations && t.allocations[p].appId != appId
    ensures forall p :: p in r.table.allocations ==> r.table.allocations[p] == t.allocations[p]
  {
    if appId !in t.appPorts then ReleaseResult(t, false)
    else
      var port := t.appPorts[appId];
      ReleaseResult(t.(appPorts := t.appPorts - {appId}, allocations := t.allocations - {port}), true)
  }

  datatype AllocResult = AllocResult(table: PortTable, port: Option<int>)

  /** allocate_port: reuse a still-bindable port (refreshing its record),
      otherwise release the stale one, then try the preferred port, then the
      least free port of the range. */
  function AllocatePort(t: PortTable, appId: string, appType: string, preferred: Option<int>,
                        bindable: set<int>, now: int): (r: AllocResult)
    requires t.Valid()
    ensures r.table.Valid()
    ensures r.table.portStart == t.portStart && r.table.portEnd == t.portEnd
    // Reuse: same port, record refreshed to 'allocated', every other entry untouched.
    ensures Reuses(t, appId, bindable) ==>
              var p := t.appPorts[appId];
              r.port == Some(p) && r.table.appPorts == t.appPorts
              && r.table.allocations.Keys == t.allocations.Keys
              && r.table.allocations[p].status == Allocated && r.table.allocations[p].allocatedAt == now
              && r.table.allocations[p].appId == appId
              && (forall q :: q in t.allocations && q != p ==> r.table.allocations[q] == t.allocations[q])
    // Port choice for a new allocation.
    ensures !Reuses(t, appId, bindable) && r.port.Some? ==>
              Free(t, bindable, r.port.value) && r.port.value in r.table.allocations
              && r.table.allocations[r.port.value] == Allocation(r.port.value, appId, appType, now, Allocated)
    ensures !Reuses(t, appId, bindable) && PreferredUsable(t, preferred, bindable) ==> r.port == preferred
    ensures !Reuses(t, appId, bindable) && !PreferredUsable(t, preferred, bindable) && r.port.Some? ==>
              forall q :: q < r.port.value ==> !Free(t, bindable, q)
    ensures !Reuses(t, appId, bindable) && r.port.None? ==> forall q :: !Free(t, bindable, q)
    // The app holds the returned port, or nothing at all.
    ensures r.port.Some? ==> appId in r.table.appPorts && r.table.appPorts[appId] == r.port.value
    ensures r.port.None? ==> appId !in r.table.appPorts
    // No other app's allocation record changes, and no record is added for
    // another app.
    ensures forall q :: q in t.allocations && t.allocations[q].appId != appId ==>
              q in r.table.allocations && r.table.allocations[q] == t.allocations[q]
    ensures forall q :: q in r.table.allocations && r.table.allocations[q].appId != appId ==>
              q in t.allocations && r.table.allocations[q] == t.allocations[q]
    // No other app's ownership changes.
    ensures forall a :: a != appId ==>
              (a in r.table.appPorts <==> a in t.appPorts)
              && (a in t.appPorts ==> r.table.appPorts[a] == t.appPorts[a])
  {
    if Reuses(t, appId, bindable) then
      var p := t.appPorts[appId];
      var refreshed := t.allocations[p].(status := Allocated, allocatedAt := now);
      AllocResult(t.(allocations := t.allocations[p := refreshed]), Some(p))
    else
      var t1 := ReleasePort(t, appId).table;
      // The only port the release can free is unbindable, so `Free` is unchanged.
      assert forall q :: Free(t1, bindable, q) <==> Free(t, bindable, q);
      if PreferredUsable(t1, preferred, bindable) then
        AllocResult(Reserve(t1, appId, appType, preferred.value, now), preferred)
      else
        match FirstFree(t1, bindable, t1.portStart)
        case Some(p) => AllocResult(Reserve(t1, appId, appType, p, now), Some(p))
        case None => AllocResult(t1, None)
  }

  datatype MarkResult = MarkResult(table: PortTable, marked: bool)

  /** mark_port_in_use: flips the app's allocation to 'in_use'. */
  function MarkPortInUse(t: PortTable, appId: string): (r: MarkResult)
    requires t.Valid()
    ensures r.table.Valid()
    ensures r.marked <==> appId in t.appPorts
    ensures r.table.appPorts == t.appPorts
    ensures r.table.allocations.Keys == t.allocations.Keys
    ensures r.marked ==> r.table.allocations[t.appPorts[appId]].status == InUse
    ensures forall p :: p in t.allocations && t.allocations[p].appId != appId ==>
              r.table.allocations[p] == t.allocations[p]
  {
    if appId !in t.appPorts then MarkResult(t, false)
    else
      var p := t.appPorts[appId];
      if p in t.allocations then
        MarkResult(t.(allocations := t.allocations[p := t.allocations[p].(status := InUse)]), true)
      else MarkResult(t, false)
  }

  /** get_available_ports from `from` upward. */
  function AvailableFrom(t: PortTable, bindable: set<int>, from: int): (r: seq<int>)
    ensures forall i :: 0 <= i < |r| ==> from <= r[i] && Free(t, bindable, r[i])
    ensures forall i, j :: 0 <= i < j < |r| ==> r[i] < r[j]
    ensures forall q :: from <= q && Free(t, bindable, q) ==> q in r
    decreases t.portEnd + 1 - from
  {
    if from > t.portEnd then []
    else if from >= t.portStart && from !in t.allocations && from in bindable then
      [from] + AvailableFrom(t, bindable, from + 1)
    else AvailableFrom(t, bindable, from + 1)
  }

  /** The list of free ports, ascending. */
  function GetAvailablePorts(t: PortTable, bindable: set<int>): (r: seq<int>)
    ensures forall i :: 0 <= i < |r| ==> Free(t, bindable, r[i])
    ensures forall i, j :: 0 <= i < j < |r| ==> r[i] < r[j]
    ensures forall q :: Free(t, bindable, q) ==> q in r
  {
    AvailableFrom(t, bindable, t.portStart)
  }

  /** The ports of the range, as a set. */
  function RangeSet(lo: int, hi: int): (r: set<int>)
    ensures forall q :: q in r <==> lo <= q <= hi
    decreases hi + 1 - lo
  {
    if lo > hi then {} else {lo} + RangeSet(lo + 1, hi)
  }

  lemma {:induction false} RangeSetSize(lo: int, hi: int)
    requires lo <= hi + 1
    ensures |RangeSet(lo, hi)| == hi - lo + 1
    decreases hi - lo + 1
  {
    if lo <= hi {
      RangeSetSize(lo + 1, hi);
      assert lo !in RangeSet(lo + 1, hi);
    }
  }

  /** The free ports from `from` upward, as a set. */
  function FreeSet(t: PortTable, bindable: set<int>, from: int): set<int> {
    set q | q in RangeSet(from, t.portEnd) && Free(t, bindable, q)
  }

  lemma {:induction false} AvailableFromSize(t: PortTable, bindable: set<int>, from: int)
    ensures |AvailableFrom(t, bindable, from)| == |FreeSet(t, bindable, from)|
    decreases t.portEnd + 1 - from
  {
    if from > t.portEnd {
      assert FreeSet(t, bindable, from) == {};
    } else {
      AvailableFromSize(t, bindable, from + 1);
      FreeSetStep(t, bindable, from);
      if Free(t, bindable, from) {
        assert AvailableFrom(t, bindable, from) == [from] + AvailableFrom(t, bindable, from + 1);
      } else {
        assert AvailableFrom(t, bindable, from) == AvailableFrom(t, bindable, from + 1);
      }
    }
  }

  /** The free set from `from` is the free set above it, with `from` when it is free. */
  lemma FreeSetStep(t: PortTable, bindable: set<int>, from: int)
    requires from <= t.portEnd
    ensures Free(t, bindable, from) ==>
              (FreeSet(t, bindable, from) == FreeSet(t, bindable, from + 1) + {from} && from !in FreeSet(t, bindable, from + 1))
    ensures !Free(t, bindable, from) ==> FreeSet(t, bindable, from) == FreeSet(t, bindable, from + 1)
  {
  }

  /** With every port of the range bindable, the number of available ports is
      the size of the range minus the number of allocations. */
  lemma AvailableCount(t: PortTable, bindable: set<int>)
    requires t.Valid() && t.portStart <= t.portEnd + 1
    requires RangeSet(t.portStart, t.portEnd) <= bindable
    ensures |GetAvailablePorts(t, bindable)| == (t.portEnd - t.portStart + 1) - |t.allocations|
  {
    AvailableFromSize(t, bindable, t.portStart);
    RangeSetSize(t.portStart, t.portEnd);
    var range := RangeSet(t.portStart, t.portEnd);
    FreeSetIsRest(t, bindable);
    DiffSize(range, t.allocations.Keys);
    assert |t.allocations.Keys| == |t.allocations|;
  }

  /** With the whole range bindable, the free ports are the range less the
      allocated ports, which all lie in the range. */
  lemma FreeSetIsRest(t: PortTable, bindable: set<int>)
    requires t.Valid() && RangeSet(t.portStart, t.portEnd) <= bindable
    ensures FreeSet(t, bindable, t.portStart) == RangeSet(t.portStart, t.portEnd) - t.allocations.Keys
    ensures t.allocations.Keys <= RangeSet(t.portStart, t.portEnd)
  {
  }

  lemma DiffSize(a: set<int>, b: set<int>)
    requires b <= a
    ensures |a - b| == |a| - |b|
  {
    assert a == (a - b) + b;
    assert (a - b) * b == {};
  }

  /** An 'allocated' record whose port is bindable and whose age exceeds the
      stale limit (strictly). */
  predicate StaleRecord(x: Allocation, bindable: set<int>, now: int) {
    x.status == Allocated && x.port in bindable && now - x.allocatedAt > StaleAfter
  }

  /** The apps the first pass of cleanup_stale_allocations selects. */
  function StaleApps(t: PortTable, bindable: set<int>, now: int): set<string> {
    set a | a in t.appPorts && t.appPorts[a] in t.allocations && StaleRecord(t.allocations[t.appPorts[a]], bindable, now)
  }

  /** cleanup_stale_allocations: releases exactly the stale apps and counts them. */
  method CleanupStaleAllocations(t: PortTable, bindable: set<int>, now: int) returns (r: PortTable, cleaned: nat)
    requires t.Valid()
    ensures r.Valid()
    ensures cleaned == |StaleApps(t, bindable, now)|
    ensures forall a :: a in r.appPorts <==> a in t.appPorts && a !in StaleApps(t, bindable, now)
    ensures forall a :: a in r.appPorts ==> r.appPorts[a] == t.appPorts[a]
    ensures forall p :: p in r.allocations ==> p in t.allocations && r.allocations[p] == t.allocations[p]
    ensures forall p :: p in t.allocations && t.allocations[p].status == InUse ==> p in r.allocations
  {
    var stale := StaleApps(t, bindable, now);
    var pending := stale;
    r := t;
    cleaned := 0;
    while pending != {}
      invariant pending <= stale
      invariant r.Valid()
      invariant forall a :: a in r.appPorts <==> a in t.appPorts && a !in stale - pending
      invariant forall a :: a in r.appPorts ==> r.appPorts[a] == t.appPorts[a]
      invariant forall p :: p in r.allocations ==> p in t.allocations && r.allocations[p] == t.allocations[p]
      invariant cleaned == |stale| - |pending|
      decreases |pending|
    {
      var a :| a in pending;
      var res := ReleasePort(r, a);
      if res.released {
        cleaned := cleaned + 1;
      }
      r := res.table;
      pending := pending - {a};
    }
    forall p | p in t.allocations && t.allocations[p].status == InUse
      ensures p in r.allocations
    {
      var owner := t.allocations[p].appId;
      assert owner !in stale;
    }
  }

  /** Integer parts of get_port_statistics. */
  datatype PortStatistics = PortStatistics(
    totalPorts: int, allocatedPorts: nat, availablePorts: nat,
    statusBreakdown: map<PortStatus, nat>, appTypeBreakdown: map<string, nat>)

  function PortsWithStatus(t: PortTable, s: PortStatus): set<int> {
    set p | p in t.allocations && t.allocations[p].status == s
  }

  function PortsWithType(t: PortTable, ty: string): set<int> {
    set p | p in t.allocations && t.allocations[p].appType == ty
  }

  /** One count per status that some allocation carries. */
  function StatusBreakdown(t: PortTable): (b: map<PortStatus, nat>)
    ensures forall s :: s in b <==> exists p :: p in t.allocations && t.allocations[p].status == s
    ensures forall s :: s in b ==> b[s] == |PortsWithStatus(t, s)|
  {
    var statuses := set p | p in t.allocations :: t.allocations[p].status;
    map s | s in statuses :: |PortsWithStatus(t, s)|
  }

  /** One count per app type that some allocation carries. */
  function TypeBreakdown(t: PortTable): (b: map<string, nat>)
    ensures forall ty :: ty in b <==> exists p :: p in t.allocations && t.allocations[p].appType == ty
    ensures forall ty :: ty in b ==> b[ty] == |PortsWithType(t, ty)|
  {
    var types := set p | p in t.allocations :: t.allocations[p].appType;
    map ty | ty in types :: |PortsWithType(t, ty)|
  }

  function GetPortStatistics(t: PortTable, bindable: set<int>): (r: PortStatistics)
    ensures r.totalPorts == t.portEnd - t.portStart + 1
    ensures r.allocatedPorts == |t.allocations|
    ensures r.availablePorts == |GetAvailablePorts(t, bindable)|
    ensures r.statusBreakdown == StatusBreakdown(t) && r.appTypeBreakdown == TypeBreakdown(t)
  {
    PortStatistics(
      t.portEnd - t.portStart + 1, |t.allocations|, |GetAvailablePorts(t, bindable)|,
      StatusBreakdown(t), TypeBreakdown(t))
  }

  /** The status breakdown partitions the allocations. */
  lemma StatusBreakdownSum(t: PortTable)
    ensures var b := StatusBreakdown(t);
            (if Allocated in b then b[Allocated] else 0) + (if InUse in b then b[InUse] else 0)
            == |t.allocations|
  {
    var a := PortsWithStatus(t, Allocated);
    var u := PortsWithStatus(t, InUse);
    forall p | p in t.allocations
      ensures p in a || p in u
    {
      if t.allocations[p].status == Allocated {
        assert p in a;
      } else {
        assert p in u;
      }
    }
    assert a + u == t.allocations.Keys;
    assert a * u == {};
    var b := StatusBreakdown(t);
    if Allocated !in b {
      forall p | p in a
        ensures false
      {
      }
      assert a == {};
    }
    if InUse !in b {
      forall p | p in u
        ensures false
      {
      }
      assert u == {};
    }
  }
  /** Releasing right after a fresh allocation restores the table exactly. */
  lemma AllocateReleaseRoundTrip(t: PortTable, appId: string, appType: string, preferred: Option<int>,
                                 bindable: set<int>, now: int)
    requires t.Valid() && appId !in t.appPorts
    requires AllocatePort(t, appId, appType, preferred, bindable, now).port.Some?
    ensures ReleasePort(AllocatePort(t, appId, appType, preferred, bindable, now).table, appId) == ReleaseResult(t, true)
  {
    var r := AllocatePort(t, appId, appType, preferred, bindable, now);
    var p := r.port.value;
    var back := ReleasePort(r.table, appId).table;
    assert back.appPorts == t.appPorts;
    assert back.allocations == t.allocations;
  }

  /** An 'in_use' allocation is never reclaimed by a stale sweep. */
  lemma InUseNotStale(t: PortTable, appId: string, bindable: set<int>, now: int)
    requires t.Valid() && appId in t.appPorts
    ensures appId !in StaleApps(MarkPortInUse(t, appId).table, bindable, now)
  {
  }
}

=== FILE: processes.dfy ===
/**
 The background-process launcher used where systemd is absent: a table of
 the processes it started, each with its pid, port, start time and command.
 Pid liveness, the existence of the main file, spawning and termination are
 inputs; each method is one transition of the table, the port allocator and
 the registry.
 */
module Processes {
  import opened Wrappers
  import opened Text
  import opened Apps
  import opened Registry
  import opened Env
  import Ports
  import Services

  /** One tracked process. */
  datatype ProcInfo = ProcInfo(pid: int, port: int, startedAt: int, command: string)

  /** What the configuration manager hands out: the Redis URL, the data
      root (an app's data directory is under it) and the logs directory. */
  datatype Launcher = Launcher(redisUrl: string, dataRoot: string, logsDir: string)

  datatype Manager = Manager(processes: map<string, ProcInfo>, ports: Ports.PortTable, reg: Registry)
  {
    predicate Valid() {
      ports.Valid() && reg.Valid()
    }
  }

  /** How terminating a process went. The first three all count as stopped;
      any other error aborts stop_app. */
  datatype Termination = Terminated | ForceKilled | AlreadyGone | TerminationFailed(error: string)

  // ---------------------------------------------------------------------------
  // The command line
  // ---------------------------------------------------------------------------

  /** `Path(app.path) / manifest.main_file` as text. */
  function MainPath(e: Entry): string {
    e.path + "/" + e.manifest.mainFile
  }

  /** The argument list: interpreter, main file and port, then the Redis URL,
      the data directory and the logs directory, each only when asked for. */
  function LaunchArgs(e: Entry, appId: string, port: int, l: Launcher): (r: seq<string>)
    ensures |r| == 4 + (if Services.RedisFlag(e.manifest) then 2 else 0)
                     + (if Services.DataDirFlag(e.manifest) then 2 else 0)
                     + (if Services.LogsDirFlag(e.manifest) then 2 else 0)
    ensures r[..4] == ["python3", MainPath(e), "--port", IntToString(port)]
    ensures Services.RedisFlag(e.manifest) ==> r[4] == "--redis-url" && r[5] == l.redisUrl
    ensures Services.DataDirFlag(e.manifest) ==>
              var i := if Services.RedisFlag(e.manifest) then 6 else 4;
              r[i] == "--data-dir" && r[i + 1] == Services.AppDir(l.dataRoot, appId)
    ensures Services.LogsDirFlag(e.manifest) ==> r[|r| - 2] == "--logs-dir" && r[|r| - 1] == l.logsDir
  {
    ["python3", MainPath(e), "--port", IntToString(port)]
    + (if Services.RedisFlag(e.manifest) then ["--redis-url", l.redisUrl] else [])
    + (if Services.DataDirFlag(e.manifest) then ["--data-dir", Services.AppDir(l.dataRoot, appId)] else [])
    + (if Services.LogsDirFlag(e.manifest) then ["--logs-dir", l.logsDir] else [])
  }

  /** The recorded command is the arguments joined by spaces; when no
      argument holds a space, splitting it gives the arguments back. */
  lemma CommandReadBack(e: Entry, appId: string, port: int, l: Launcher)
    requires NoneContain(LaunchArgs(e, appId, port, l), ' ')
    ensures Split(Join(LaunchArgs(e, appId, port, l), " "), ' ') == LaunchArgs(e, appId, port, l)
  {
    SplitJoin(LaunchArgs(e, appId, port, l), ' ');
  }

  // ---------------------------------------------------------------------------
  // start_app
  // ---------------------------------------------------------------------------

  /** `if not port`: no port, or port 0. */
  predicate UsablePort(p: Option<int>) {
    p.Some? && p.value != 0
  }

  /** A tracked entry whose pid is set and alive. */
  predicate AliveEntry(m: Manager, appId: string, alive: set<int>) {
    appId in m.processes && m.processes[appId].pid != 0 && m.processes[appId].pid in alive
  }

  /** The except branch of start_app: forget the entry, release the port. */
  function AbortStart(m: Manager, appId: string): (r: Manager)
    requires m.Valid()
    ensures r.Valid() && r.reg == m.reg
    ensures r.processes == m.processes - {appId}
    ensures r.ports == Ports.ReleasePort(m.ports, appId).table && appId !in r.ports.appPorts
  {
    Manager(m.processes - {appId}, Ports.ReleasePort(m.ports, appId).table, m.reg)
  }

  /** start_app, given the live pids, the bindable ports, whether the main
      file exists and what spawning returned (a pid, or the error raised). The
      registry is saved with status RUNNING before the new port, pid and start
      time are written into the runtime record, so the saved copy lacks them. */
  function StartApp(m: Manager, appId: string, l: Launcher, alive: set<int>, bindable: set<int>,
                    mainExists: bool, spawn: Outcome<int>, now: int): (r: (Manager, bool))
    requires m.Valid()
    ensures r.0.Valid() && RegFrame(m.reg, r.0.reg, appId)
    // Missing or non-service apps: refused, nothing changes.
    ensures appId !in m.reg.apps || m.reg.apps[appId].appType != Service ==> r == (m, false)
    // An app whose tracked process is alive: accepted, nothing changes.
    ensures appId in m.reg.apps && m.reg.apps[appId].appType == Service && AliveEntry(m, appId, alive) ==> r == (m, true)
    // Success: a spawned process tracked with the allocated port, the app RUNNING with that port and pid.
    ensures r.1 && r.0 != m ==>
              spawn.Returned? && mainExists && appId in r.0.processes
              && var p := r.0.processes[appId];
              p.pid == spawn.value && p.startedAt == now
              && appId in r.0.ports.appPorts && r.0.ports.appPorts[appId] == p.port
              && r.0.reg.apps[appId].status == Running
              && r.0.reg.apps[appId].runtime.assignedPort == Some(p.port)
              && r.0.reg.apps[appId].runtime.processId == Some(IntToString(p.pid))
              && r.0.reg.apps[appId].runtime.startedAt == Some(now)
    // A missing main file or a failed spawn: refused, nothing tracked, no port held.
    ensures appId in m.reg.apps && m.reg.apps[appId].appType == Service && !AliveEntry(m, appId, alive)
            && UsablePort(Ports.AllocatePort(m.ports, appId, "service", None, bindable, now).port)
            && (!mainExists || spawn.Raised?) ==>
              !r.1 && r.0.reg == m.reg && appId !in r.0.ports.appPorts
              && (mainExists ==> appId !in r.0.processes)
    // Only this app's entry, port and registry record can change.
    ensures forall k :: k != appId ==> (k in r.0.processes <==> k in m.processes)
    ensures forall k :: k != appId && k in m.processes ==> r.0.processes[k] == m.processes[k]
  {
    if appId !in m.reg.apps || m.reg.apps[appId].appType != Service then (m, false)
    else if AliveEntry(m, appId, alive) then (m, true)
    else StartFresh(m, appId, l, bindable, mainExists, spawn, now)
  }

  /** start_app past its checks: allocate a port, then spawn. */
  function StartFresh(m: Manager, appId: string, l: Launcher, bindable: set<int>,
                      mainExists: bool, spawn: Outcome<int>, now: int): (r: (Manager, bool))
    requires m.Valid() && appId in m.reg.apps
    ensures r.0.Valid() && RegFrame(m.reg, r.0.reg, appId)
    ensures r.1 ==>
              spawn.Returned? && mainExists && appId in r.0.processes
              && var p := r.0.processes[appId];
              p.pid == spawn.value && p.startedAt == now
              && appId in r.0.ports.appPorts && r.0.ports.appPorts[appId] == p.port
              && r.0.reg.apps[appId].status == Running
              && r.0.reg.apps[appId].runtime.assignedPort == Some(p.port)
              && r.0.reg.apps[appId].runtime.processId == Some(IntToString(p.pid))
              && r.0.reg.apps[appId].runtime.startedAt == Some(now)
    ensures UsablePort(Ports.AllocatePort(m.ports, appId, "service", None, bindable, now).port)
            && (!mainExists || spawn.Raised?) ==>
              !r.1 && r.0.reg == m.reg && appId !in r.0.ports.appPorts
              && (mainExists ==> appId !in r.0.processes)
    ensures forall k :: k != appId ==> (k in r.0.processes <==> k in m.processes)
    ensures forall k :: k != appId && k in m.processes ==> r.0.processes[k] == m.processes[k]
  {
    var alloc := Ports.AllocatePort(m.ports, appId, AppTypeName(Service), None, bindable, now);
    var m1 := m.(ports := alloc.table);
    if !UsablePort(alloc.port) then (m1, false)
    else if !mainExists then (m1.(ports := Ports.ReleasePort(alloc.table, appId).table), false)
    else if m.reg.apps[appId].manifest.config.None? || spawn.Raised? then
      // Reading the config flags of a manifest without one raises too.
      (AbortStart(m1, appId), false)
    else
      (Spawned(m1, appId, alloc.port.value, l, spawn.value, now), true)
  }

  /** The tail of a successful start: track the process, save the registry
      with status RUNNING and the old runtime record, then write the port,
      pid and start time into the record without saving. */
  function Spawned(m: Manager, appId: string, port: int, l: Launcher, pid: int, now: int): (r: Manager)
    requires m.Valid() && appId in m.reg.apps
    ensures r.Valid() && r.ports == m.ports && RegFrame(m.reg, r.reg, appId)
    ensures r.processes == m.processes[appId := ProcInfo(pid, port, now, Join(LaunchArgs(m.reg.apps[appId], appId, port, l), " "))]
    ensures r.reg.apps[appId] == m.reg.apps[appId].(status := Running, lastUpdated := now, runtime := r.reg.apps[appId].runtime)
    ensures r.reg.apps[appId].runtime
            == m.reg.apps[appId].runtime.(assignedPort := Some(port), processId := Some(IntToString(pid)), startedAt := Some(now))
    // What was saved is the entry before the runtime fields were written.
    ensures appId in r.reg.saved && r.reg.saved[appId] == m.reg.apps[appId].(status := Running, lastUpdated := now)
  {
    var e := m.reg.apps[appId];
    var info := ProcInfo(pid, port, now, Join(LaunchArgs(e, appId, port, l), " "));
    var reg1 := SetStatusAndRuntime(m.reg, appId, Running, e.runtime, now);
    var ri := e.runtime.(assignedPort := Some(port), processId := Some(IntToString(pid)), startedAt := Some(now));
    Manager(m.processes[appId := info], m.ports, SetRuntime(reg1, appId, ri))
  }

  /** The same tail with the runtime fields written before the saving update. */
  function SpawnedFixed(m: Manager, appId: string, port: int, l: Launcher, pid: int, now: int): (r: Manager)
    requires m.Valid() && appId in m.reg.apps
    ensures r.Valid() && r.ports == m.ports && RegFrame(m.reg, r.reg, appId)
    ensures r.processes == Spawned(m, appId, port, l, pid, now).processes
    ensures r.reg.apps == Spawned(m, appId, port, l, pid, now).reg.apps
    // The saved copy carries the new port, pid and start time.
    ensures r.reg.saved == r.reg.apps
  {
    var e := m.reg.apps[appId];
    var info := ProcInfo(pid, port, now, Join(LaunchArgs(e, appId, port, l), " "));
    var ri := e.runtime.(assignedPort := Some(port), processId := Some(IntToString(pid)), startedAt := Some(now));
    Manager(m.processes[appId := info], m.ports, SetStatusAndRuntime(m.reg, appId, Running, ri, now))
  }

  /** After a start as written, the saved registry still shows the runtime
      record from before the start: for an app that had no port, the saved
      copy has none although the app now holds one. */
  lemma SavedRuntimeStale(m: Manager, appId: string, port: int, l: Launcher, pid: int, now: int)
    requires m.Valid() && appId in m.reg.apps && m.reg.apps[appId].runtime.assignedPort.None?
    ensures var r := Spawned(m, appId, port, l, pid, now);
            r.reg.apps[appId].runtime.assignedPort == Some(port)
            && r.reg.saved[appId].runtime.assignedPort.None?
            && r.reg.saved != r.reg.apps
  {
    var r := Spawned(m, appId, port, l, pid, now);
    assert r.reg.saved[appId] != r.reg.apps[appId];
  }

  // ---------------------------------------------------------------------------
  // stop_app, get_app_status, restart_app, stop_all
  // ---------------------------------------------------------------------------

  /** Whether stop_app gets past its checks and the termination. */
  predicate Stoppable(p: ProcInfo, t: Termination) {
    p.pid != 0 && !t.TerminationFailed?
  }

  /** stop_app: release the port, save status STOPPED, then clear the pid
      and port in the runtime record, and forget the entry. */
  function StopApp(m: Manager, appId: string, t: Termination, now: int): (r: (Manager, bool))
    requires m.Valid()
    ensures r.0.Valid() && RegFrame(m.reg, r.0.reg, appId)
    ensures r.1 <==> appId in m.processes && Stoppable(m.processes[appId], t)
    ensures !r.1 ==> r.0 == m
    ensures r.1 ==> r.0.processes == m.processes - {appId} && appId !in r.0.ports.appPorts
    ensures r.1 && appId in m.reg.apps ==>
              r.0.reg.apps[appId].status == Stopped
              && r.0.reg.apps[appId].runtime.processId.None? && r.0.reg.apps[appId].runtime.assignedPort.None?
    ensures forall k :: k != appId ==> (k in r.0.processes <==> k in m.processes)
    ensures forall k :: k != appId && k in m.processes ==> r.0.processes[k] == m.processes[k]
  {
    if appId !in m.processes || !Stoppable(m.processes[appId], t) then (m, false)
    else
      var ports := Ports.ReleasePort(m.ports, appId).table;
      var reg :=
        if appId in m.reg.apps then
          var reg1 := SetStatus(m.reg, appId, Stopped, now);
          SetRuntime(reg1, appId, reg1.apps[appId].runtime.(processId := None, assignedPort := None))
        else m.reg;
      (Manager(m.processes - {appId}, ports, reg), true)
  }

  /** get_app_status: "stopped", "running" or "error"; a dead process is
      forgotten and its port released, the registry is not touched. */
  function GetAppStatus(m: Manager, appId: string, alive: set<int>): (r: (Manager, string))
    requires m.Valid()
    ensures r.0.Valid() && r.0.reg == m.reg
    ensures r.1 == "stopped" <==> appId !in m.processes || m.processes[appId].pid == 0
    ensures r.1 == "running" <==> AliveEntry(m, appId, alive)
    ensures r.1 == "error" <==> appId in m.processes && m.processes[appId].pid != 0 && m.processes[appId].pid !in alive
    ensures r.1 != "error" ==> r.0 == m
    ensures r.1 == "error" ==> r.0.processes == m.processes - {appId} && appId !in r.0.ports.appPorts
  {
    if appId !in m.processes || m.processes[appId].pid == 0 then (m, "stopped")
    else if m.processes[appId].pid in alive then (m, "running")
    else (m.(processes := m.processes - {appId}, ports := Ports.ReleasePort(m.ports, appId).table), "error")
  }

  /** The status check is idempotent: asking again gives "stopped" once an
      "error" has cleaned up, and the same answer otherwise. */
  lemma StatusSettles(m: Manager, appId: string, alive: set<int>)
    requires m.Valid()
    ensures var (m1, s1) := GetAppStatus(m, appId, alive);
            var (m2, s2) := GetAppStatus(m1, appId, alive);
            m2 == m1 && s2 == (if s1 == "error" then "stopped" else s1)
  {
  }

  /** restart_app: stop (whatever the outcome), then start. */
  function RestartApp(m: Manager, appId: string, t: Termination, l: Launcher, alive: set<int>, bindable: set<int>,
                      mainExists: bool, spawn: Outcome<int>, now: int): (r: (Manager, bool))
    requires m.Valid()
    ensures r.0.Valid()
    ensures r == StartApp(StopApp(m, appId, t, now).0, appId, l, alive, bindable, mainExists, spawn, now)
  {
    StartApp(StopApp(m, appId, t, now).0, appId, l, alive, bindable, mainExists, spawn, now)
  }

  /** When the stop succeeds, the start that follows cannot take the
      already-running shortcut: a success tracks the newly spawned pid. */
  lemma RestartSpawnsAfresh(m: Manager, appId: string, t: Termination, l: Launcher, alive: set<int>,
                            bindable: set<int>, mainExists: bool, spawn: Outcome<int>, now: int)
    requires m.Valid() && appId in m.processes && Stoppable(m.processes[appId], t)
    requires RestartApp(m, appId, t, l, alive, bindable, mainExists, spawn, now).1
    ensures var r := RestartApp(m, appId, t, l, alive, bindable, mainExists, spawn, now).0;
            spawn.Returned? && appId in r.processes && r.processes[appId].pid == spawn.value
  {
    var m1 := StopApp(m, appId, t, now).0;
    assert !AliveEntry(m1, appId, alive);
    var r := StartApp(m1, appId, l, alive, bindable, mainExists, spawn, now);
    assert r.0 != m1 by {
      assert appId in r.0.processes;
    }
  }

  /** stop_all: stop_app for each tracked app in `order` (the table's keys). */
  function StopAll(m: Manager, order: seq<string>, t: string -> Termination, now: int): (r: Manager)
    requires m.Valid()
    ensures r.Valid()
    // Exactly the entries that could not be stopped remain.
    ensures forall k :: k in r.processes <==> k in m.processes && (k !in order || !Stoppable(m.processes[k], t(k)))
    ensures forall k :: k in r.processes ==> r.processes[k] == m.processes[k]
    decreases |order|
  {
    if |order| == 0 then m
    else StopAll(StopApp(m, order[0], t(order[0]), now).0, order[1..], t, now)
  }

  /** When every tracked process can be stopped, stop_all empties the table. */
  lemma StopAllEmpties(m: Manager, order: seq<string>, t: string -> Termination, now: int)
    requires m.Valid()
    requires forall k :: k in m.processes ==> k in order && Stoppable(m.processes[k], t(k))
    ensures StopAll(m, order, t, now).processes == map[]
  {
    var r := StopAll(m, order, t, now);
    assert forall k :: k !in r.processes;
  }

  // ---------------------------------------------------------------------------
  // Uptime text in get_process_info
  // ---------------------------------------------------------------------------

  /** `divmod(seconds, 3600)` then `divmod(remainder, 60)`; Python's divmod
      by a positive divisor floors, which is what `/` and `%` do here. */
  function UptimeParts(seconds: int): (r: (int, int, int))
    ensures r.0 * 3600 + r.1 * 60 + r.2 == seconds
    ensures 0 <= r.1 < 60 && 0 <= r.2 < 60
    ensures seconds >= 0 ==> r.0 >= 0
  {
    (seconds / 3600, (seconds % 3600) / 60, (seconds % 3600) % 60)
  }

  /** The uptime text: "Xh Ym Zs", or "Ym Zs" without hours, or "Zs". */
  function FormatUptime(seconds: int): (r: string)
  {
    var (h, m, s) := UptimeParts(seconds);
    if h > 0 then Join([IntToString(h) + "h", IntToString(m) + "m", IntToString(s) + "s"], " ")
    else if m > 0 then Join([IntToString(m) + "m", IntToString(s) + "s"], " ")
    else IntToString(s) + "s"
  }

  /** A number followed by its unit letter. */
  function ReadUnit(t: string, unit: char): Option<nat> {
    if |t| > 0 && t[|t| - 1] == unit then ParseNat(t[..|t| - 1]) else None
  }

  /** Reads an uptime text back to seconds. */
  function ReadUptime(text: string): Option<int> {
    var toks := Split(text, ' ');
    if |toks| == 3 then
      var h :- ReadUnit(toks[0], 'h');
      var m :- ReadUnit(toks[1], 'm');
      var s :- ReadUnit(toks[2], 's');
      Some(h * 3600 + m * 60 + s)
    else if |toks| == 2 then
      var m :- ReadUnit(toks[0], 'm');
      var s :- ReadUnit(toks[1], 's');
      Some(m * 60 + s)
    else if |toks| == 1 then
      var s :- ReadUnit(toks[0], 's');
      Some(s)
    else None
  }

  /** A count with its unit letter has no space and reads back. */
  lemma UnitToken(n: nat, unit: char)
    requires unit != ' '
    ensures Free(NatToString(n) + [unit], ' ')
    ensures ReadUnit(NatToString(n) + [unit], unit) == Some(n)
  {
    var t := NatToString(n) + [unit];
    assert t[..|t| - 1] == NatToString(n);
    ParseNatToString(n);
  }

  lemma HoursRoundTrip(h: nat, m: nat, s: nat)
    ensures ReadUptime(Join([IntToString(h) + "h", IntToString(m) + "m", IntToString(s) + "s"], " "))
            == Some(h * 3600 + m * 60 + s)
  {
    UnitToken(h, 'h');
    UnitToken(m, 'm');
    UnitToken(s, 's');
    var toks := [NatToString(h) + ['h'], NatToString(m) + ['m'], NatToString(s) + ['s']];
    assert [IntToString(h) + "h", IntToString(m) + "m", IntToString(s) + "s"] == toks;
    assert NoneContain(toks, ' ');
    SplitJoin(toks, ' ');
    assert ReadUnit(toks[0], 'h') == Some(h) && ReadUnit(toks[1], 'm') == Some(m) && ReadUnit(toks[2], 's') == Some(s);
  }

  lemma MinutesRoundTrip(m: nat, s: nat)
    ensures ReadUptime(Join([IntToString(m) + "m", IntToString(s) + "s"], " ")) == Some(m * 60 + s)
  {
    UnitToken(m, 'm');
    UnitToken(s, 's');
    var toks := [NatToString(m) + ['m'], NatToString(s) + ['s']];
    assert [IntToString(m) + "m", IntToString(s) + "s"] == toks;
    SplitJoin(toks, ' ');
  }

  lemma SecondsRoundTrip(s: nat)
    ensures ReadUptime(IntToString(s) + "s") == Some(s)
  {
    UnitToken(s, 's');
    assert IntToString(s) + "s" == NatToString(s) + ['s'];
    SplitFree(NatToString(s) + ['s'], ' ');
  }

  /** For a non-negative uptime the text reads back as the seconds. */
  lemma UptimeRoundTrip(seconds: int)
    requires seconds >= 0
    ensures ReadUptime(FormatUptime(seconds)) == Some(seconds)
  {
    var (h, m, s) := UptimeParts(seconds);
    if h > 0 {
      assert FormatUptime(seconds) == Join([IntToString(h) + "h", IntToString(m) + "m", IntToString(s) + "s"], " ");
      HoursRoundTrip(h, m, s);
    } else if m > 0 {
      assert h == 0;
      assert FormatUptime(seconds) == Join([IntToString(m) + "m", IntToString(s) + "s"], " ");
      MinutesRoundTrip(m, s);
    } else {
      assert h == 0 && m == 0;
      assert FormatUptime(seconds) == IntToString(s) + "s";
      SecondsRoundTrip(s);
    }
  }
}

=== FILE: records.dfy ===
/**
 The registry file's records: a runtime record and a registry entry written
 as JSON objects and read back. A timestamp is written as the decimal text
 of its seconds, which stands for the ISO text `isoformat` produces and
 `fromisoformat` reads.
 */
module Records {
  import opened Wrappers
  import opened Text
  import opened JsonData
  import opened Apps

  function TimeText(t: int): string {
    IntToString(t)
  }

  function ReadTime(s: string): (r: Option<int>)
    ensures forall t :: s == TimeText(t) ==> r == Some(t)
  {
    forall t | s == TimeText(t)
      ensures ParseInt(s) == Some(t)
    {
      IntToStringRoundTrip(t);
    }
    ParseInt(s)
  }

  // ---------------------------------------------------------------------------
  // Runtime record
  // ---------------------------------------------------------------------------

  const RuntimeKeys: set<string> := {
    "assigned_port", "process_id", "service_name", "started_at",
    "last_health_check", "resource_usage", "error_message"}

  function OptInt(o: Option<int>): Json {
    if o.Some? then JInt(o.value) else JNull
  }

  function OptString(o: Option<string>): Json {
    if o.Some? then JString(o.value) else JNull
  }

  function OptTime(o: Option<int>): Json {
    if o.Some? then JString(TimeText(o.value)) else JNull
  }

  /** AppRuntimeInfo.to_dict: every field, timestamps as text, the resource
      usage (not represented) as null. */
  function RuntimeToJson(ri: RuntimeInfo): (j: Json)
    ensures j.JObject? && j.fields.Keys == RuntimeKeys
  {
    JObject(map[
      "assigned_port" := OptInt(ri.assignedPort), "process_id" := OptString(ri.processId),
      "service_name" := OptString(ri.serviceName), "started_at" := OptTime(ri.startedAt),
      "last_health_check" := OptTime(ri.lastHealthCheck), "resource_usage" := JNull,
      "error_message" := OptString(ri.errorMessage)])
  }

  /** An optional field read back: absent or null is None, a value of the
      wrong kind is a failure (the outer None). */
  function ReadOptInt(f: map<string, Json>, key: string): (r: Option<Option<int>>)
    ensures key !in f ==> r == Some(None)
  {
    if key !in f || f[key] == JNull then Some(None)
    else if f[key].JInt? then Some(Some(f[key].i))
    else None
  }

  function ReadOptString(f: map<string, Json>, key: string): (r: Option<Option<string>>)
    ensures key !in f ==> r == Some(None)
  {
    if key !in f || f[key] == JNull then Some(None)
    else if f[key].JString? then Some(Some(f[key].s))
    else None
  }

  /** A timestamp field: parsed only when present and non-empty text. */
  function ReadOptTime(f: map<string, Json>, key: string): (r: Option<Option<int>>)
    ensures key !in f ==> r == Some(None)
  {
    if key !in f || f[key] == JNull then Some(None)
    else if f[key].JString? && f[key].s != "" then
      var t :- ReadTime(f[key].s);
      Some(Some(t))
    else None
  }

  /** AppRuntimeInfo.from_dict: an unknown key is an error, a missing key
      takes its default of None. */
  function RuntimeFromJson(j: Json): (r: Option<RuntimeInfo>)
    ensures r.Some? ==> j.JObject? && j.fields.Keys <= RuntimeKeys
    ensures j == JObject(map[]) ==> r == Some(EmptyRuntime)
  {
    if !j.JObject? || !(j.fields.Keys <= RuntimeKeys) then None
    else
      var f := j.fields;
      var port :- ReadOptInt(f, "assigned_port");
      var pid :- ReadOptString(f, "process_id");
      var service :- ReadOptString(f, "service_name");
      var started :- ReadOptTime(f, "started_at");
      var checked :- ReadOptTime(f, "last_health_check");
      var error :- ReadOptString(f, "error_message");
      Some(RuntimeInfo(port, pid, service, started, checked, error))
  }

  lemma TimeTextNonEmpty(t: int)
    ensures TimeText(t) != "" && ReadTime(TimeText(t)) == Some(t)
  {
    IntToStringRoundTrip(t);
  }

  lemma ReadOptTimeBack(f: map<string, Json>, key: string, o: Option<int>)
    requires key in f && f[key] == OptTime(o)
    ensures ReadOptTime(f, key) == Some(o)
  {
    if o.Some? {
      TimeTextNonEmpty(o.value);
    }
  }

  /** A runtime record survives a save and a load. */
  lemma RuntimeRoundTrip(ri: RuntimeInfo)
    ensures RuntimeFromJson(RuntimeToJson(ri)) == Some(ri)
  {
    var f := RuntimeToJson(ri).fields;
    assert ReadOptInt(f, "assigned_port") == Some(ri.assignedPort);
    assert ReadOptString(f, "process_id") == Some(ri.processId);
    assert ReadOptString(f, "service_name") == Some(ri.serviceName);
    assert ReadOptString(f, "error_message") == Some(ri.errorMessage);
    ReadOptTimeBack(f, "started_at", ri.startedAt);
    ReadOptTimeBack(f, "last_health_check", ri.lastHealthCheck);
  }

  // ---------------------------------------------------------------------------
  // Registry entry
  // ---------------------------------------------------------------------------

  const EntryKeys: set<string> := {
    "app_id", "name", "type", "description", "version", "status", "path",
    "manifest", "runtime_info", "discovered_at", "last_updated"}

  /** AppRegistryEntry.to_dict: enums as their values, the manifest dumped,
      timestamps as text. */
  function EntryToJson(e: Entry): (j: Json)
    ensures j.JObject? && j.fields.Keys == EntryKeys
  {
    JObject(map[
      "app_id" := JString(e.appId), "name" := JString(e.name),
      "type" := JString(AppTypeName(e.appType)), "description" := JString(e.description),
      "version" := JString(e.version), "status" := JString(AppStatusName(e.status)),
      "path" := JString(e.path), "manifest" := DumpManifest(e.manifest),
      "runtime_info" := RuntimeToJson(e.runtime),
      "discovered_at" := JString(TimeText(e.discoveredAt)),
      "last_updated" := JString(TimeText(e.lastUpdated))])
  }

  function ReqString(f: map<string, Json>, key: string): (r: Option<string>)
    ensures r.Some? ==> key in f && f[key] == JString(r.value)
  {
    if key in f && f[key].JString? then Some(f[key].s) else None
  }

  function ReqTime(f: map<string, Json>, key: string): (r: Option<int>)
    ensures r.Some? ==> key in f && f[key].JString?
  {
    var s :- ReqString(f, key);
    ReadTime(s)
  }

  /** The identifying fields of an entry: the strings and the two enums. */
  datatype Head = Head(appId: string, name: string, appType: AppType, description: string,
                       version: string, status: AppStatus, path: string)

  function ReadHead(f: map<string, Json>): (r: Option<Head>)
    ensures r.Some? ==> HasString(f, "app_id", r.value.appId) && HasString(f, "path", r.value.path)
  {
    var appId :- ReqString(f, "app_id");
    var name :- ReqString(f, "name");
    var typeText :- ReqString(f, "type");
    var appType :- ParseAppType(typeText);
    var description :- ReqString(f, "description");
    var version :- ReqString(f, "version");
    var statusText :- ReqString(f, "status");
    var status :- ParseAppStatus(statusText);
    var path :- ReqString(f, "path");
    Some(Head(appId, name, appType, description, version, status, path))
  }

  /** AppRegistryEntry.from_dict: every key is required (the conversions
      index them), no other key is accepted, and the enums and the manifest
      must validate. */
  function EntryFromJson(j: Json): (r: Option<Entry>)
    ensures r.Some? ==> j.JObject? && j.fields.Keys == EntryKeys
    ensures r.Some? ==> HasString(j.fields, "app_id", r.value.appId) && HasString(j.fields, "path", r.value.path)
  {
    if !j.JObject? || j.fields.Keys != EntryKeys then None
    else
      var f := j.fields;
      var h :- ReadHead(f);
      var b :- ReadBody(f);
      Some(Entry(h.appId, h.name, h.appType, h.description, h.version, h.status, h.path,
                 b.manifest, b.runtime, b.discoveredAt, b.lastUpdated))
  }

  /** The nested and timestamp fields of an entry. */
  datatype Body = Body(manifest: Manifest, runtime: RuntimeInfo, discoveredAt: int, lastUpdated: int)

  function ReadBody(f: map<string, Json>): (r: Option<Body>)
    requires "manifest" in f && "runtime_info" in f
  {
    var manifest :- ValidateManifest(f["manifest"]);
    var runtime :- RuntimeFromJson(f["runtime_info"]);
    var discovered :- ReqTime(f, "discovered_at");
    var updated :- ReqTime(f, "last_updated");
    Some(Body(manifest, runtime, discovered, updated))
  }

  lemma EntryFields(e: Entry)
    ensures var f := EntryToJson(e).fields;
            "manifest" in f && f["manifest"] == DumpManifest(e.manifest)
            && "runtime_info" in f && f["runtime_info"] == RuntimeToJson(e.runtime)
            && ReqTime(f, "discovered_at") == ReadTime(TimeText(e.discoveredAt))
            && ReqTime(f, "last_updated") == ReadTime(TimeText(e.lastUpdated))
  {
  }

  lemma {:induction false} BodyRoundTrip(e: Entry)
    requires ManifestOk(e.manifest)
    ensures ReadBody(EntryToJson(e).fields) == Some(Body(e.manifest, e.runtime, e.discoveredAt, e.lastUpdated))
  {
    var f := EntryToJson(e).fields;
    EntryFields(e);
    assert ValidateManifest(f["manifest"]) == Some(e.manifest) by {
      ManifestRoundTrip(e.manifest);
    }
    assert RuntimeFromJson(f["runtime_info"]) == Some(e.runtime) by {
      RuntimeRoundTrip(e.runtime);
    }
    TimeTextNonEmpty(e.discoveredAt);
    TimeTextNonEmpty(e.lastUpdated);
  }

  lemma HeadRoundTrip(e: Entry)
    ensures ReadHead(EntryToJson(e).fields) == Some(Head(e.appId, e.name, e.appType, e.description, e.version, e.status, e.path))
  {
    var f := EntryToJson(e).fields;
    AppTypeRoundTrip(e.appType);
    AppStatusRoundTrip(e.status);
    assert ReqString(f, "app_id") == Some(e.appId);
    assert ReqString(f, "name") == Some(e.name);
    assert ReqString(f, "type") == Some(AppTypeName(e.appType));
    assert ReqString(f, "description") == Some(e.description);
    assert ReqString(f, "version") == Some(e.version);
    assert ReqString(f, "status") == Some(AppStatusName(e.status));
    assert ReqString(f, "path") == Some(e.path);
  }

  /** An entry with a valid manifest survives a save and a load. */
  lemma {:induction false} EntryRoundTrip(e: Entry)
    requires ManifestOk(e.manifest)
    ensures EntryFromJson(EntryToJson(e)) == Some(e)
  {
    HeadRoundTrip(e);
    BodyRoundTrip(e);
  }

  // ---------------------------------------------------------------------------
  // The registry file
  // ---------------------------------------------------------------------------

  /** The `apps` object _save_registry writes: each entry under its id. */
  function SaveApps(apps: map<string, Entry>): (data: map<string, Json>)
    ensures data.Keys == apps.Keys
    ensures forall k :: k in apps ==> data[k] == EntryToJson(apps[k])
  {
    map k | k in apps :: EntryToJson(apps[k])
  }

  /** _load_registry over the `apps` object: an entry that fails to load is
      skipped, the others are kept under their key. */
  function LoadApps(data: map<string, Json>): (apps: map<string, Entry>)
    ensures forall k :: k in apps <==> k in data && EntryFromJson(data[k]).Some?
    ensures forall k :: k in apps ==> Some(apps[k]) == EntryFromJson(data[k])
  {
    map k | k in data && EntryFromJson(data[k]).Some? :: EntryFromJson(data[k]).value
  }

  lemma {:induction false} EntryLoads(data: map<string, Json>, k: string, e: Entry)
    requires k in data && data[k] == EntryToJson(e) && ManifestOk(e.manifest)
    ensures k in LoadApps(data) && LoadApps(data)[k] == e
  {
    EntryRoundTrip(e);
  }

  lemma MapsAgree(a: map<string, Entry>, b: map<string, Entry>)
    requires forall k :: k in a ==> k in b
    requires forall k :: k in b ==> k in a && a[k] == b[k]
    ensures a == b
  {
  }

  /** Saving the registry and loading the file back gives the same entries,
      when every manifest is one the schema accepts. */
  lemma {:induction false} SaveLoadRoundTrip(apps: map<string, Entry>)
    requires forall k :: k in apps ==> ManifestOk(apps[k].manifest)
    ensures LoadApps(SaveApps(apps)) == apps
  {
    var data := SaveApps(apps);
    var back := LoadApps(data);
    forall k | k in apps
      ensures k in back && back[k] == apps[k]
    {
      EntryLoads(data, k, apps[k]);
    }
    forall k | k in back
      ensures k in apps
    {
      assert k in data;
    }
    MapsAgree(back, apps);
  }
}

=== FILE: registry.dfy ===
/**
 The in-memory application registry: a dictionary from app id to entry that
 keeps insertion order (`ids`), plus `saved`, the contents the last save
 wrote to the registry file. Register, update and unregister save; a direct
 write to an entry's runtime record does not.
 */
module Registry {
  import opened Wrappers
  import opened Apps

  datatype Registry = Registry(ids: seq<string>, apps: map<string, Entry>, saved: map<string, Entry>)
  {
    /** `ids` lists each key of `apps` exactly once. */
    predicate Valid() {
      (forall i, j :: 0 <= i < j < |ids| ==> ids[i] != ids[j])
      && (forall k :: k in apps ==> k in ids)
      && (forall k :: k in ids ==> k in apps)
    }
  }

  function Empty(): (r: Registry)
    ensures r.Valid() && r.apps == map[]
  {
    Registry([], map[], map[])
  }

  /** get_all_apps: the entries in insertion order. */
  function AllApps(reg: Registry): (r: seq<Entry>)
    requires reg.Valid()
    ensures |r| == |reg.ids|
    ensures forall i :: 0 <= i < |r| ==> r[i] == reg.apps[reg.ids[i]]
  {
    seq(|reg.ids|, i requires 0 <= i < |reg.ids| && reg.Valid() => reg.apps[reg.ids[i]])
  }

  /** register_app: insert or overwrite under the entry's id, then save. An
      overwritten id keeps its position. */
  function Register(reg: Registry, e: Entry): (r: Registry)
    requires reg.Valid()
    ensures r.Valid()
    ensures r.apps == reg.apps[e.appId := e]
    ensures r.saved == r.apps
    ensures e.appId in reg.apps ==> r.ids == reg.ids
    ensures e.appId !in reg.apps ==> r.ids == reg.ids + [e.appId]
  {
    var ids := if e.appId in reg.apps then reg.ids else reg.ids + [e.appId];
    var apps := reg.apps[e.appId := e];
    Registry(ids, apps, apps)
  }

  // ---------------------------------------------------------------------------
  // Attribute updates (update_app's keyword arguments)
  // ---------------------------------------------------------------------------

  /** The attributes an entry has. `app_id` is not among the keys modelled. */
  datatype Field = NameF | TypeF | DescriptionF | VersionF | StatusF | PathF | ManifestF | RuntimeF
                 | DiscoveredAtF | LastUpdatedF

  /** `hasattr(entry, key)`: the attribute a keyword names, if any. */
  function FieldOfKey(key: string): Option<Field> {
    if key == "name" then Some(NameF)
    else if key == "type" then Some(TypeF)
    else if key == "description" then Some(DescriptionF)
    else if key == "version" then Some(VersionF)
    else if key == "status" then Some(StatusF)
    else if key == "path" then Some(PathF)
    else if key == "manifest" then Some(ManifestF)
    else if key == "runtime_info" then Some(RuntimeF)
    else if key == "discovered_at" then Some(DiscoveredAtF)
    else if key == "last_updated" then Some(LastUpdatedF)
    else None
  }

  /** An attribute value. */
  datatype Value = StrV(s: string) | TypeV(t: AppType) | StatusV(st: AppStatus) | ManifestV(m: Manifest)
                 | RuntimeV(ri: RuntimeInfo) | TimeV(at: int)

  predicate Fits(f: Field, v: Value) {
    match f
    case NameF | DescriptionF | VersionF | PathF => v.StrV?
    case TypeF => v.TypeV?
    case StatusF => v.StatusV?
    case ManifestF => v.ManifestV?
    case RuntimeF => v.RuntimeV?
    case DiscoveredAtF | LastUpdatedF => v.TimeV?
  }

  /** `getattr(entry, f)`. */
  function Get(e: Entry, f: Field): (v: Value)
    ensures Fits(f, v)
  {
    match f
    case NameF => StrV(e.name)
    case TypeF => TypeV(e.appType)
    case DescriptionF => StrV(e.description)
    case VersionF => StrV(e.version)
    case StatusF => StatusV(e.status)
    case PathF => StrV(e.path)
    case ManifestF => ManifestV(e.manifest)
    case RuntimeF => RuntimeV(e.runtime)
    case DiscoveredAtF => TimeV(e.discoveredAt)
    case LastUpdatedF => TimeV(e.lastUpdated)
  }

  /** `setattr(entry, f, v)`: that attribute reads back as `v`, every other
      attribute and the id are unchanged. */
  function Set(e: Entry, f: Field, v: Value): (r: Entry)
    requires Fits(f, v)
    ensures Get(r, f) == v
    ensures forall g :: g != f ==> Get(r, g) == Get(e, g)
    ensures r.appId == e.appId
  {
    match f
    case NameF => e.(name := v.s)
    case TypeF => e.(appType := v.t)
    case DescriptionF => e.(description := v.s)
    case VersionF => e.(version := v.s)
    case StatusF => e.(status := v.st)
    case PathF => e.(path := v.s)
    case ManifestF => e.(manifest := v.m)
    case RuntimeF => e.(runtime := v.ri)
    case DiscoveredAtF => e.(discoveredAt := v.at)
    case LastUpdatedF => e.(lastUpdated := v.at)
  }

  lemma GetDeterminesEntry(a: Entry, b: Entry)
    requires a.appId == b.appId
    requires forall f :: Get(a, f) == Get(b, f)
    ensures a == b
  {
    assert Get(a, NameF) == Get(b, NameF) && Get(a, TypeF) == Get(b, TypeF);
    assert Get(a, DescriptionF) == Get(b, DescriptionF) && Get(a, VersionF) == Get(b, VersionF);
    assert Get(a, StatusF) == Get(b, StatusF) && Get(a, PathF) == Get(b, PathF);
    assert Get(a, ManifestF) == Get(b, ManifestF) && Get(a, RuntimeF) == Get(b, RuntimeF);
    assert Get(a, DiscoveredAtF) == Get(b, DiscoveredAtF) && Get(a, LastUpdatedF) == Get(b, LastUpdatedF);
  }

  /** Keyword arguments whose known keys carry values of the attribute's type. */
  predicate WellTyped(kwargs: seq<(string, Value)>) {
    forall i :: 0 <= i < |kwargs| && FieldOfKey(kwargs[i].0).Some? ==> Fits(FieldOfKey(kwargs[i].0).value, kwargs[i].1)
  }

  /** One keyword: setattr when the entry has the attribute, otherwise nothing. */
  function ApplyOne(e: Entry, kv: (string, Value)): Entry
    requires FieldOfKey(kv.0).Some? ==> Fits(FieldOfKey(kv.0).value, kv.1)
  {
    match FieldOfKey(kv.0)
    case Some(f) => Set(e, f, kv.1)
    case None => e
  }

  /** The loop over kwargs: setattr for each key the entry has, in order. */
  function ApplyKwargs(e: Entry, kwargs: seq<(string, Value)>): Entry
    requires WellTyped(kwargs)
  {
    if |kwargs| == 0 then e
    else ApplyOne(ApplyKwargs(e, kwargs[..|kwargs| - 1]), kwargs[|kwargs| - 1])
  }

  /** The loop applied to one more keyword. */
  lemma ApplyKwargsSnoc(e: Entry, kwargs: seq<(string, Value)>, kv: (string, Value))
    requires WellTyped(kwargs + [kv])
    ensures WellTyped(kwargs)
    ensures ApplyKwargs(e, kwargs + [kv]) == ApplyOne(ApplyKwargs(e, kwargs), kv)
  {
    var all := kwargs + [kv];
    assert all[..|all| - 1] == kwargs;
    forall i | 0 <= i < |kwargs| && FieldOfKey(kwargs[i].0).Some?
      ensures Fits(FieldOfKey(kwargs[i].0).value, kwargs[i].1)
    {
      assert kwargs[i] == all[i];
    }
  }

  /** The value the last keyword naming `f` carries, if any. */
  function LastValue(kwargs: seq<(string, Value)>, f: Field): Option<Value> {
    if |kwargs| == 0 then None
    else if FieldOfKey(kwargs[|kwargs| - 1].0) == Some(f) then Some(kwargs[|kwargs| - 1].1)
    else LastValue(kwargs[..|kwargs| - 1], f)
  }

  /** After the loop each attribute holds the last value given for it, or its
      old value when no keyword names it; unknown keys change nothing. */
  lemma {:induction false} ApplyKwargsGet(e: Entry, kwargs: seq<(string, Value)>, f: Field)
    requires WellTyped(kwargs)
    ensures Get(ApplyKwargs(e, kwargs), f) == LastValue(kwargs, f).GetOr(Get(e, f))
    ensures ApplyKwargs(e, kwargs).appId == e.appId
    decreases |kwargs|
  {
    if |kwargs| > 0 {
      var init := kwargs[..|kwargs| - 1];
      assert WellTyped(init) by {
        forall i | 0 <= i < |init| && FieldOfKey(init[i].0).Some?
          ensures Fits(FieldOfKey(init[i].0).value, init[i].1)
        {
          assert init[i] == kwargs[i];
        }
      }
      ApplyKwargsGet(e, init, f);
    }
  }

  /** update_app: False and no change for an unknown id; otherwise the keyword
      attributes are set, `last_updated` becomes `now`, and the registry is saved. */
  function UpdateApp(reg: Registry, appId: string, kwargs: seq<(string, Value)>, now: int): (r: (Registry, bool))
    requires reg.Valid() && WellTyped(kwargs)
    ensures r.0.Valid()
    ensures r.1 <==> appId in reg.apps
    ensures !r.1 ==> r.0 == reg
    ensures r.1 ==> r.0.ids == reg.ids && r.0.apps.Keys == reg.apps.Keys && r.0.saved == r.0.apps
    ensures r.1 ==> r.0.apps[appId].lastUpdated == now
    ensures forall k :: k in reg.apps && k != appId ==> r.0.apps[k] == reg.apps[k]
  {
    if appId !in reg.apps then (reg, false)
    else
      var e := ApplyKwargs(reg.apps[appId], kwargs).(lastUpdated := now);
      var apps := reg.apps[appId := e];
      (Registry(reg.ids, apps, apps), true)
  }

  /** The updated entry, attribute by attribute. */
  lemma {:induction false} UpdateAppFields(reg: Registry, appId: string, kwargs: seq<(string, Value)>, now: int, f: Field)
    requires reg.Valid() && WellTyped(kwargs) && appId in reg.apps && f != LastUpdatedF
    ensures var e := UpdateApp(reg, appId, kwargs, now).0.apps[appId];
            Get(e, f) == LastValue(kwargs, f).GetOr(Get(reg.apps[appId], f))
            && e.appId == reg.apps[appId].appId
  {
    ApplyKwargsGet(reg.apps[appId], kwargs, f);
    var e0 := ApplyKwargs(reg.apps[appId], kwargs);
    assert Get(e0.(lastUpdated := now), f) == Get(e0, f);
  }

  /** A direct assignment to an entry's runtime record: the in-memory entry
      changes, the saved copy does not. */
  function SetRuntime(reg: Registry, appId: string, ri: RuntimeInfo): (r: Registry)
    requires reg.Valid()
    ensures r.Valid() && r.ids == reg.ids && r.saved == reg.saved
    ensures appId in reg.apps ==> r.apps == reg.apps[appId := reg.apps[appId].(runtime := ri)]
    ensures appId !in reg.apps ==> r == reg
  {
    if appId in reg.apps then reg.(apps := reg.apps[appId := reg.apps[appId].(runtime := ri)])
    else reg
  }

  /** The order of ids and the entries of apps other than `appId` are as before. */
  ghost predicate RegFrame(reg: Registry, reg2: Registry, appId: string) {
    reg2.ids == reg.ids && reg2.apps.Keys == reg.apps.Keys
    && forall k :: k in reg.apps && k != appId ==> reg2.apps[k] == reg.apps[k]
  }

  // ---------------------------------------------------------------------------
  // The update_app calls the managers make
  // ---------------------------------------------------------------------------

  /** update_app(app_id, status=s). */
  function SetStatus(reg: Registry, appId: string, s: AppStatus, now: int): (r: Registry)
    requires reg.Valid()
    ensures r.Valid() && r.ids == reg.ids && r.apps.Keys == reg.apps.Keys
    ensures appId in reg.apps ==> r.apps[appId] == reg.apps[appId].(status := s, lastUpdated := now) && r.saved == r.apps
    ensures appId !in reg.apps ==> r == reg
    ensures forall k :: k in reg.apps && k != appId ==> r.apps[k] == reg.apps[k]
  {
    if appId in reg.apps then
      StatusKwargs(reg.apps[appId], s);
      UpdateApp(reg, appId, [("status", StatusV(s))], now).0
    else reg
  }

  /** update_app(app_id, status=s, runtime_info=ri). */
  function SetStatusAndRuntime(reg: Registry, appId: string, s: AppStatus, ri: RuntimeInfo, now: int): (r: Registry)
    requires reg.Valid()
    ensures r.Valid() && r.ids == reg.ids && r.apps.Keys == reg.apps.Keys
    ensures appId in reg.apps ==> r.apps[appId] == reg.apps[appId].(status := s, runtime := ri, lastUpdated := now) && r.saved == r.apps
    ensures appId !in reg.apps ==> r == reg
    ensures forall k :: k in reg.apps && k != appId ==> r.apps[k] == reg.apps[k]
  {
    if appId in reg.apps then
      StatusAndRuntimeKwargs(reg.apps[appId], s, ri);
      UpdateApp(reg, appId, [("status", StatusV(s)), ("runtime_info", RuntimeV(ri))], now).0
    else reg
  }

  lemma StatusKwargs(e: Entry, s: AppStatus)
    ensures WellTyped([("status", StatusV(s))])
    ensures ApplyKwargs(e, [("status", StatusV(s))]) == e.(status := s)
  {
    var kw := [("status", StatusV(s))];
    assert kw[..0] == [];
    assert ApplyKwargs(e, kw) == ApplyOne(e, kw[0]);
    assert ApplyOne(e, kw[0]) == Set(e, StatusF, StatusV(s));
  }

  lemma RuntimeKwargs(e: Entry, ri: RuntimeInfo)
    ensures WellTyped([("runtime_info", RuntimeV(ri))])
    ensures ApplyKwargs(e, [("runtime_info", RuntimeV(ri))]) == e.(runtime := ri)
  {
    var kw := [("runtime_info", RuntimeV(ri))];
    assert kw[..0] == [];
    assert ApplyKwargs(e, kw) == ApplyOne(e, kw[0]);
    assert ApplyOne(e, kw[0]) == Set(e, RuntimeF, RuntimeV(ri));
  }

  lemma StatusAndRuntimeKwargs(e: Entry, s: AppStatus, ri: RuntimeInfo)
    ensures WellTyped([("status", StatusV(s)), ("runtime_info", RuntimeV(ri))])
    ensures ApplyKwargs(e, [("status", StatusV(s)), ("runtime_info", RuntimeV(ri))]) == e.(status := s, runtime := ri)
  {
    var a, b := ("status", StatusV(s)), ("runtime_info", RuntimeV(ri));
    assert [] + [a] + [b] == [a, b];
    ApplyKwargsSnoc(e, [] + [a], b);
    ApplyKwargsSnoc(e, [], a);
    var e1 := ApplyOne(e, a);
    assert e1 == e.(status := s);
    assert ApplyOne(e1, b) == e.(status := s, runtime := ri);
  }

  /** update_app(app_id, runtime_info=ri). */
  function SetRuntimeSaved(reg: Registry, appId: string, ri: RuntimeInfo, now: int): (r: Registry)
    requires reg.Valid()
    ensures r.Valid() && r.ids == reg.ids && r.apps.Keys == reg.apps.Keys
    ensures appId in reg.apps ==> r.apps[appId] == reg.apps[appId].(runtime := ri, lastUpdated := now) && r.saved == r.apps
    ensures appId !in reg.apps ==> r == reg
    ensures forall k :: k in reg.apps && k != appId ==> r.apps[k] == reg.apps[k]
  {
    if appId in reg.apps then
      RuntimeKwargs(reg.apps[appId], ri);
      UpdateApp(reg, appId, [("runtime_info", RuntimeV(ri))], now).0
    else reg
  }

  /** Writes the entry's error message directly (no save). */
  function SetErrorMessage(reg: Registry, appId: string, msg: string): (r: Registry)
    requires reg.Valid()
    ensures r.Valid() && r.ids == reg.ids && r.apps.Keys == reg.apps.Keys && r.saved == reg.saved
    ensures appId in reg.apps ==> r.apps[appId] == reg.apps[appId].(runtime := reg.apps[appId].runtime.(errorMessage := Some(msg)))
    ensures forall k :: k in reg.apps && k != appId ==> r.apps[k] == reg.apps[k]
  {
    if appId in reg.apps then SetRuntime(reg, appId, reg.apps[appId].runtime.(errorMessage := Some(msg)))
    else reg
  }

  /** Removes the first (only) occurrence of `k`, keeping the order of the rest. */
  function Remove(ids: seq<string>, k: string): (r: seq<string>)
    ensures forall x :: x in r <==> x in ids && x != k
    ensures k !in ids ==> r == ids
  {
    if |ids| == 0 then []
    else if ids[0] == k then Remove(ids[1..], k)
    else [ids[0]] + Remove(ids[1..], k)
  }

  predicate Distinct(xs: seq<string>) {
    forall i, j :: 0 <= i < j < |xs| ==> xs[i] != xs[j]
  }

  lemma {:induction false} RemoveDistinct(ids: seq<string>, k: string)
    requires Distinct(ids)
    ensures Distinct(Remove(ids, k))
  {
    if |ids| > 0 {
      RemoveDistinct(ids[1..], k);
      assert ids[0] !in ids[1..];
    }
  }

  /** unregister_app: True exactly when the id was present; afterwards it is
      absent and every other entry is unchanged. */
  function UnregisterApp(reg: Registry, appId: string): (r: (Registry, bool))
    requires reg.Valid()
    ensures r.0.Valid()
    ensures r.1 <==> appId in reg.apps
    ensures !r.1 ==> r.0 == reg
    ensures appId !in r.0.apps
    ensures forall k :: k != appId ==> (k in r.0.apps <==> k in reg.apps)
    ensures forall k :: k in r.0.apps ==> r.0.apps[k] == reg.apps[k]
    ensures r.1 ==> r.0.saved == r.0.apps
  {
    if appId in reg.apps then
      var apps := reg.apps - {appId};
      RemoveDistinct(reg.ids, appId);
      (Registry(Remove(reg.ids, appId), apps, apps), true)
    else (reg, false)
  }

  /** get_app. */
  function GetApp(reg: Registry, appId: string): (r: Option<Entry>)
    ensures r.Some? <==> appId in reg.apps
    ensures r.Some? ==> r.value == reg.apps[appId]
  {
    if appId in reg.apps then Some(reg.apps[appId]) else None
  }

  // ---------------------------------------------------------------------------
  // Filters
  // ---------------------------------------------------------------------------

  function FilterType(es: seq<Entry>, t: AppType): (r: seq<Entry>)
    ensures |r| <= |es|
    ensures forall i :: 0 <= i < |r| ==> r[i].appType == t
    ensures forall e :: e in r <==> e in es && e.appType == t
  {
    if |es| == 0 then []
    else if es[0].appType == t then [es[0]] + FilterType(es[1..], t)
    else FilterType(es[1..], t)
  }

  function FilterStatus(es: seq<Entry>, s: AppStatus): (r: seq<Entry>)
    ensures |r| <= |es|
    ensures forall i :: 0 <= i < |r| ==> r[i].status == s
    ensures forall e :: e in r <==> e in es && e.status == s
  {
    if |es| == 0 then []
    else if es[0].status == s then [es[0]] + FilterStatus(es[1..], s)
    else FilterStatus(es[1..], s)
  }

  /** get_apps_by_type: exactly the entries of that type, in registry order. */
  function GetAppsByType(reg: Registry, t: AppType): (r: seq<Entry>)
    requires reg.Valid()
    ensures forall e :: e in r <==> e in reg.apps.Values && e.appType == t
  {
    var all := AllApps(reg);
    assert forall e :: e in all <==> e in reg.apps.Values by {
      forall e
        ensures e in all <==> e in reg.apps.Values
      {
        if e in reg.apps.Values {
          var k :| k in reg.apps && reg.apps[k] == e;
          var i :| 0 <= i < |reg.ids| && reg.ids[i] == k;
          assert all[i] == e;
        }
      }
    }
    FilterType(all, t)
  }

  /** get_apps_by_status: exactly the entries with that status, in registry order. */
  function GetAppsByStatus(reg: Registry, s: AppStatus): (r: seq<Entry>)
    requires reg.Valid()
    ensures forall e :: e in r <==> e in reg.apps.Values && e.status == s
  {
    var all := AllApps(reg);
    assert forall e :: e in all <==> e in reg.apps.Values by {
      forall e
        ensures e in all <==> e in reg.apps.Values
      {
        if e in reg.apps.Values {
          var k :| k in reg.apps && reg.apps[k] == e;
          var i :| 0 <= i < |reg.ids| && reg.ids[i] == k;
          assert all[i] == e;
        }
      }
    }
    FilterStatus(all, s)
  }

  /** The number of entries with a given status / type. */
  function CountStatus(es: seq<Entry>, s: AppStatus): nat {
    if |es| == 0 then 0 else (if es[0].status == s then 1 else 0) + CountStatus(es[1..], s)
  }

  function CountType(es: seq<Entry>, t: AppType): nat {
    if |es| == 0 then 0 else (if es[0].appType == t then 1 else 0) + CountType(es[1..], t)
  }

  lemma {:induction false} FilterStatusCount(es: seq<Entry>, s: AppStatus)
    ensures |FilterStatus(es, s)| == CountStatus(es, s)
  {
    if |es| > 0 {
      FilterStatusCount(es[1..], s);
    }
  }

  lemma {:induction false} FilterTypeCount(es: seq<Entry>, t: AppType)
    ensures |FilterType(es, t)| == CountType(es, t)
  {
    if |es| > 0 {
      FilterTypeCount(es[1..], t);
    }
  }

  /** Summing the per-status counts over every status. */
  function StatusTotal(es: seq<Entry>): nat {
    CountStatus(es, Discovered) + CountStatus(es, Installing) + CountStatus(es, Ready)
    + CountStatus(es, Starting) + CountStatus(es, Running) + CountStatus(es, Stopping)
    + CountStatus(es, Stopped) + CountStatus(es, Error)
  }

  /** Every entry has exactly one status, so the status counts add up. */
  lemma {:induction false} StatusCountsPartition(es: seq<Entry>)
    ensures StatusTotal(es) == |es|
  {
    if |es| > 0 {
      StatusCountsPartition(es[1..]);
    }
  }

  /** Every entry has exactly one type, so the type counts add up. */
  lemma {:induction false} TypeCountsPartition(es: seq<Entry>)
    ensures CountType(es, Service) + CountType(es, Streamlit) == |es|
  {
    if |es| > 0 {
      TypeCountsPartition(es[1..]);
    }
  }
}

=== FILE: services.dfy ===
/**
 The systemd service manager: unit naming, the unit-file template, how the
 results of `systemctl` and `journalctl` are read, and what they do to the
 registry and to the manager's own table of service records.
 */
module Services {
  import opened Wrappers
  import opened Text
  import opened Apps
  import opened Registry
  import opened Env

  // ---------------------------------------------------------------------------
  // Unit names
  // ---------------------------------------------------------------------------

  const ServicePrefix: string := "homehelper-"
  const UnitSuffix: string := ".service"

  /** The unit every control operation on `appId` targets. */
  function UnitName(appId: string): (r: string)
    ensures StartsWith(r, ServicePrefix) && EndsWith(r, UnitSuffix)
    ensures |r| == |ServicePrefix| + |appId| + |UnitSuffix|
  {
    ServicePrefix + appId + UnitSuffix
  }

  /** The app a unit name belongs to, when it follows the naming scheme. */
  function UnitAppId(name: string): Option<string> {
    if |ServicePrefix| + |UnitSuffix| <= |name| && StartsWith(name, ServicePrefix) && EndsWith(name, UnitSuffix)
    then Some(name[|ServicePrefix|..|name| - |UnitSuffix|])
    else None
  }

  lemma UnitNameRoundTrip(appId: string)
    ensures UnitAppId(UnitName(appId)) == Some(appId)
  {
    var n := UnitName(appId);
    assert n[|ServicePrefix|..|n| - |UnitSuffix|] == appId;
  }

  /** Every name that follows the scheme is the unit of exactly one app. */
  lemma UnitAppIdInverse(name: string)
    requires UnitAppId(name).Some?
    ensures UnitName(UnitAppId(name).value) == name
  {
    var k := |name| - |UnitSuffix|;
    assert name == name[..|ServicePrefix|] + name[|ServicePrefix|..k] + name[k..];
  }

  lemma UnitNameInjective(a: string, b: string)
    requires UnitName(a) == UnitName(b)
    ensures a == b
  {
    UnitNameRoundTrip(a);
    UnitNameRoundTrip(b);
  }

  // ---------------------------------------------------------------------------
  // The unit-file template
  // ---------------------------------------------------------------------------

  /** What the template reads from the host configuration. Directory roots
      are the configured data and logs directories; `owner` is the home
      directory's owner. */
  datatype HostConfig = HostConfig(
    owner: string, dataRoot: string, logsRoot: string,
    redisHost: string, redisPort: int, redisPassword: Option<string>)

  /** `Path(root) / app_id` as text. */
  function AppDir(root: string, appId: string): string {
    root + "/" + appId
  }

  predicate DataDirFlag(m: Manifest) { m.config.Some? && m.config.value.dataDir }
  predicate LogsDirFlag(m: Manifest) { m.config.Some? && m.config.value.logsDir }
  predicate RedisFlag(m: Manifest) { m.config.Some? && m.config.value.redisRequired }

  /** The ExecStart argument list. */
  function ExecArgs(m: Manifest, appId: string, port: int, host: HostConfig): (r: seq<string>)
    ensures |r| == 4 + (if DataDirFlag(m) then 2 else 0) + (if LogsDirFlag(m) then 2 else 0)
    ensures r[..4] == ["python", m.mainFile, "--port", IntToString(port)]
    ensures DataDirFlag(m) ==> r[4] == "--data-dir" && r[5] == AppDir(host.dataRoot, appId)
    ensures LogsDirFlag(m) ==> r[|r| - 2] == "--logs-dir" && r[|r| - 1] == AppDir(host.logsRoot, appId)
  {
    ["python", m.mainFile, "--port", IntToString(port)]
    + (if DataDirFlag(m) then ["--data-dir", AppDir(host.dataRoot, appId)] else [])
    + (if LogsDirFlag(m) then ["--logs-dir", AppDir(host.logsRoot, appId)] else [])
  }

  /** The port on the ExecStart line reads back as the assigned port. */
  lemma ExecArgsPort(m: Manifest, appId: string, port: int, host: HostConfig)
    ensures ParseInt(ExecArgs(m, appId, port, host)[3]) == Some(port)
  {
    IntToStringRoundTrip(port);
  }

  /** Whether a password line is written: the password is set and non-empty. */
  predicate HasPassword(host: HostConfig) {
    host.redisPassword.Some? && host.redisPassword.value != ""
  }

  /** The Environment values: the Redis connection, only for apps that need it. */
  function EnvironmentVars(m: Manifest, host: HostConfig): (r: seq<string>)
    ensures RedisFlag(m) <==> |r| > 0
    ensures RedisFlag(m) ==>
              |r| == (if HasPassword(host) then 3 else 2)
              && r[0] == "REDIS_HOST=" + host.redisHost
              && r[1] == "REDIS_PORT=" + IntToString(host.redisPort)
              && (HasPassword(host) ==> r[2] == "REDIS_PASSWORD=" + host.redisPassword.value)
  {
    if !RedisFlag(m) then []
    else ["REDIS_HOST=" + host.redisHost, "REDIS_PORT=" + IntToString(host.redisPort)]
         + (if HasPassword(host) then ["REDIS_PASSWORD=" + host.redisPassword.value] else [])
  }

  /** Restart policy: the manifest's when set, otherwise "always". */
  function RestartPolicy(m: Manifest): (r: string)
    ensures m.config.None? ==> r == "always"
    ensures m.config.Some? && m.config.value.restartPolicy != "" ==> r == m.config.value.restartPolicy
    ensures r != ""
  {
    if m.config.Some? && m.config.value.restartPolicy != "" then m.config.value.restartPolicy else "always"
  }

  const InstallLines: seq<string> := ["", "[Install]", "WantedBy=default.target"]

  /** The lines of the unit file for an app holding `port`. */
  function UnitLines(e: Entry, appId: string, port: int, host: HostConfig): (r: seq<string>)
    ensures |r| == 18 + |EnvironmentVars(e.manifest, host)|
    ensures r[0] == "[Unit]" && r[5] == "[Service]"
    ensures r[1] == "Description=HomeHelper Service - " + e.manifest.name
    ensures r[8] == "WorkingDirectory=" + e.path
    ensures r[9] == "ExecStart=" + Join(ExecArgs(e.manifest, appId, port, host), " ")
    ensures r[10] == "Restart=" + RestartPolicy(e.manifest)
    ensures r[14] == "SyslogIdentifier=" + ServicePrefix + appId
    ensures r[2] == "After=network.target" && r[3] == "Wants=network.target" && r[4] == ""
    ensures r[6] == "Type=simple" && r[7] == "User=" + host.owner
    ensures r[11] == "RestartSec=5" && r[12] == "StandardOutput=journal" && r[13] == "StandardError=journal"
    ensures forall i :: 0 <= i < |EnvironmentVars(e.manifest, host)| ==>
              r[15 + i] == "Environment=" + EnvironmentVars(e.manifest, host)[i]
    ensures r[|r| - 3..] == InstallLines
  {
    var env := EnvironmentVars(e.manifest, host);
    var head := SectionLines(e, appId, port, host);
    var envLines := seq(|env|, i requires 0 <= i < |env| => "Environment=" + env[i]);
    var r := head + envLines + InstallLines;
    assert forall i :: 0 <= i < |head| ==> r[i] == head[i];
    assert forall i :: 0 <= i < |env| ==> r[15 + i] == envLines[i];
    assert r[|r| - 3..] == InstallLines;
    r
  }

  /** The [Unit] and [Service] sections, up to the environment lines. */
  function SectionLines(e: Entry, appId: string, port: int, host: HostConfig): (r: seq<string>)
    ensures |r| == 15
    ensures r[0] == "[Unit]" && r[5] == "[Service]"
    ensures r[1] == "Description=HomeHelper Service - " + e.manifest.name
    ensures r[8] == "WorkingDirectory=" + e.path
    ensures r[9] == "ExecStart=" + Join(ExecArgs(e.manifest, appId, port, host), " ")
    ensures r[10] == "Restart=" + RestartPolicy(e.manifest)
    ensures r[14] == "SyslogIdentifier=" + ServicePrefix + appId
    ensures r[2] == "After=network.target" && r[3] == "Wants=network.target" && r[4] == ""
    ensures r[6] == "Type=simple" && r[7] == "User=" + host.owner
    ensures r[11] == "RestartSec=5" && r[12] == "StandardOutput=journal" && r[13] == "StandardError=journal"
  {
    var unit := UnitSection(e.manifest.name);
    var service := ServiceSection(e, appId, port, host);
    var r := unit + service;
    assert r[0] == unit[0] && r[1] == unit[1];
    assert r[5] == service[0] && r[8] == service[3] && r[9] == service[4];
    assert r[10] == service[5] && r[14] == service[9];
    assert r[2] == unit[2] && r[3] == unit[3] && r[4] == unit[4];
    assert r[6] == service[1] && r[7] == service[2] && r[11] == service[6] && r[12] == service[7] && r[13] == service[8];
    r
  }

  /** The [Unit] section and the blank line after it. */
  function UnitSection(name: string): (r: seq<string>)
    ensures |r| == 5 && r[0] == "[Unit]" && r[1] == "Description=HomeHelper Service - " + name
    ensures r[2] == "After=network.target" && r[3] == "Wants=network.target" && r[4] == ""
  {
    ["[Unit]", "Description=HomeHelper Service - " + name, "After=network.target", "Wants=network.target", ""]
  }

  /** The [Service] section without its environment lines. */
  function ServiceSection(e: Entry, appId: string, port: int, host: HostConfig): (r: seq<string>)
    ensures |r| == 10 && r[0] == "[Service]"
    ensures r[3] == "WorkingDirectory=" + e.path
    ensures r[4] == "ExecStart=" + Join(ExecArgs(e.manifest, appId, port, host), " ")
    ensures r[5] == "Restart=" + RestartPolicy(e.manifest)
    ensures r[9] == "SyslogIdentifier=" + ServicePrefix + appId
    ensures r[1] == "Type=simple" && r[2] == "User=" + host.owner
    ensures r[6] == "RestartSec=5" && r[7] == "StandardOutput=journal" && r[8] == "StandardError=journal"
  {
    [ "[Service]",
      "Type=simple",
      "User=" + host.owner,
      "WorkingDirectory=" + e.path,
      "ExecStart=" + Join(ExecArgs(e.manifest, appId, port, host), " "),
      "Restart=" + RestartPolicy(e.manifest),
      "RestartSec=5",
      "StandardOutput=journal",
      "StandardError=journal",
      "SyslogIdentifier=" + ServicePrefix + appId ]
  }

  /** generate_service_template. */
  function GenerateServiceTemplate(reg: Registry, appId: string, host: HostConfig): (r: Option<string>)
    ensures r.None? <==> appId !in reg.apps || reg.apps[appId].appType != Service || !HasPort(reg.apps[appId])
    ensures r.Some? ==> StartsWith(r.value, "[Unit]\n")
    ensures r.Some? ==> EndsWith(r.value, "\n[Install]\nWantedBy=default.target\n")
  {
    if appId !in reg.apps || reg.apps[appId].appType != Service || !HasPort(reg.apps[appId]) then None
    else
      var e := reg.apps[appId];
      var lines := UnitLines(e, appId, e.runtime.assignedPort.value, host);
      UnitTextEnds(lines);
      Some(Unlines(lines))
  }

  /** A unit whose lines open with the [Unit] header and close with the
      [Install] section starts and ends with those texts. */
  lemma UnitTextEnds(lines: seq<string>)
    requires |lines| >= 4 && lines[0] == "[Unit]" && lines[|lines| - 3..] == InstallLines
    ensures StartsWith(Unlines(lines), "[Unit]\n")
    ensures EndsWith(Unlines(lines), "\n[Install]\nWantedBy=default.target\n")
  {
    UnitTextStart(lines);
    UnitTextTail(lines);
  }

  lemma UnitTextTail(lines: seq<string>)
    requires |lines| >= 3 && lines[|lines| - 3..] == InstallLines
    ensures EndsWith(Unlines(lines), "\n[Install]\nWantedBy=default.target\n")
  {
    UnlinesEndsWith(lines, 3);
    InstallText();
    assert Unlines(lines[|lines| - 3..]) == "\n[Install]\nWantedBy=default.target\n";
  }

  lemma UnitTextStart(lines: seq<string>)
    requires |lines| >= 1 && lines[0] == "[Unit]"
    ensures StartsWith(Unlines(lines), "[Unit]\n")
  {
    var text := Unlines(lines);
    assert text == lines[0] + "\n" + Unlines(lines[1..]);
    assert text[..7] == "[Unit]\n";
  }

  /** The [Install] section's lines as text. */
  lemma InstallText()
    ensures Unlines(InstallLines) == "\n[Install]\nWantedBy=default.target\n"
  {
    var a, b, c := "", "[Install]", "WantedBy=default.target";
    assert InstallLines == [a, b, c];
    assert [a, b, c][1..] == [b, c];
    assert [b, c][1..] == [c];
    assert [c][1..] == [];
    var t2 := Unlines([b, c]);
    InstallTextLast();
    InstallTextMiddle();
    InstallTextFirst();
    assert Unlines([c]) == "WantedBy=default.target\n";
    assert t2 == "[Install]\nWantedBy=default.target\n";
    assert a + "\n" + t2 == "\n" + t2;
  }

  // The three literal concatenations InstallText needs, one per lemma.

  lemma InstallTextFirst()
    ensures "\n" + "[Install]\nWantedBy=default.target\n" == "\n[Install]\nWantedBy=default.target\n"
  {
  }

  lemma InstallTextLast()
    ensures "WantedBy=default.target" + "\n" + "" == "WantedBy=default.target\n"
  {
  }

  lemma InstallTextMiddle()
    ensures "[Install]" + "\n" + "WantedBy=default.target\n" == "[Install]\nWantedBy=default.target\n"
  {
  }

  /** The text written to the unit file, read back line by line, is the
      template's lines (followed by the empty tail after the final newline),
      whenever the values spliced in are single-line. */
  lemma TemplateReadBack(reg: Registry, appId: string, host: HostConfig)
    requires appId in reg.apps && reg.apps[appId].appType == Service && HasPort(reg.apps[appId])
    requires NoneContain(UnitLines(reg.apps[appId], appId, reg.apps[appId].runtime.assignedPort.value, host), '\n')
    ensures GenerateServiceTemplate(reg, appId, host)
            == Some(Unlines(UnitLines(reg.apps[appId], appId, reg.apps[appId].runtime.assignedPort.value, host)))
    ensures Split(GenerateServiceTemplate(reg, appId, host).value, '\n')
            == UnitLines(reg.apps[appId], appId, reg.apps[appId].runtime.assignedPort.value, host) + [""]
  {
    SplitUnlines(UnitLines(reg.apps[appId], appId, reg.apps[appId].runtime.assignedPort.value, host));
  }

  /** The Redis settings as the configuration schema declares them: host,
      port and database number, and no password. */
  datatype DeclaredRedisConfig = DeclaredRedisConfig(host: string, port: int, db: int)

  /** The Environment values as written against the declared settings: the
      password lookup raises for every app that requires Redis. */
  function EnvironmentVarsAsWritten(m: Manifest, redis: DeclaredRedisConfig): (r: Outcome<seq<string>>)
    ensures r.Raised? <==> RedisFlag(m)
    ensures !RedisFlag(m) ==> r == Returned([])
  {
    if !RedisFlag(m) then Returned([])
    else Raised("AttributeError: 'RedisConfig' object has no attribute 'password'")
  }

  /** With the password treated as optional, a Redis app gets its host and
      port lines and no password line when none is configured. */
  lemma RedisWithoutPassword(m: Manifest, redis: DeclaredRedisConfig, owner: string, dataRoot: string, logsRoot: string)
    requires RedisFlag(m)
    ensures EnvironmentVarsAsWritten(m, redis).Raised?
    ensures EnvironmentVars(m, HostConfig(owner, dataRoot, logsRoot, redis.host, redis.port, None))
            == ["REDIS_HOST=" + redis.host, "REDIS_PORT=" + IntToString(redis.port)]
  {
  }

  // ---------------------------------------------------------------------------
  // Service records and `systemctl show`
  // ---------------------------------------------------------------------------

  /** systemd's ActiveState, with everything else read as unknown. */
  datatype ServiceStatus = Active | Inactive | Failed | Activating | Deactivating | UnknownStatus

  /** systemd's SubState, with everything else read as unknown. */
  datatype ServiceState = RunningState | ExitedState | FailedState | DeadState | UnknownState

  function StatusName(s: ServiceStatus): string {
    match s
    case Active => "active"
    case Inactive => "inactive"
    case Failed => "failed"
    case Activating => "activating"
    case Deactivating => "deactivating"
    case UnknownStatus => "unknown"
  }

  function StateName(s: ServiceState): string {
    match s
    case RunningState => "running"
    case ExitedState => "exited"
    case FailedState => "failed"
    case DeadState => "dead"
    case UnknownState => "unknown"
  }

  function ParseServiceStatus(text: string): (r: ServiceStatus)
    ensures r != UnknownStatus ==> StatusName(r) == text
    ensures r == UnknownStatus <==>
              text != "active" && text != "inactive" && text != "failed" && text != "activating" && text != "deactivating"
  {
    if text == "active" then Active
    else if text == "inactive" then Inactive
    else if text == "failed" then Failed
    else if text == "activating" then Activating
    else if text == "deactivating" then Deactivating
    else UnknownStatus
  }

  function ParseServiceState(text: string): (r: ServiceState)
    ensures r != UnknownState ==> StateName(r) == text
    ensures r == UnknownState <==> text != "running" && text != "exited" && text != "failed" && text != "dead"
  {
    if text == "running" then RunningState
    else if text == "exited" then ExitedState
    else if text == "failed" then FailedState
    else if text == "dead" then DeadState
    else UnknownState
  }

  lemma ServiceStatusRoundTrip(s: ServiceStatus)
    ensures ParseServiceStatus(StatusName(s)) == s
  {
  }

  lemma ServiceStateRoundTrip(s: ServiceState)
    ensures ParseServiceState(StateName(s)) == s
  {
  }

  /** ServiceInfo. CPU percentage and uptime are placeholders in the
      manager and are not represented; timestamps are whole seconds. */
  datatype ServiceInfo = ServiceInfo(
    serviceName: string, status: ServiceStatus, state: ServiceState, pid: Option<int>,
    memoryUsage: Option<int>, restartCount: nat, lastRestart: Option<int>, errorMessage: Option<string>)

  /** `line.split(c, 1)` on a line that contains `c`. */
  function SplitAtFirst(line: string, c: char): (r: (string, string))
    requires c in line
    ensures Free(r.0, c) && line == r.0 + [c] + r.1
  {
    if line[0] == c then ("", line[1..])
    else
      var rest := SplitAtFirst(line[1..], c);
      ([line[0]] + rest.0, rest.1)
  }

  /** A key without the separator splits off exactly. */
  lemma {:induction false} SplitAtFirstKey(k: string, c: char, v: string)
    requires Free(k, c)
    ensures c in k + [c] + v
    ensures SplitAtFirst(k + [c] + v, c) == (k, v)
    decreases |k|
  {
    var line := k + [c] + v;
    assert line[|k|] == c;
    if |k| > 0 {
      assert line[0] == k[0] != c;
      assert line[1..] == k[1..] + [c] + v;
      SplitAtFirstKey(k[1..], c, v);
      assert [k[0]] + k[1..] == k;
    }
  }

  predicate Defines(line: string, key: string) {
    '=' in line && SplitAtFirst(line, '=').0 == key
  }

  /** The property dictionary built from the output lines: each line with an
      '=' sets its key, later lines overriding earlier ones. */
  function ParseProperties(lines: seq<string>): map<string, string>
    decreases |lines|
  {
    if |lines| == 0 then map[]
    else
      var props := ParseProperties(lines[..|lines| - 1]);
      var line := lines[|lines| - 1];
      if '=' in line then
        var kv := SplitAtFirst(line, '=');
        props[kv.0 := kv.1]
      else props
  }

  /** A key is present exactly when some line defines it, and its value comes
      from the last line that does. */
  lemma {:induction false} ParsePropertiesLastWins(lines: seq<string>, key: string)
    ensures key in ParseProperties(lines) <==> exists i :: 0 <= i < |lines| && Defines(lines[i], key)
    ensures key in ParseProperties(lines) ==>
              exists i :: 0 <= i < |lines| && Defines(lines[i], key)
                && ParseProperties(lines)[key] == SplitAtFirst(lines[i], '=').1
                && forall j :: i < j < |lines| ==> !Defines(lines[j], key)
    decreases |lines|
  {
    if |lines| > 0 {
      var init := lines[..|lines| - 1];
      var last := |lines| - 1;
      ParsePropertiesLastWins(init, key);
      assert forall i :: 0 <= i < |init| ==> init[i] == lines[i];
      if Defines(lines[last], key) {
        assert ParseProperties(lines)[key] == SplitAtFirst(lines[last], '=').1;
      } else if key in ParseProperties(init) {
        var i :| 0 <= i < |init| && Defines(init[i], key)
                 && ParseProperties(init)[key] == SplitAtFirst(init[i], '=').1
                 && forall j :: i < j < |init| ==> !Defines(init[j], key);
        assert ParseProperties(lines)[key] == ParseProperties(init)[key];
        assert forall j :: i < j < |lines| ==> !Defines(lines[j], key) by {
          forall j | i < j < |lines|
            ensures !Defines(lines[j], key)
          {
            if j < last {
              assert lines[j] == init[j];
            }
          }
        }
      } else {
        assert forall i :: 0 <= i < |lines| ==> !Defines(lines[i], key) by {
          forall i | 0 <= i < |lines|
            ensures !Defines(lines[i], key)
          {
            if i < last {
              assert lines[i] == init[i];
            }
          }
        }
      }
    }
  }

  /** `properties.get(key, default)`. */
  function Lookup(props: map<string, string>, key: string, default: string): string {
    if key in props then props[key] else default
  }

  /** The record read from one `systemctl show` run, with the VmRSS figure
      (in kB) that the process's status file would give. None when the
      command fails or MainPID is not an integer (the exception is caught). */
  function ReadServiceStatus(appId: string, show: CmdResult, vmRssKb: Option<int>): (r: Option<ServiceInfo>)
    ensures r.None? <==>
              !show.Succeeded()
              || var pidText := Lookup(ParseProperties(Split(Strip(show.stdout), '\n')), "MainPID", "0");
                 pidText != "0" && ParseInt(pidText).None?
    ensures r.Some? ==>
              var props := ParseProperties(Split(Strip(show.stdout), '\n'));
              r.value.serviceName == UnitName(appId)
              && r.value.status == ParseServiceStatus(Lookup(props, "ActiveState", ""))
              && r.value.state == ParseServiceState(Lookup(props, "SubState", ""))
              && (r.value.pid.None? <==> Lookup(props, "MainPID", "0") == "0")
              && (r.value.pid.Some? ==> ParseInt(Lookup(props, "MainPID", "0")) == r.value.pid)
              && r.value.restartCount == 0 && r.value.lastRestart.None? && r.value.errorMessage.None?
    // Memory is only measured for an active service with a live (non-zero) pid.
    ensures r.Some? && r.value.memoryUsage.Some? ==>
              r.value.status == Active && r.value.pid.Some? && r.value.pid.value != 0
              && vmRssKb.Some? && r.value.memoryUsage.value == vmRssKb.value * 1024
    ensures r.Some? && r.value.status == Active && r.value.pid.Some? && r.value.pid.value != 0 && vmRssKb.Some? ==>
              r.value.memoryUsage == Some(vmRssKb.value * 1024)
  {
    if !show.Succeeded() then None
    else
      var props := ParseProperties(Split(Strip(show.stdout), '\n'));
      var status := ParseServiceStatus(Lookup(props, "ActiveState", ""));
      var state := ParseServiceState(Lookup(props, "SubState", ""));
      var pidText := Lookup(props, "MainPID", "0");
      var pid := if pidText == "0" then Some(None) else
                   match ParseInt(pidText) { case Some(n) => Some(Some(n)) case None => None };
      if pid.None? then None
      else
        var info := ServiceInfo(UnitName(appId), status, state, pid.value, None, 0, None, None);
        if pid.value.Some? && pid.value.value != 0 && status == Active && vmRssKb.Some? then
          Some(info.(memoryUsage := Some(vmRssKb.value * 1024)))
        else Some(info)
  }

  /** The output systemctl gives for the three queried properties. */
  function ShowOutput(active: string, sub: string, mainPid: nat): string {
    Unlines(["ActiveState=" + active, "SubState=" + sub, "MainPID=" + NatToString(mainPid)])
  }

  /** Stripping and splitting systemctl's output gives its three lines. */
  lemma ShowOutputLines(active: string, sub: string, mainPid: nat)
    requires Free(active, '\n') && Free(sub, '\n')
    ensures Split(Strip(ShowOutput(active, sub, mainPid)), '\n')
            == ["ActiveState=" + active, "SubState=" + sub, "MainPID=" + NatToString(mainPid)]
  {
    var pidText := NatToString(mainPid);
    var lines := ["ActiveState=" + active, "SubState=" + sub, "MainPID=" + pidText];
    assert Free(pidText, '\n') by {
      assert forall i :: 0 <= i < |pidText| ==> IsDigit(pidText[i]);
    }
    assert NoneContain(lines, '\n') by {
      assert Free("ActiveState=", '\n') && Free("SubState=", '\n') && Free("MainPID=", '\n');
    }
    var lastLine := lines[2];
    assert !IsSpace(lastLine[|lastLine| - 1]) by {
      assert lastLine[|lastLine| - 1] == pidText[|pidText| - 1];
      assert IsDigit(pidText[|pidText| - 1]);
    }
    ReadBackLines(lines);
  }

  /** The three property lines parse to their three values. */
  lemma ShowProperties(active: string, sub: string, pidText: string)
    ensures var props := ParseProperties(["ActiveState=" + active, "SubState=" + sub, "MainPID=" + pidText]);
            Lookup(props, "ActiveState", "") == active && Lookup(props, "SubState", "") == sub
            && Lookup(props, "MainPID", "0") == pidText
  {
    var k0, k1, k2 := "ActiveState", "SubState", "MainPID";
    assert |k0| == 11 && |k1| == 8 && |k2| == 7;
    assert Free(k0, '=') && Free(k1, '=') && Free(k2, '=');
    assert k0 + ['='] == "ActiveState=" && k1 + ['='] == "SubState=" && k2 + ['='] == "MainPID=";
    ThreeProperties(k0, k1, k2, active, sub, pidText);
  }

  /** Three lines defining three distinct keys give each key its value. */
  lemma ThreeProperties(k0: string, k1: string, k2: string, v0: string, v1: string, v2: string)
    requires Free(k0, '=') && Free(k1, '=') && Free(k2, '=')
    requires k0 != k1 && k0 != k2 && k1 != k2
    ensures var props := ParseProperties([k0 + ['='] + v0, k1 + ['='] + v1, k2 + ['='] + v2]);
            k0 in props && k1 in props && k2 in props
            && props[k0] == v0 && props[k1] == v1 && props[k2] == v2
  {
    var l0, l1, l2 := k0 + ['='] + v0, k1 + ['='] + v1, k2 + ['='] + v2;
    PropertyAppended([], k0, v0);
    assert [] + [l0] == [l0];
    PropertyAppended([l0], k1, v1);
    assert [l0] + [l1] == [l0, l1];
    PropertyAppended([l0, l1], k2, v2);
    assert [l0, l1] + [l2] == [l0, l1, l2];
  }

  /** A `key=value` line appended to the listing sets that key. */
  lemma PropertyAppended(lines: seq<string>, k: string, v: string)
    requires Free(k, '=')
    ensures ParseProperties(lines + [k + ['='] + v]) == ParseProperties(lines)[k := v]
  {
    SplitAtFirstKey(k, '=', v);
    var all := lines + [k + ['='] + v];
    assert all[..|all| - 1] == lines;
  }

  /** Reading systemctl's own output gives back the states and the pid. */
  lemma ShowOutputRoundTrip(appId: string, active: string, sub: string, mainPid: nat, vmRssKb: Option<int>)
    requires Free(active, '\n') && Free(sub, '\n')
    ensures var r := ReadServiceStatus(appId, Exited(0, ShowOutput(active, sub, mainPid), ""), vmRssKb);
            r.Some? && r.value.status == ParseServiceStatus(active) && r.value.state == ParseServiceState(sub)
            && r.value.pid == (if mainPid == 0 then None else Some(mainPid))
  {
    ShowOutputProps(active, sub, mainPid);
    PidTextReads(mainPid);
  }

  /** The properties read from systemctl's output. */
  lemma ShowOutputProps(active: string, sub: string, mainPid: nat)
    requires Free(active, '\n') && Free(sub, '\n')
    ensures var props := ParseProperties(Split(Strip(ShowOutput(active, sub, mainPid)), '\n'));
            Lookup(props, "ActiveState", "") == active && Lookup(props, "SubState", "") == sub
            && Lookup(props, "MainPID", "0") == NatToString(mainPid)
  {
    ShowOutputLines(active, sub, mainPid);
    ShowProperties(active, sub, NatToString(mainPid));
  }

  /** The MainPID text is "0" exactly for pid 0, and reads back otherwise. */
  lemma PidTextReads(mainPid: nat)
    ensures NatToString(mainPid) == "0" <==> mainPid == 0
    ensures mainPid != 0 ==> ParseInt(NatToString(mainPid)) == Some(mainPid as int)
  {
    ParseNatToString(mainPid);
    assert ParseNat("0") == Some(0);
    if mainPid != 0 {
      assert NatToString(mainPid) != "0";
    }
  }

  /** get_service_status: the record read is stored in the manager's table. */
  function GetServiceStatus(services: map<string, ServiceInfo>, appId: string, show: CmdResult, vmRssKb: Option<int>)
    : (r: (map<string, ServiceInfo>, Option<ServiceInfo>))
    ensures r.1 == ReadServiceStatus(appId, show, vmRssKb)
    ensures r.1.None? ==> r.0 == services
    ensures r.1.Some? ==> r.0 == services[appId := r.1.value]
  {
    var info := ReadServiceStatus(appId, show, vmRssKb);
    if info.None? then (services, None) else (services[appId := info.value], info)
  }

  // ---------------------------------------------------------------------------
  // start / stop / restart
  // ---------------------------------------------------------------------------

  /** The error message a failed start records. */
  function StartFailureMessage(res: CmdResult): string {
    match res
    case Exited(_, _, stderr) => "Failed to start service: " + stderr
    case NotRun(error) => "Exception starting service: " + error
  }

  /** start_service: RUNNING on success; otherwise ERROR with the failure
      message (when the app is registered). */
  function StartService(reg: Registry, appId: string, res: CmdResult, now: int): (r: (Registry, bool))
    requires reg.Valid()
    ensures r.0.Valid() && r.0.apps.Keys == reg.apps.Keys
    ensures r.1 <==> res.Succeeded()
    ensures appId !in reg.apps ==> r.0 == reg
    ensures appId in reg.apps && res.Succeeded() ==> r.0.apps[appId].status == Running
    ensures appId in reg.apps && !res.Succeeded() ==>
              r.0.apps[appId].status == Error
              && r.0.apps[appId].runtime.errorMessage == Some(StartFailureMessage(res))
    ensures appId in reg.apps ==> r.0.saved == r.0.apps
    ensures forall k :: k in reg.apps && k != appId ==> r.0.apps[k] == reg.apps[k]
  {
    if res.Succeeded() then (SetStatus(reg, appId, Running, now), true)
    else if appId in reg.apps then
      var ri := reg.apps[appId].runtime.(errorMessage := Some(StartFailureMessage(res)));
      (SetStatusAndRuntime(SetRuntime(reg, appId, ri), appId, Error, ri, now), false)
    else (reg, false)
  }

  /** stop_service: STOPPED on success; a failure changes nothing. */
  function StopService(reg: Registry, appId: string, res: CmdResult, now: int): (r: (Registry, bool))
    requires reg.Valid()
    ensures r.0.Valid() && r.0.apps.Keys == reg.apps.Keys
    ensures r.1 <==> res.Succeeded()
    ensures !res.Succeeded() ==> r.0 == reg
    ensures appId in reg.apps && res.Succeeded() ==> r.0.apps[appId].status == Stopped && r.0.saved == r.0.apps
    ensures forall k :: k in reg.apps && k != appId ==> r.0.apps[k] == reg.apps[k]
  {
    if res.Succeeded() then (SetStatus(reg, appId, Stopped, now), true) else (reg, false)
  }

  /** restart_service: on success a tracked record counts the restart and
      the app is RUNNING; a failure changes nothing. */
  function RestartService(services: map<string, ServiceInfo>, reg: Registry, appId: string, res: CmdResult, now: int)
    : (r: (map<string, ServiceInfo>, Registry, bool))
    requires reg.Valid()
    ensures r.1.Valid() && r.1.ids == reg.ids && r.1.apps.Keys == reg.apps.Keys && r.0.Keys == services.Keys
    ensures r.2 <==> res.Succeeded()
    ensures !res.Succeeded() ==> r.0 == services && r.1 == reg
    ensures res.Succeeded() && appId in services ==>
              r.0[appId].restartCount == services[appId].restartCount + 1 && r.0[appId].lastRestart == Some(now)
    ensures res.Succeeded() && appId in reg.apps ==>
              r.1.apps[appId] == reg.apps[appId].(status := Running, lastUpdated := now)
    ensures forall k :: k in services && k != appId ==> r.0[k] == services[k]
    ensures forall k :: k in reg.apps && k != appId ==> r.1.apps[k] == reg.apps[k]
  {
    if !res.Succeeded() then (services, reg, false)
    else
      var services1 :=
        if appId in services
        then services[appId := services[appId].(restartCount := services[appId].restartCount + 1, lastRestart := Some(now))]
        else services;
      (services1, SetStatus(reg, appId, Running, now), true)
  }

  /** Every status query builds a fresh record, so the restart count a
      successful restart recorded is back to zero after the next query. */
  lemma RestartCountResetByQuery(services: map<string, ServiceInfo>, reg: Registry, appId: string, res: CmdResult,
                                 now: int, show: CmdResult, vmRssKb: Option<int>)
    requires reg.Valid() && res.Succeeded() && appId in services
    requires ReadServiceStatus(appId, show, vmRssKb).Some?
    ensures var r := RestartService(services, reg, appId, res, now);
            r.0[appId].restartCount == services[appId].restartCount + 1
            && GetServiceStatus(r.0, appId, show, vmRssKb).0[appId].restartCount == 0
  {
  }

  // ---------------------------------------------------------------------------
  // Logs
  // ---------------------------------------------------------------------------

  /** get_service_logs: the stripped output split into lines; [] when the
      command fails or prints only whitespace. */
  function GetServiceLogs(res: CmdResult): (r: seq<string>)
    ensures !res.Succeeded() ==> r == []
    ensures res.Succeeded() && Strip(res.stdout) == "" ==> r == []
    ensures res.Succeeded() && Strip(res.stdout) != "" ==> |r| > 0
    // The lines are the stripped output cut at every newline.
    ensures res.Succeeded() && Strip(res.stdout) != "" ==>
              Join(r, "\n") == Strip(res.stdout) && NoneContain(r, '\n')
  {
    if res.Succeeded() && Strip(res.stdout) != "" then
      JoinSplit(Strip(res.stdout), '\n');
      Split(Strip(res.stdout), '\n')
    else []
  }

  /** journalctl output of whole lines reads back as exactly those lines. */
  lemma LogsRoundTrip(lines: seq<string>, stderr: string)
    requires |lines| > 0 && NoneContain(lines, '\n')
    requires |lines[0]| > 0 && !IsSpace(lines[0][0])
    requires |lines[|lines| - 1]| > 0 && !IsSpace(lines[|lines| - 1][|lines[|lines| - 1]| - 1])
    ensures GetServiceLogs(Exited(0, Unlines(lines), stderr)) == lines
  {
    ReadBackLines(lines);
    UnlinesJoin(lines);
    JoinLast(lines, "\n");
    StripTrimmed(Join(lines, "\n"));
  }

  // ---------------------------------------------------------------------------
  // All statuses and statistics
  // ---------------------------------------------------------------------------

  /** What querying one app's unit returns: the `systemctl show` result and
      the VmRSS figure of its main process. */
  datatype Probe = Probe(show: CmdResult, vmRssKb: Option<int>)

  /** The apps get_all_service_statuses queries: service apps that are
      READY, RUNNING or STOPPED. */
  predicate Monitored(e: Entry) {
    e.appType == Service && (e.status == Ready || e.status == Running || e.status == Stopped)
  }

  function Query(reg: Registry, id: string, probe: string -> Probe): Option<ServiceInfo>
    requires id in reg.apps
  {
    if Monitored(reg.apps[id]) then ReadServiceStatus(id, probe(id).show, probe(id).vmRssKb) else None
  }

  /** The loop of get_all_service_statuses over the registry ids (each
      entry's app_id is its key): the records found, in registry order, and
      the manager's table after the queries. */
  function QueryAll(reg: Registry, ids: seq<string>, services: map<string, ServiceInfo>, probe: string -> Probe)
    : (r: (map<string, ServiceInfo>, seq<(string, ServiceInfo)>))
    requires forall i :: 0 <= i < |ids| ==> ids[i] in reg.apps
    ensures forall p :: p in r.1 <==> p.0 in ids && Query(reg, p.0, probe) == Some(p.1)
    decreases |ids|
  {
    if |ids| == 0 then (services, [])
    else
      var id := ids[0];
      var q := Query(reg, id, probe);
      var services1 := if q.Some? then services[id := q.value] else services;
      var rest := QueryAll(reg, ids[1..], services1, probe);
      assert forall k :: k in ids <==> k == id || k in ids[1..];
      if q.Some? then (rest.0, [(id, q.value)] + rest.1) else rest
  }

  /** The table after the loop: every record found replaces the old one,
      and the other records stay. */
  lemma {:induction false} QueryAllTable(reg: Registry, ids: seq<string>, services: map<string, ServiceInfo>, probe: string -> Probe)
    requires forall i :: 0 <= i < |ids| ==> ids[i] in reg.apps
    ensures var t := QueryAll(reg, ids, services, probe).0;
            (forall k :: k in t <==> k in services || (k in ids && Query(reg, k, probe).Some?))
            && (forall k :: k in ids && Query(reg, k, probe).Some? ==> t[k] == Query(reg, k, probe).value)
            && (forall k :: k in services && (k !in ids || Query(reg, k, probe).None?) ==> t[k] == services[k])
  {
    forall k ensures k in QueryAll(reg, ids, services, probe).0 <==> k in services || (k in ids && Query(reg, k, probe).Some?) {
      QueryAllKeys(reg, ids, services, probe, k);
    }
    forall k | k in ids && Query(reg, k, probe).Some?
      ensures QueryAll(reg, ids, services, probe).0[k] == Query(reg, k, probe).value
    {
      QueryAllKeys(reg, ids, services, probe, k);
      QueryAllValue(reg, ids, services, probe, k);
    }
    forall k | k in services && (k !in ids || Query(reg, k, probe).None?)
      ensures QueryAll(reg, ids, services, probe).0[k] == services[k]
    {
      QueryAllKeys(reg, ids, services, probe, k);
      QueryAllValue(reg, ids, services, probe, k);
    }
  }

  lemma {:induction false} QueryAllKeys(reg: Registry, ids: seq<string>, services: map<string, ServiceInfo>,
                                        probe: string -> Probe, k: string)
    requires forall i :: 0 <= i < |ids| ==> ids[i] in reg.apps
    ensures k in QueryAll(reg, ids, services, probe).0 <==> k in services || (k in ids && Query(reg, k, probe).Some?)
    decreases |ids|
  {
    if |ids| > 0 {
      var rest := ids[1..];
      forall i | 0 <= i < |rest| ensures rest[i] in reg.apps {
        assert rest[i] == ids[i + 1];
      }
      var q := Query(reg, ids[0], probe);
      var services1 := if q.Some? then services[ids[0] := q.value] else services;
      QueryAllKeys(reg, ids[1..], services1, probe, k);
      assert QueryAll(reg, ids, services, probe).0 == QueryAll(reg, ids[1..], services1, probe).0;
      assert k in ids <==> k == ids[0] || k in ids[1..];
    }
  }

  /** The value of one key after the loop: the record of the last query of
      it that succeeded, else the old record. */
  lemma {:induction false} QueryAllValue(reg: Registry, ids: seq<string>, services: map<string, ServiceInfo>,
                                         probe: string -> Probe, k: string)
    requires forall i :: 0 <= i < |ids| ==> ids[i] in reg.apps
    requires k in QueryAll(reg, ids, services, probe).0
    ensures k in ids && Query(reg, k, probe).Some? ==> QueryAll(reg, ids, services, probe).0[k] == Query(reg, k, probe).value
    ensures (k !in ids || Query(reg, k, probe).None?) ==> k in services && QueryAll(reg, ids, services, probe).0[k] == services[k]
    decreases |ids|
  {
    if |ids| == 0 {
    } else {
      var rest := ids[1..];
      forall i | 0 <= i < |rest| ensures rest[i] in reg.apps {
        assert rest[i] == ids[i + 1];
      }
      var q := Query(reg, ids[0], probe);
      var services1 := if q.Some? then services[ids[0] := q.value] else services;
      assert QueryAll(reg, ids, services, probe).0 == QueryAll(reg, ids[1..], services1, probe).0;
      QueryAllValue(reg, ids[1..], services1, probe, k);
      assert k in ids <==> k == ids[0] || k in ids[1..];
    }
  }

  /** get_all_service_statuses: exactly the monitored apps whose query
      yields a record, each with that record. */
  function GetAllServiceStatuses(reg: Registry, services: map<string, ServiceInfo>, probe: string -> Probe)
    : (r: (map<string, ServiceInfo>, seq<(string, ServiceInfo)>))
    requires reg.Valid()
    ensures forall p :: p in r.1 ==> p.0 in reg.apps && Monitored(reg.apps[p.0])
    ensures forall p :: p in r.1 ==> Some(p.1) == ReadServiceStatus(p.0, probe(p.0).show, probe(p.0).vmRssKb)
    ensures forall id :: id in reg.apps && Query(reg, id, probe).Some? ==> (id, Query(reg, id, probe).value) in r.1
  {
    assert forall k :: k in reg.ids <==> k in reg.apps;
    QueryAll(reg, reg.ids, services, probe)
  }

  datatype ServiceStatistics = ServiceStatistics(
    totalServices: nat, runningServices: nat, statusBreakdown: map<ServiceStatus, nat>, totalMemoryUsage: int)

  /** Number of records with status `s`. */
  function CountWithStatus(infos: seq<ServiceInfo>, s: ServiceStatus): nat
    decreases |infos|
  {
    if |infos| == 0 then 0
    else CountWithStatus(infos[..|infos| - 1], s) + (if infos[|infos| - 1].status == s then 1 else 0)
  }

  /** What a record adds to the memory total: its usage when it is active. */
  function ActiveMemory(info: ServiceInfo): int {
    if info.status == Active && info.memoryUsage.Some? then info.memoryUsage.value else 0
  }

  function TotalActiveMemory(infos: seq<ServiceInfo>): int
    decreases |infos|
  {
    if |infos| == 0 then 0 else TotalActiveMemory(infos[..|infos| - 1]) + ActiveMemory(infos[|infos| - 1])
  }

  function Infos(statuses: seq<(string, ServiceInfo)>): (r: seq<ServiceInfo>)
    ensures |r| == |statuses| && forall i :: 0 <= i < |r| ==> r[i] == statuses[i].1
  {
    seq(|statuses|, i requires 0 <= i < |statuses| => statuses[i].1)
  }

  function CountIn<K>(m: map<K, nat>, k: K): nat {
    if k in m then m[k] else 0
  }

  /** get_service_statistics over the records get_all_service_statuses
      returned (the average is left out). */
  method GetServiceStatistics(statuses: seq<(string, ServiceInfo)>) returns (st: ServiceStatistics)
    ensures st.totalServices == |statuses|
    ensures st.runningServices == CountWithStatus(Infos(statuses), Active)
    ensures forall s :: CountIn(st.statusBreakdown, s) == CountWithStatus(Infos(statuses), s)
    ensures forall s :: s in st.statusBreakdown ==> st.statusBreakdown[s] > 0
    ensures st.totalMemoryUsage == TotalActiveMemory(Infos(statuses))
  {
    var infos := Infos(statuses);
    var counts: map<ServiceStatus, nat> := map[];
    var memory := 0;
    var running := 0;
    for i := 0 to |infos|
      invariant forall s :: CountIn(counts, s) == CountWithStatus(infos[..i], s)
      invariant forall s :: s in counts ==> counts[s] > 0
      invariant running == CountWithStatus(infos[..i], Active)
      invariant memory == TotalActiveMemory(infos[..i])
    {
      var info := infos[i];
      assert infos[..i + 1][..i] == infos[..i];
      counts := counts[info.status := CountIn(counts, info.status) + 1];
      if info.status == Active {
        running := running + 1;
        if info.memoryUsage.Some? && info.memoryUsage.value != 0 {
          memory := memory + info.memoryUsage.value;
        }
      }
    }
    assert infos[..|infos|] == infos;
    st := ServiceStatistics(|infos|, running, counts, memory);
  }

  /** Every record has one status, so the breakdown adds up to the total. */
  lemma {:induction false} ServiceCountsPartition(infos: seq<ServiceInfo>)
    ensures CountWithStatus(infos, Active) + CountWithStatus(infos, Inactive) + CountWithStatus(infos, Failed)
            + CountWithStatus(infos, Activating) + CountWithStatus(infos, Deactivating)
            + CountWithStatus(infos, UnknownStatus) == |infos|
    decreases |infos|
  {
    if |infos| > 0 {
      ServiceCountsPartition(infos[..|infos| - 1]);
    }
  }
}

=== FILE: streamlit.dfy ===
/**
 The Streamlit launcher: on-demand processes, one per app, each remembered
 with its pid, port, start time and last access, and stopped by a sweep once
 idle for longer than the time-to-live. Every method runs under one lock, so
 each is one transition here.
 */
module Streamlit {
  import opened Wrappers
  import opened Text
  import opened Apps
  import opened Registry
  import opened Env
  import Ports
  import Processes

  /** Seconds of inactivity after which a sweep stops an app. */
  const DefaultTtl: int := 300

  datatype StreamInfo = StreamInfo(pid: int, port: int, startedAt: int, lastAccessed: int, command: string)

  /** What launch_streamlit_app hands back; its status is always "running". */
  datatype Launched = Launched(url: string, port: int, pid: int)

  datatype Manager = Manager(processes: map<string, StreamInfo>, ports: Ports.PortTable, reg: Registry)
  {
    predicate Valid() {
      ports.Valid() && reg.Valid()
    }
  }

  function Url(port: int): string {
    "http://localhost:" + IntToString(port)
  }

  /** The streamlit command line for a main file and port. */
  function StreamlitArgs(e: Entry, port: int): (r: seq<string>)
    ensures |r| == 13 && r[4] == Processes.MainPath(e) && r[5] == "--server.port" && r[6] == IntToString(port)
  {
    ["python3", "-m", "streamlit", "run", Processes.MainPath(e), "--server.port", IntToString(port),
     "--server.headless", "true", "--browser.gatherUsageStats", "false", "--server.fileWatcherType", "none"]
  }

  /** The port in the recorded command reads back. */
  lemma StreamlitArgsPort(e: Entry, port: int)
    ensures ParseInt(StreamlitArgs(e, port)[6]) == Some(port)
  {
    IntToStringRoundTrip(port);
  }

  // ---------------------------------------------------------------------------
  // _cleanup_app, stop_streamlit_app, touch_app
  // ---------------------------------------------------------------------------

  /** _cleanup_app: terminate, release the port, clear the pid and port in
      the runtime record and save status DISCOVERED, forget the entry. An
      untracked app (a lookup error) or a failed termination gives False and
      changes nothing. */
  function CleanupApp(m: Manager, appId: string, t: Processes.Termination, now: int): (r: (Manager, bool))
    requires m.Valid()
    ensures r.0.Valid() && RegFrame(m.reg, r.0.reg, appId)
    ensures r.1 <==> appId in m.processes && !t.TerminationFailed?
    ensures !r.1 ==> r.0 == m
    ensures r.1 ==> r.0.processes == m.processes - {appId} && appId !in r.0.ports.appPorts
    ensures r.1 && appId in m.reg.apps ==>
              r.0.reg.apps[appId]
              == m.reg.apps[appId].(status := Discovered, lastUpdated := now,
                                    runtime := m.reg.apps[appId].runtime.(processId := None, assignedPort := None))
              && r.0.reg.saved == r.0.reg.apps
    ensures forall k :: k != appId ==> (k in r.0.processes <==> k in m.processes)
    ensures forall k :: k != appId && k in m.processes ==> r.0.processes[k] == m.processes[k]
  {
    if appId !in m.processes || t.TerminationFailed? then (m, false)
    else
      var ports := Ports.ReleasePort(m.ports, appId).table;
      var reg :=
        if appId in m.reg.apps then
          var ri := m.reg.apps[appId].runtime.(processId := None, assignedPort := None);
          SetStatusAndRuntime(SetRuntime(m.reg, appId, ri), appId, Discovered, ri, now)
        else m.reg;
      (Manager(m.processes - {appId}, ports, reg), true)
  }

  /** stop_streamlit_app. */
  function StopStreamlitApp(m: Manager, appId: string, t: Processes.Termination, now: int): (r: (Manager, bool))
    requires m.Valid()
    ensures r.0.Valid()
    ensures appId !in m.processes ==> r == (m, false)
    ensures r == CleanupApp(m, appId, t, now)
  {
    if appId !in m.processes then (m, false) else CleanupApp(m, appId, t, now)
  }

  /** touch_app: refresh the last access of a tracked app; nothing else. */
  function TouchApp(m: Manager, appId: string, now: int): (r: Manager)
    ensures r.ports == m.ports && r.reg == m.reg && r.processes.Keys == m.processes.Keys
    ensures appId in m.processes ==> r.processes[appId] == m.processes[appId].(lastAccessed := now)
    ensures appId !in m.processes ==> r == m
    ensures forall k :: k in m.processes && k != appId ==> r.processes[k] == m.processes[k]
  {
    if appId in m.processes then
      m.(processes := m.processes[appId := m.processes[appId].(lastAccessed := now)])
    else m
  }

  // ---------------------------------------------------------------------------
  // launch_streamlit_app
  // ---------------------------------------------------------------------------

  /** launch_streamlit_app, given the live pids, the bindable ports, whether
      the main file exists, the spawn's pid or error, and how terminating a
      dead tracked process goes. */
  function LaunchStreamlitApp(m: Manager, appId: string, alive: set<int>, bindable: set<int>, mainExists: bool,
                              spawn: Outcome<int>, t: Processes.Termination, now: int): (r: (Manager, Option<Launched>))
    requires m.Valid()
    ensures r.0.Valid() && RegFrame(m.reg, r.0.reg, appId)
    // A live instance is handed back as it is, with its access time refreshed.
    ensures appId in m.processes && m.processes[appId].pid in alive ==>
              var p := m.processes[appId];
              r == (TouchApp(m, appId, now), Some(Launched(Url(p.port), p.port, p.pid)))
    // A dead instance is cleaned up first.
    ensures appId in m.processes && m.processes[appId].pid !in alive ==>
              r == Launch(CleanupApp(m, appId, t, now).0, appId, bindable, mainExists, spawn, now)
    ensures appId !in m.processes ==> r == Launch(m, appId, bindable, mainExists, spawn, now)
  {
    if appId in m.processes && m.processes[appId].pid in alive then
      var p := m.processes[appId];
      (TouchApp(m, appId, now), Some(Launched(Url(p.port), p.port, p.pid)))
    else
      var m1 := if appId in m.processes then CleanupApp(m, appId, t, now).0 else m;
      Launch(m1, appId, bindable, mainExists, spawn, now)
  }

  /** The fresh-launch part of launch_streamlit_app. */
  function Launch(m: Manager, appId: string, bindable: set<int>, mainExists: bool, spawn: Outcome<int>, now: int)
    : (r: (Manager, Option<Launched>))
    requires m.Valid()
    ensures r.0.Valid() && RegFrame(m.reg, r.0.reg, appId)
    ensures appId !in m.reg.apps || m.reg.apps[appId].appType != Streamlit ==> r == (m, None)
    // No usable port: None, with whatever the allocator did.
    ensures appId in m.reg.apps && m.reg.apps[appId].appType == Streamlit
            && !Processes.UsablePort(Ports.AllocatePort(m.ports, appId, "streamlit", None, bindable, now).port) ==>
              r.1.None? && r.0.processes == m.processes && r.0.reg == m.reg
    // A missing main file or a failed spawn: None and no port held.
    ensures appId in m.reg.apps && m.reg.apps[appId].appType == Streamlit
            && Processes.UsablePort(Ports.AllocatePort(m.ports, appId, "streamlit", None, bindable, now).port)
            && (!mainExists || spawn.Raised?) ==>
              r.1.None? && r.0.reg == m.reg && appId !in r.0.ports.appPorts
              && (mainExists ==> appId !in r.0.processes)
    // Success: tracked with fresh times, the app RUNNING with its port and pid, saved.
    ensures r.1.Some? ==>
              spawn.Returned? && mainExists && appId in r.0.processes
              && var p := r.0.processes[appId];
              r.1.value == Launched(Url(p.port), p.port, p.pid)
              && p.pid == spawn.value && p.startedAt == now && p.lastAccessed == now
              && appId in r.0.ports.appPorts && r.0.ports.appPorts[appId] == p.port
              && r.0.reg.apps[appId].status == Running
              && r.0.reg.apps[appId].runtime.assignedPort == Some(p.port)
              && r.0.reg.apps[appId].runtime.processId == Some(IntToString(p.pid))
              && r.0.reg.saved == r.0.reg.apps
    ensures forall k :: k != appId ==> (k in r.0.processes <==> k in m.processes)
    ensures forall k :: k != appId && k in m.processes ==> r.0.processes[k] == m.processes[k]
  {
    if appId !in m.reg.apps || m.reg.apps[appId].appType != Streamlit then (m, None)
    else
      var alloc := Ports.AllocatePort(m.ports, appId, AppTypeName(Streamlit), None, bindable, now);
      var m1 := m.(ports := alloc.table);
      if !Processes.UsablePort(alloc.port) then (m1, None)
      else if !mainExists then (m1.(ports := Ports.ReleasePort(alloc.table, appId).table), None)
      else if spawn.Raised? then
        (Manager(m1.processes - {appId}, Ports.ReleasePort(alloc.table, appId).table, m1.reg), None)
      else
        var port := alloc.port.value;
        var pid := spawn.value;
        var info := StreamInfo(pid, port, now, now, Join(StreamlitArgs(m.reg.apps[appId], port), " "));
        (Manager(m1.processes[appId := info], m1.ports, RecordLaunch(m.reg, appId, port, pid, now)),
         Some(Launched(Url(port), port, pid)))
  }

  /** The registry side of a successful launch: the runtime fields are
      written, then saved with the status RUNNING. */
  function RecordLaunch(reg: Registry, appId: string, port: int, pid: int, now: int): (r: Registry)
    requires reg.Valid() && appId in reg.apps
    ensures r.Valid() && RegFrame(reg, r, appId)
    ensures r.apps[appId].status == Running && r.saved == r.apps
    ensures r.apps[appId].runtime.assignedPort == Some(port)
    ensures r.apps[appId].runtime.processId == Some(IntToString(pid))
  {
    var ri := reg.apps[appId].runtime.(assignedPort := Some(port), processId := Some(IntToString(pid)), startedAt := Some(now));
    SetStatusAndRuntime(SetRuntime(reg, appId, ri), appId, Running, ri, now)
  }

  /** Launching an app whose instance is alive twice gives the same answer
      and allocates nothing. */
  lemma LaunchIdempotent(m: Manager, appId: string, alive: set<int>, bindable: set<int>, mainExists: bool,
                         spawn: Outcome<int>, t: Processes.Termination, now: int, later: int)
    requires m.Valid() && appId in m.processes && m.processes[appId].pid in alive
    ensures var (m1, r1) := LaunchStreamlitApp(m, appId, alive, bindable, mainExists, spawn, t, now);
            var (m2, r2) := LaunchStreamlitApp(m1, appId, alive, bindable, mainExists, spawn, t, later);
            r1 == r2 && r1.Some? && m2.ports == m.ports && m2.reg == m.reg
            && m2.processes.Keys == m.processes.Keys
  {
  }

  // ---------------------------------------------------------------------------
  // The TTL sweep and stop_all
  // ---------------------------------------------------------------------------

  /** Idle strictly longer than the time-to-live. */
  predicate Idle(p: StreamInfo, now: int) {
    now - p.lastAccessed > DefaultTtl
  }

  /** _cleanup_app for each app in `ids`, in order. */
  function CleanupEach(m: Manager, ids: seq<string>, t: string -> Processes.Termination, now: int): (r: Manager)
    requires m.Valid()
    ensures r.Valid() && r.reg.ids == m.reg.ids && r.reg.apps.Keys == m.reg.apps.Keys
    ensures forall k :: k in r.processes <==> k in m.processes && (k !in ids || t(k).TerminationFailed?)
    ensures forall k :: k in r.processes ==> r.processes[k] == m.processes[k]
    decreases |ids|
  {
    if |ids| == 0 then m
    else CleanupEach(CleanupApp(m, ids[0], t(ids[0]), now).0, ids[1..], t, now)
  }

  /** The idle apps among `ids`, in order. */
  function IdleApps(m: Manager, ids: seq<string>, now: int): (r: seq<string>)
    ensures forall k :: k in r <==> k in ids && k in m.processes && Idle(m.processes[k], now)
  {
    if |ids| == 0 then []
    else
      var rest := IdleApps(m, ids[1..], now);
      if ids[0] in m.processes && Idle(m.processes[ids[0]], now) then [ids[0]] + rest else rest
  }

  /** One pass of _cleanup_loop over the table in the order `order`: exactly
      the idle apps (whose termination succeeds) are cleaned up. */
  function Sweep(m: Manager, order: seq<string>, t: string -> Processes.Termination, now: int): (r: Manager)
    requires m.Valid()
    requires forall k :: k in m.processes ==> k in order
    ensures r.Valid()
    ensures forall k :: k in r.processes <==> k in m.processes && (!Idle(m.processes[k], now) || t(k).TerminationFailed?)
    ensures forall k :: k in r.processes ==> r.processes[k] == m.processes[k]
  {
    CleanupEach(m, IdleApps(m, order, now), t, now)
  }

  /** An app touched no more than the time-to-live ago survives a sweep. */
  lemma TouchProtects(m: Manager, appId: string, touched: int, order: seq<string>,
                      t: string -> Processes.Termination, now: int)
    requires m.Valid() && appId in m.processes && now - touched <= DefaultTtl
    requires forall k :: k in m.processes ==> k in order
    ensures appId in Sweep(TouchApp(m, appId, touched), order, t, now).processes
  {
  }

  /** An app idle for longer, whose process can be terminated, is removed. */
  lemma IdleRemoved(m: Manager, appId: string, order: seq<string>, t: string -> Processes.Termination, now: int)
    requires m.Valid() && appId in m.processes && Idle(m.processes[appId], now) && !t(appId).TerminationFailed?
    requires forall k :: k in m.processes ==> k in order
    ensures appId !in Sweep(m, order, t, now).processes
  {
  }

  /** stop_all: _cleanup_app for every tracked app. */
  function StopAll(m: Manager, order: seq<string>, t: string -> Processes.Termination, now: int): (r: Manager)
    requires m.Valid()
    requires forall k :: k in m.processes ==> k in order
    ensures r.Valid()
    ensures forall k :: k in r.processes <==> k in m.processes && t(k).TerminationFailed?
    ensures (forall k :: k in m.processes ==> !t(k).TerminationFailed?) ==> r.processes == map[]
  {
    var r := CleanupEach(m, order, t, now);
    assert (forall k :: k in m.processes ==> !t(k).TerminationFailed?) ==> forall k :: k !in r.processes;
    r
  }
}

=== FILE: sysmon.dfy ===
/**
 The system monitor's decisions: the overall status it derives from the
 hardware readings, the memory figures in megabytes, and the list of the
 orchestrator's own processes, each pid once. The readings themselves and
 the process table come from the operating system and are inputs.
 */
module SystemMonitor {
  import opened Wrappers
  import opened Text

  // ---------------------------------------------------------------------------
  // Overall status
  // ---------------------------------------------------------------------------

  /** The hardware readings the status looks at. `error` is present when
      collecting the metrics failed as a whole; a reading that is absent
      (its group failed, or the sensor is missing) is None. */
  datatype Hardware = Hardware(
    error: Option<string>,
    cpuUsage: Option<real>,
    memoryPercent: Option<real>,
    diskPercent: Option<real>,
    cpuCelsius: Option<real>)

  datatype SystemStatus = Good | Warning | Failed

  function StatusName(s: SystemStatus): (r: string)
    ensures r in {"good", "warning", "error"}
  {
    match s
    case Good => "good"
    case Warning => "warning"
    case Failed => "error"
  }

  /** Thresholds for a Raspberry Pi 5; every comparison is strict. */
  const CpuLimit: real := 80.0
  const MemoryLimit: real := 85.0
  const DiskLimit: real := 90.0
  const TemperatureLimit: real := 70.0

  /** A usage reading, with 0 for one that is missing. */
  function Usage(o: Option<real>): real {
    if o.Some? then o.value else 0.0
  }

  /** The reading is present and above the limit. */
  predicate Over(o: Option<real>, limit: real) {
    o.Some? && o.value > limit
  }

  /** Some reading is past its threshold; an absent reading never is. */
  predicate Strained(hw: Hardware) {
    Over(hw.cpuUsage, CpuLimit) || Over(hw.memoryPercent, MemoryLimit)
    || Over(hw.diskPercent, DiskLimit) || Over(hw.cpuCelsius, TemperatureLimit)
  }

  /** _determine_system_status. A temperature of None (or 0) is skipped by
      the truthiness test before the comparison. */
  function DetermineStatus(hw: Hardware): (r: SystemStatus)
    ensures r == Failed <==> hw.error.Some?
    ensures r == Warning <==> hw.error.None? && Strained(hw)
    ensures r == Good <==> hw.error.None? && !Strained(hw)
  {
    if hw.error.Some? then Failed
    else if Usage(hw.cpuUsage) > CpuLimit then Warning
    else if Usage(hw.memoryPercent) > MemoryLimit then Warning
    else if Usage(hw.diskPercent) > DiskLimit then Warning
    else if hw.cpuCelsius.Some? && hw.cpuCelsius.value != 0.0 && hw.cpuCelsius.value > TemperatureLimit then Warning
    else Good
  }

  function Severity(s: SystemStatus): nat {
    match s
    case Good => 0
    case Warning => 1
    case Failed => 2
  }

  /** `b` reads at least as high as `a` wherever `a` has a reading. */
  predicate NoLower(a: Option<real>, b: Option<real>) {
    a.Some? ==> b.Some? && b.value >= a.value
  }

  predicate Hotter(a: Hardware, b: Hardware) {
    (a.error.Some? ==> b.error.Some?)
    && NoLower(a.cpuUsage, b.cpuUsage) && NoLower(a.memoryPercent, b.memoryPercent)
    && NoLower(a.diskPercent, b.diskPercent) && NoLower(a.cpuCelsius, b.cpuCelsius)
  }

  /** Higher readings never give a better status. */
  lemma StatusMonotone(a: Hardware, b: Hardware)
    requires Hotter(a, b)
    ensures Severity(DetermineStatus(a)) <= Severity(DetermineStatus(b))
  {
    if DetermineStatus(a) == Warning && b.error.None? {
      assert Strained(b);
    }
  }

  /** With every reading missing and no error the system counts as good. */
  lemma MissingReadingsAreGood()
    ensures DetermineStatus(Hardware(None, None, None, None, None)) == Good
  {
  }

  /** The status is the worst of what each reading alone would give. */
  lemma StatusIsWorstReading(hw: Hardware)
    requires hw.error.None?
    ensures var alone := [Hardware(None, hw.cpuUsage, None, None, None), Hardware(None, None, hw.memoryPercent, None, None),
                          Hardware(None, None, None, hw.diskPercent, None), Hardware(None, None, None, None, hw.cpuCelsius)];
            DetermineStatus(hw) == Warning <==> exists i :: 0 <= i < 4 && DetermineStatus(alone[i]) == Warning
  {
    var alone := [Hardware(None, hw.cpuUsage, None, None, None), Hardware(None, None, hw.memoryPercent, None, None),
                  Hardware(None, None, None, hw.diskPercent, None), Hardware(None, None, None, None, hw.cpuCelsius)];
    if Over(hw.cpuUsage, CpuLimit) {
      assert DetermineStatus(alone[0]) == Warning;
    } else if Over(hw.memoryPercent, MemoryLimit) {
      assert DetermineStatus(alone[1]) == Warning;
    } else if Over(hw.diskPercent, DiskLimit) {
      assert DetermineStatus(alone[2]) == Warning;
    } else if Over(hw.cpuCelsius, TemperatureLimit) {
      assert DetermineStatus(alone[3]) == Warning;
    }
  }

  // ---------------------------------------------------------------------------
  // Memory in megabytes
  // ---------------------------------------------------------------------------

  const Mebibyte: nat := 1024 * 1024

  /** Floor division of a byte count by 1024 * 1024. */
  function Megabytes(bytes: nat): (mb: nat)
    ensures mb * Mebibyte <= bytes < (mb + 1) * Mebibyte
  {
    bytes / Mebibyte
  }

  datatype MemoryBytes = MemoryBytes(total: nat, used: nat, available: nat, free: nat)
  datatype MemoryMetrics = MemoryMetrics(totalMb: nat, usedMb: nat, availableMb: nat, freeMb: nat, percent: real)

  /** Python's `round(y)` on an exact value: the nearest integer, a tie going
      to the even one. */
  function RoundHalfEven(y: real): (k: int)
    ensures -0.5 <= k as real - y <= 0.5
    ensures k as real - y == 0.5 || k as real - y == -0.5 ==> k % 2 == 0
  {
    var f := y.Floor;
    var d := y - f as real;
    if d < 0.5 then f
    else if d > 0.5 then f + 1
    else if f % 2 == 0 then f
    else f + 1
  }

  /** `round(x, 1)`: the multiple of 0.1 nearest to x, a tie going to the even
      tenth. */
  function RoundTenth(x: real): (r: real)
    ensures (r * 10.0).Floor as real == r * 10.0
    ensures -0.05 <= r - x <= 0.05
  {
    RoundHalfEven(x * 10.0) as real / 10.0
  }

  /** A value that already has at most one decimal is kept as it is, so
      rounding twice is rounding once. */
  lemma RoundTenthKeepsTenths(k: int)
    ensures RoundTenth(k as real / 10.0) == k as real / 10.0
  {
    assert (k as real / 10.0) * 10.0 == k as real;
    assert (k as real).Floor == k;
  }

  lemma RoundTenthIdempotent(x: real)
    ensures RoundTenth(RoundTenth(x)) == RoundTenth(x)
  {
    RoundTenthKeepsTenths(RoundHalfEven(x * 10.0));
  }

  /** _get_memory_metrics: each byte count floored to whole megabytes, and the
      percentage rounded to one decimal. */
  function MemoryMetricsOf(m: MemoryBytes, percent: real): (r: MemoryMetrics)
    ensures r.totalMb * Mebibyte <= m.total < (r.totalMb + 1) * Mebibyte
    ensures r.usedMb * Mebibyte <= m.used < (r.usedMb + 1) * Mebibyte
    ensures r.availableMb * Mebibyte <= m.available < (r.availableMb + 1) * Mebibyte
    ensures r.freeMb * Mebibyte <= m.free < (r.freeMb + 1) * Mebibyte
    ensures (r.percent * 10.0).Floor as real == r.percent * 10.0
    ensures -0.05 <= r.percent - percent <= 0.05
  {
    MemoryMetrics(Megabytes(m.total), Megabytes(m.used), Megabytes(m.available), Megabytes(m.free), RoundTenth(percent))
  }

  /** A percentage of 42.37 is reported as 42.4. */
  lemma MemoryPercentExample(m: MemoryBytes)
    ensures MemoryMetricsOf(m, 42.37).percent == 42.4
  {
    assert (423.7).Floor == 423;
  }

  // ---------------------------------------------------------------------------
  // The orchestrator's processes
  // ---------------------------------------------------------------------------

  /** What get_process_metrics reports, cut down to what the list logic uses. */
  datatype ProcessMetrics = ProcessMetrics(pid: int, name: string, cmdline: string)

  /** An entry of the process table; the name can be missing. */
  datatype ProcessEntry = ProcessEntry(pid: int, name: Option<string>)

  const Patterns: seq<string> := ["homehelper", "streamlit", "uvicorn"]

  /** The entry has a name containing the pattern, ignoring case. */
  predicate NameMatches(e: ProcessEntry, pattern: string) {
    e.name.Some? && Contains(Lower(e.name.value), Lower(pattern))
  }

  /** The entries before the first one without a name: calling `.lower()` on
      a missing name raises, which ends the scan. */
  function Scanned(table: seq<ProcessEntry>): (r: seq<ProcessEntry>)
    ensures r <= table
    ensures forall i :: 0 <= i < |r| ==> r[i].name.Some?
    ensures |r| < |table| ==> table[|r|].name.None?
  {
    if |table| == 0 || table[0].name.None? then []
    else [table[0]] + Scanned(table[1..])
  }

  /** The loop of get_processes_by_name: what each entry contributes (`find`),
      in table order, stopping at the first entry without a name. */
  function Scan(table: seq<ProcessEntry>, find: ProcessEntry -> seq<ProcessMetrics>): seq<ProcessMetrics> {
    if |table| == 0 || table[0].name.None? then [] else find(table[0]) + Scan(table[1..], find)
  }

  /** What one named entry contributes: its metrics when its name matches and
      they could be read. */
  function Found(e: ProcessEntry, pattern: string, metrics: int -> Option<ProcessMetrics>): (r: seq<ProcessMetrics>)
    ensures |r| <= 1
    ensures r != [] <==> NameMatches(e, pattern) && metrics(e.pid).Some?
    ensures forall p :: p in r <==> NameMatches(e, pattern) && metrics(e.pid) == Some(p)
  {
    if NameMatches(e, pattern) && metrics(e.pid).Some? then [metrics(e.pid).value] else []
  }

  function Finder(pattern: string, metrics: int -> Option<ProcessMetrics>): ProcessEntry -> seq<ProcessMetrics> {
    e => Found(e, pattern, metrics)
  }

  /** get_processes_by_name: the table in order, those whose name contains the
      pattern (case-insensitively) and whose metrics could be read. An entry
      without a name raises out of the loop and the matches found so far are
      returned. */
  function ProcessesByName(table: seq<ProcessEntry>, pattern: string, metrics: int -> Option<ProcessMetrics>): (r: seq<ProcessMetrics>)
    ensures |r| <= |Scanned(table)|
    ensures Scanned(table) == [] ==> r == []
  {
    ScanLength(table, Finder(pattern, metrics));
    Scan(table, Finder(pattern, metrics))
  }

  lemma {:induction false} ScanLength(table: seq<ProcessEntry>, find: ProcessEntry -> seq<ProcessMetrics>)
    requires forall e :: |find(e)| <= 1
    ensures |Scan(table, find)| <= |Scanned(table)|
    ensures Scanned(table) == [] ==> Scan(table, find) == []
    decreases |table|
  {
    if |table| > 0 && table[0].name.Some? {
      assert Scanned(table) == [table[0]] + Scanned(table[1..]);
      ScanLength(table[1..], find);
    }
  }

  lemma {:induction false} ScanSound(table: seq<ProcessEntry>, find: ProcessEntry -> seq<ProcessMetrics>, p: ProcessMetrics)
    requires p in Scan(table, find)
    ensures exists i :: 0 <= i < |Scanned(table)| && p in find(table[i])
    decreases |table|
  {
    assert Scanned(table) == [table[0]] + Scanned(table[1..]);
    if p !in find(table[0]) {
      ScanSound(table[1..], find, p);
      var i :| 0 <= i < |Scanned(table[1..])| && p in find(table[1..][i]);
      assert table[1..][i] == table[i + 1];
    }
  }

  lemma {:induction false} ScanComplete(table: seq<ProcessEntry>, find: ProcessEntry -> seq<ProcessMetrics>, i: int, p: ProcessMetrics)
    requires 0 <= i < |Scanned(table)| && p in find(table[i])
    ensures p in Scan(table, find)
    decreases i
  {
    assert Scanned(table) == [table[0]] + Scanned(table[1..]);
    if i > 0 {
      ScanComplete(table[1..], find, i - 1, p);
    }
  }

  /** Every entry has a name, so a scan never stops early. */
  predicate AllNamed(table: seq<ProcessEntry>) {
    forall i :: 0 <= i < |table| ==> table[i].name.Some?
  }

  lemma AllNamedTail(table: seq<ProcessEntry>)
    requires |table| > 0 && AllNamed(table)
    ensures table[0].name.Some? && AllNamed(table[1..])
  {
    forall i | 0 <= i < |table| - 1 ensures table[1..][i].name.Some? {
      assert table[1..][i] == table[i + 1];
    }
  }

  lemma {:induction false} ScanAppend(a: seq<ProcessEntry>, b: seq<ProcessEntry>, find: ProcessEntry -> seq<ProcessMetrics>)
    requires AllNamed(a)
    ensures Scan(a + b, find) == Scan(a, find) + Scan(b, find)
    decreases |a|
  {
    if |a| == 0 {
      assert a + b == b;
    } else {
      AllNamedTail(a);
      ScanAppend(a[1..], b, find);
      assert (a + b)[1..] == a[1..] + b;
      assert (a + b)[0] == a[0];
    }
  }

  lemma {:induction false} ScanStops(a: seq<ProcessEntry>, b: seq<ProcessEntry>, find: ProcessEntry -> seq<ProcessMetrics>)
    requires !AllNamed(a)
    ensures Scan(a + b, find) == Scan(a, find)
    decreases |a|
  {
    assert (a + b)[0] == a[0];
    if a[0].name.Some? {
      assert (a + b)[1..] == a[1..] + b;
      assert !AllNamed(a[1..]) by {
        var i :| 0 <= i < |a| && a[i].name.None?;
        assert a[1..][i - 1] == a[i];
      }
      ScanStops(a[1..], b, find);
    }
  }

  /** Every process returned comes from a named entry reached before the scan
      stops, that matches the pattern and whose metrics were read. */
  lemma ProcessesByNameSound(table: seq<ProcessEntry>, pattern: string, metrics: int -> Option<ProcessMetrics>, p: ProcessMetrics)
    requires p in ProcessesByName(table, pattern, metrics)
    ensures exists i :: 0 <= i < |Scanned(table)| && NameMatches(table[i], pattern) && metrics(table[i].pid) == Some(p)
  {
    ScanSound(table, Finder(pattern, metrics), p);
  }

  /** Every named entry reached before the scan stops, that matches and whose
      metrics are read, is in the result. */
  lemma ProcessesByNameComplete(table: seq<ProcessEntry>, pattern: string, metrics: int -> Option<ProcessMetrics>, i: int)
    requires 0 <= i < |Scanned(table)|
    requires NameMatches(table[i], pattern) && metrics(table[i].pid).Some?
    ensures metrics(table[i].pid).value in ProcessesByName(table, pattern, metrics)
  {
    ScanComplete(table, Finder(pattern, metrics), i, metrics(table[i].pid).value);
  }

  /** The matches keep table order: scanning two tables one after the other
      gives the first's matches followed by the second's. */
  lemma ProcessesByNameAppend(a: seq<ProcessEntry>, b: seq<ProcessEntry>, pattern: string, metrics: int -> Option<ProcessMetrics>)
    requires AllNamed(a)
    ensures ProcessesByName(a + b, pattern, metrics) == ProcessesByName(a, pattern, metrics) + ProcessesByName(b, pattern, metrics)
  {
    ScanAppend(a, b, Finder(pattern, metrics));
  }

  /** An entry without a name ends the scan: nothing after it is looked at. */
  lemma ProcessesByNameStops(a: seq<ProcessEntry>, b: seq<ProcessEntry>, pattern: string, metrics: int -> Option<ProcessMetrics>)
    requires !AllNamed(a)
    ensures ProcessesByName(a + b, pattern, metrics) == ProcessesByName(a, pattern, metrics)
  {
    ScanStops(a, b, Finder(pattern, metrics));
  }

  /** The matches of all three patterns, in pattern order. */
  function AllMatches(table: seq<ProcessEntry>, metrics: int -> Option<ProcessMetrics>): seq<ProcessMetrics> {
    ProcessesByName(table, Patterns[0], metrics) + ProcessesByName(table, Patterns[1], metrics)
    + ProcessesByName(table, Patterns[2], metrics)
  }

  function Pids(xs: seq<ProcessMetrics>): set<int> {
    set i | 0 <= i < |xs| :: xs[i].pid
  }

  /** The reference for de-duplication: the entries whose pid does not occur
      earlier, in their order. */
  function FirstPerPid(xs: seq<ProcessMetrics>): (r: seq<ProcessMetrics>)
    decreases |xs|
  {
    if |xs| == 0 then []
    else
      var init := xs[..|xs| - 1];
      var last := xs[|xs| - 1];
      FirstPerPid(init) + (if last.pid in Pids(init) then [] else [last])
  }

  lemma PidsAppend(xs: seq<ProcessMetrics>, x: ProcessMetrics)
    ensures Pids(xs + [x]) == Pids(xs) + {x.pid}
  {
    var ys := xs + [x];
    assert forall i :: 0 <= i < |xs| ==> ys[i] == xs[i];
    assert ys[|xs|] == x;
  }

  /** `xs[j]` is the first entry with its pid. */
  predicate FirstOf(xs: seq<ProcessMetrics>, j: int) {
    0 <= j < |xs| && xs[j].pid !in Pids(xs[..j])
  }

  lemma FirstPerPidUnfold(xs: seq<ProcessMetrics>)
    requires |xs| > 0
    ensures var init := xs[..|xs| - 1];
            var last := xs[|xs| - 1];
            xs == init + [last]
            && FirstPerPid(xs) == FirstPerPid(init) + (if last.pid in Pids(init) then [] else [last])
  {
  }

  lemma {:induction false} FirstPerPidPids(xs: seq<ProcessMetrics>)
    ensures Pids(FirstPerPid(xs)) == Pids(xs)
    decreases |xs|
  {
    if |xs| > 0 {
      var init := xs[..|xs| - 1];
      var last := xs[|xs| - 1];
      FirstPerPidUnfold(xs);
      FirstPerPidPids(init);
      PidsAppend(init, last);
      var r0 := FirstPerPid(init);
      if last.pid in Pids(init) {
        assert FirstPerPid(xs) == r0;
      } else {
        PidsAppend(r0, last);
      }
    }
  }

  /** No pid is kept twice. */
  lemma {:induction false} FirstPerPidDistinct(xs: seq<ProcessMetrics>)
    ensures var r := FirstPerPid(xs);
            forall i, j :: 0 <= i < j < |r| ==> r[i].pid != r[j].pid
    decreases |xs|
  {
    if |xs| > 0 {
      var init := xs[..|xs| - 1];
      var last := xs[|xs| - 1];
      FirstPerPidUnfold(xs);
      FirstPerPidDistinct(init);
      var r0 := FirstPerPid(init);
      if last.pid !in Pids(init) {
        FirstPerPidPids(init);
        var r := r0 + [last];
        forall i, j | 0 <= i < j < |r|
          ensures r[i].pid != r[j].pid
        {
          if j == |r0| {
            assert r[i] == r0[i];
            assert r[i].pid in Pids(r0);
          } else {
            assert r[i] == r0[i] && r[j] == r0[j];
          }
        }
      }
    }
  }

  /** The kept entries are exactly the first entries of their pid. */
  lemma {:induction false} FirstPerPidFirsts(xs: seq<ProcessMetrics>)
    ensures forall p :: p in FirstPerPid(xs) ==> exists j :: FirstOf(xs, j) && xs[j] == p
    ensures forall j :: FirstOf(xs, j) ==> xs[j] in FirstPerPid(xs)
    decreases |xs|
  {
    if |xs| > 0 {
      var n := |xs| - 1;
      var init := xs[..n];
      var last := xs[n];
      FirstPerPidUnfold(xs);
      FirstPerPidFirsts(init);
      var r0 := FirstPerPid(init);
      forall j | 0 <= j < n
        ensures FirstOf(xs, j) <==> FirstOf(init, j)
        ensures xs[j] == init[j]
      {
        assert xs[..j] == init[..j];
      }
      forall p | p in FirstPerPid(xs)
        ensures exists j :: FirstOf(xs, j) && xs[j] == p
      {
        if p in r0 {
          var j :| FirstOf(init, j) && init[j] == p;
          assert FirstOf(xs, j);
        } else {
          assert FirstOf(xs, n) && xs[n] == p;
        }
      }
      forall j | FirstOf(xs, j)
        ensures xs[j] in FirstPerPid(xs)
      {
        if j < n {
          assert FirstOf(init, j);
        }
      }
    }
  }

  /** The de-duplication in get_homehelper_processes: a single pass keeping a
      set of the pids seen so far. */
  method DedupByPid(xs: seq<ProcessMetrics>) returns (unique: seq<ProcessMetrics>)
    ensures unique == FirstPerPid(xs)
    ensures Pids(unique) == Pids(xs)
    ensures forall i, j :: 0 <= i < j < |unique| ==> unique[i].pid != unique[j].pid
    ensures forall j :: FirstOf(xs, j) ==> xs[j] in unique
    ensures forall p :: p in unique ==> exists j :: FirstOf(xs, j) && xs[j] == p
  {
    var seen: set<int> := {};
    unique := [];
    var i := 0;
    while i < |xs|
      invariant 0 <= i <= |xs|
      invariant seen == Pids(xs[..i])
      invariant unique == FirstPerPid(xs[..i])
    {
      assert xs[..i + 1][..i] == xs[..i];
      PidsAppend(xs[..i], xs[i]);
      assert xs[..i] + [xs[i]] == xs[..i + 1];
      if xs[i].pid !in seen {
        seen := seen + {xs[i].pid};
        unique := unique + [xs[i]];
      }
      i := i + 1;
    }
    assert xs[..|xs|] == xs;
    FirstPerPidPids(xs);
    FirstPerPidDistinct(xs);
    FirstPerPidFirsts(xs);
  }

  /** get_homehelper_processes: the matches of each pattern in turn, then the
      first entry per pid. */
  method HomehelperProcesses(table: seq<ProcessEntry>, metrics: int -> Option<ProcessMetrics>) returns (r: seq<ProcessMetrics>)
    ensures r == FirstPerPid(AllMatches(table, metrics))
    ensures forall i, j :: 0 <= i < j < |r| ==> r[i].pid != r[j].pid
    ensures Pids(r) == Pids(AllMatches(table, metrics))
  {
    var all: seq<ProcessMetrics> := [];
    var k := 0;
    while k < |Patterns|
      invariant 0 <= k <= |Patterns|
      invariant k == 0 ==> all == []
      invariant k == 1 ==> all == ProcessesByName(table, Patterns[0], metrics)
      invariant k == 2 ==> all == ProcessesByName(table, Patterns[0], metrics) + ProcessesByName(table, Patterns[1], metrics)
      invariant k == 3 ==> all == AllMatches(table, metrics)
    {
      all := all + ProcessesByName(table, Patterns[k], metrics);
      k := k + 1;
    }
    r := DedupByPid(all);
  }

  /** get_system_summary. */
  datatype Summary = Summary(hardware: Hardware, count: nat, processes: seq<ProcessMetrics>, status: string, timestamp: int)

  method SystemSummary(hw: Hardware, table: seq<ProcessEntry>, metrics: int -> Option<ProcessMetrics>, now: int) returns (s: Summary)
    ensures s.hardware == hw && s.timestamp == now
    ensures s.processes == FirstPerPid(AllMatches(table, metrics))
    ensures s.count == |s.processes|
    ensures s.status == StatusName(DetermineStatus(hw))
    ensures s.status == "error" <==> hw.error.Some?
    ensures forall i, j :: 0 <= i < j < |s.processes| ==> s.processes[i].pid != s.processes[j].pid
  {
    var procs := HomehelperProcesses(table, metrics);
    s := Summary(hw, |procs|, procs, StatusName(DetermineStatus(hw)), now);
  }
}

=== FILE: text.dfy ===
/**
 Character and string helpers shared by the orchestrator model: decimal
 rendering and parsing of integers (Python `str(int)` / `int(str)`), ASCII
 case mapping, splitting and joining on one separator character (Python
 `str.split(sep)` / `sep.join`), whitespace stripping, and the code-point
 lexicographic order Python uses to sort strings.
 */
module Text {
  import opened Wrappers

  // ---------------------------------------------------------------------------
  // Decimal digits
  // ---------------------------------------------------------------------------

  predicate IsDigit(c: char) {
    '0' <= c <= '9'
  }

  predicate AllDigits(s: string) {
    forall i :: 0 <= i < |s| ==> IsDigit(s[i])
  }

  function DigitChar(d: nat): (c: char)
    requires d < 10
    ensures IsDigit(c)
  {
    ['0', '1', '2', '3', '4', '5', '6', '7', '8', '9'][d]
  }

  function DigitValue(c: char): (d: nat)
    requires IsDigit(c)
    ensures d < 10
  {
    (c as int - '0' as int) as nat
  }

  lemma DigitRoundTrip(d: nat)
    requires d < 10
    ensures DigitValue(DigitChar(d)) == d
  {
  }

  /** The value of a string of decimal digits, read most significant first. */
  function DigitsValue(s: string): nat
    requires AllDigits(s)
  {
    if |s| == 0 then 0 else DigitsValue(s[..|s| - 1]) * 10 + DigitValue(s[|s| - 1])
  }

  /** Python `str(n)` for a non-negative integer: no leading zeros. */
  function NatToString(n: nat): (s: string)
    ensures 1 <= |s|
    ensures AllDigits(s)
    ensures |s| > 1 ==> s[0] != '0'
  {
    if n < 10 then [DigitChar(n)] else NatToString(n / 10) + [DigitChar(n % 10)]
  }

  /** Python `str(i)` for any integer. */
  function IntToString(i: int): (s: string)
    ensures 1 <= |s|
  {
    if i < 0 then "-" + NatToString(-i) else NatToString(i)
  }

  /** Python `int(s)` restricted to an optional '-' followed by ASCII digits. */
  function ParseNat(s: string): Option<nat> {
    if 0 < |s| && AllDigits(s) then Some(DigitsValue(s)) else None
  }

  function ParseInt(s: string): Option<int> {
    var negative := 0 < |s| && s[0] == '-';
    var digits := if negative then s[1..] else s;
    if 0 < |digits| && AllDigits(digits) then
      var v: int := DigitsValue(digits);
      Some(if negative then -v else v)
    else None
  }

  lemma {:induction false} ParseNatToString(n: nat)
    ensures ParseNat(NatToString(n)) == Some(n)
  {
    var s := NatToString(n);
    assert DigitsValue(s) == DigitsValue(s[..|s| - 1]) * 10 + DigitValue(s[|s| - 1]);
    if n < 10 {
      DigitRoundTrip(n);
      assert s[..|s| - 1] == [];
    } else {
      ParseNatToString(n / 10);
      assert s[..|s| - 1] == NatToString(n / 10);
      DigitRoundTrip(n % 10);
    }
  }

  /** Reading back the decimal rendering of an integer gives the integer. */
  lemma IntToStringRoundTrip(i: int)
    ensures ParseInt(IntToString(i)) == Some(i)
  {
    var s := IntToString(i);
    if i < 0 {
      var d := NatToString(-i);
      assert s[0] == '-' && s[1..] == d;
      ParseNatToString(-i);
      assert 0 < |d| && AllDigits(d) && DigitsValue(d) == -i;
    } else {
      var d := NatToString(i);
      ParseNatToString(i);
      assert s == d;
      assert s[0] != '-' by {
        assert IsDigit(s[0]);
      }
      assert 0 < |d| && AllDigits(d) && DigitsValue(d) == i;
    }
  }

  lemma IntToStringInjective(i: int, j: int)
    requires IntToString(i) == IntToString(j)
    ensures i == j
  {
    IntToStringRoundTrip(i);
    IntToStringRoundTrip(j);
  }

  lemma NatToStringInjective(i: nat, j: nat)
    requires NatToString(i) == NatToString(j)
    ensures i == j
  {
    ParseNatToString(i);
    ParseNatToString(j);
  }

  // ---------------------------------------------------------------------------
  // ASCII case mapping and character replacement
  // ---------------------------------------------------------------------------

  predicate IsUpper(c: char) {
    'A' <= c <= 'Z'
  }

  predicate IsLower(c: char) {
    'a' <= c <= 'z'
  }

  predicate IsLetter(c: char) {
    IsUpper(c) || IsLower(c)
  }

  function LowerChar(c: char): (r: char)
    ensures !IsUpper(r)
    ensures !IsUpper(c) ==> r == c
  {
    if IsUpper(c) then (c as int + 32) as char else c
  }

  function UpperChar(c: char): (r: char)
    ensures !IsLower(r)
    ensures !IsLower(c) ==> r == c
  {
    if IsLower(c) then (c as int - 32) as char else c
  }

  /** Python `str.lower()` on the ASCII range. */
  function Lower(s: string): (r: string)
    ensures |r| == |s|
    ensures forall i :: 0 <= i < |s| ==> r[i] == LowerChar(s[i])
  {
    seq(|s|, i requires 0 <= i < |s| => LowerChar(s[i]))
  }

  /** Python `str.upper()` on the ASCII range. */
  function Upper(s: string): (r: string)
    ensures |r| == |s|
    ensures forall i :: 0 <= i < |s| ==> r[i] == UpperChar(s[i])
  {
    seq(|s|, i requires 0 <= i < |s| => UpperChar(s[i]))
  }

  /** Python `s.replace(a, b)` for single characters. */
  function ReplaceChar(s: string, a: char, b: char): (r: string)
    ensures |r| == |s|
    ensures forall i :: 0 <= i < |s| ==> r[i] == (if s[i] == a then b else s[i])
  {
    seq(|s|, i requires 0 <= i < |s| => if s[i] == a then b else s[i])
  }

  // ---------------------------------------------------------------------------
  // Prefixes, suffixes and substrings
  // ---------------------------------------------------------------------------

  predicate StartsWith(s: string, p: string) {
    |p| <= |s| && s[..|p|] == p
  }

  predicate EndsWith(s: string, p: string) {
    |p| <= |s| && s[|s| - |p|..] == p
  }

  /** Python `sub in s`. */
  predicate Contains(s: string, sub: string)
    decreases |s|
  {
    StartsWith(s, sub) || (0 < |s| && Contains(s[1..], sub))
  }

  lemma {:induction false} ContainsWitness(s: string, sub: string, i: nat)
    requires i + |sub| <= |s| && s[i..i + |sub|] == sub
    ensures Contains(s, sub)
    decreases i
  {
    if i == 0 {
      assert s[..|sub|] == sub;
    } else {
      assert s[1..][i - 1..i - 1 + |sub|] == s[i..i + |sub|];
      ContainsWitness(s[1..], sub, i - 1);
    }
  }

  lemma ContainsInfix(a: string, sub: string, b: string)
    ensures Contains(a + sub + b, sub)
  {
    var s := a + sub + b;
    assert s[|a|..|a| + |sub|] == sub;
    ContainsWitness(s, sub, |a|);
  }

  // ---------------------------------------------------------------------------
  // Splitting and joining on one separator character
  // ---------------------------------------------------------------------------

  /** Python `s.split(c)`: always at least one piece; "" splits to [""]. */
  function Split(s: string, c: char): (r: seq<string>)
    ensures 1 <= |r|
    decreases |s|
  {
    if |s| == 0 then [""]
    else if s[0] == c then [""] + Split(s[1..], c)
    else
      var rest := Split(s[1..], c);
      [[s[0]] + rest[0]] + rest[1..]
  }

  /** Python `sep.join(parts)`. */
  function Join(parts: seq<string>, sep: string): string {
    if |parts| == 0 then ""
    else if |parts| == 1 then parts[0]
    else parts[0] + sep + Join(parts[1..], sep)
  }

  /** The text of a file whose lines are `lines`, each terminated by '\n'. */
  function Unlines(lines: seq<string>): string {
    if |lines| == 0 then "" else lines[0] + "\n" + Unlines(lines[1..])
  }

  predicate Free(s: string, c: char) {
    forall i :: 0 <= i < |s| ==> s[i] != c
  }

  lemma {:induction false} SplitFree(s: string, c: char)
    requires Free(s, c)
    ensures Split(s, c) == [s]
    decreases |s|
  {
    if |s| > 0 {
      SplitFree(s[1..], c);
      assert [s[0]] + s[1..] == s;
    }
  }

  /** Splitting at a separator splits the two sides independently. */
  lemma {:induction false} SplitAtSeparator(a: string, c: char, b: string)
    requires Free(a, c)
    ensures Split(a + [c] + b, c) == [a] + Split(b, c)
    decreases |a|
  {
    var s := a + [c] + b;
    if |a| == 0 {
      assert s[1..] == b;
    } else {
      assert s[0] == a[0];
      assert s[1..] == a[1..] + [c] + b;
      SplitAtSeparator(a[1..], c, b);
      assert [a[0]] + a[1..] == a;
    }
  }

  predicate NoneContain(parts: seq<string>, c: char) {
    forall i :: 0 <= i < |parts| ==> Free(parts[i], c)
  }

  /** Joining pieces that do not contain the separator and splitting again gives them back. */
  lemma {:induction false} SplitJoin(parts: seq<string>, c: char)
    requires 1 <= |parts|
    requires NoneContain(parts, c)
    ensures Split(Join(parts, [c]), c) == parts
    decreases |parts|
  {
    if |parts| == 1 {
      SplitFree(parts[0], c);
    } else {
      SplitJoin(parts[1..], c);
      SplitAtSeparator(parts[0], c, Join(parts[1..], [c]));
      assert [parts[0]] + parts[1..] == parts;
    }
  }

  /** Splitting and joining again gives the text back, and no piece holds the separator. */
  lemma {:induction false} JoinSplit(s: string, c: char)
    ensures Join(Split(s, c), [c]) == s
    ensures NoneContain(Split(s, c), c)
    decreases |s|
  {
    if |s| > 0 {
      var rest := Split(s[1..], c);
      JoinSplit(s[1..], c);
      if s[0] == c {
        assert ([""] + rest)[1..] == rest;
      } else {
        var r := Split(s, c);
        assert r[1..] == rest[1..];
        if |rest| > 1 {
          assert Join(rest, [c]) == rest[0] + [c] + Join(rest[1..], [c]);
          assert Join(r, [c]) == ([s[0]] + rest[0]) + [c] + Join(rest[1..], [c]);
        }
        assert s == [s[0]] + s[1..];
        assert forall i :: 1 <= i < |r| ==> r[i] == rest[i];
      }
    }
  }

  /** Reading a file of '\n'-terminated lines back line by line gives the lines and one empty tail. */
  lemma {:induction false} SplitUnlines(lines: seq<string>)
    requires NoneContain(lines, '\n')
    ensures Split(Unlines(lines), '\n') == lines + [""]
    decreases |lines|
  {
    if |lines| > 0 {
      SplitUnlines(lines[1..]);
      SplitAtSeparator(lines[0], '\n', Unlines(lines[1..]));
      assert lines[0] + "\n" + Unlines(lines[1..]) == lines[0] + ['\n'] + Unlines(lines[1..]);
      assert [lines[0]] + (lines[1..] + [""]) == lines + [""];
    }
  }

  lemma {:induction false} UnlinesAppend(a: seq<string>, b: seq<string>)
    ensures Unlines(a + b) == Unlines(a) + Unlines(b)
    decreases |a|
  {
    if |a| > 0 {
      assert (a + b)[1..] == a[1..] + b;
      UnlinesAppend(a[1..], b);
    } else {
      assert a + b == b;
    }
  }

  /** The text of some lines ends with the text of their last `n`. */
  lemma {:induction false} UnlinesEndsWith(lines: seq<string>, n: nat)
    requires n <= |lines|
    ensures EndsWith(Unlines(lines), Unlines(lines[|lines| - n..]))
  {
    var body, tail := lines[..|lines| - n], lines[|lines| - n..];
    assert lines == body + tail;
    UnlinesAppend(body, tail);
    var a, b := Unlines(body), Unlines(tail);
    assert (a + b)[|a + b| - |b|..] == b;
  }

  // ---------------------------------------------------------------------------
  // Whitespace stripping (Python `str.strip()` on ASCII whitespace)
  // ---------------------------------------------------------------------------

  predicate IsSpace(c: char) {
    c == ' ' || c == '\t' || c == '\n' || c == '\r' || c == '\U{000B}' || c == '\U{000C}'
    || c == '\U{001C}' || c == '\U{001D}' || c == '\U{001E}' || c == '\U{001F}'
  }

  function StripLeft(s: string): (r: string)
    ensures |r| <= |s| && r == s[|s| - |r|..]
    ensures |r| > 0 ==> !IsSpace(r[0])
    ensures forall i :: 0 <= i < |s| - |r| ==> IsSpace(s[i])
    decreases |s|
  {
    if |s| > 0 && IsSpace(s[0]) then
      var r := StripLeft(s[1..]);
      assert s[1..][|s| - 1 - |r|..] == s[|s| - |r|..];
      assert forall i :: 0 <= i < |s| - |r| ==> IsSpace(s[i]) by {
        forall i | 0 <= i < |s| - |r|
          ensures IsSpace(s[i])
        {
          if i > 0 {
            assert s[i] == s[1..][i - 1];
          }
        }
      }
      r
    else s
  }

  function StripRight(s: string): (r: string)
    ensures |r| <= |s| && r == s[..|r|]
    ensures |r| > 0 ==> !IsSpace(r[|r| - 1])
    ensures forall i :: |r| <= i < |s| ==> IsSpace(s[i])
    decreases |s|
  {
    if |s| > 0 && IsSpace(s[|s| - 1]) then StripRight(s[..|s| - 1]) else s
  }

  /** `r` sits at `k` in `s`, and only whitespace lies before and after it. */
  predicate Cut(s: string, r: string, k: int) {
    0 <= k && k + |r| <= |s| && s[k..k + |r|] == r
    && (forall i :: 0 <= i < k ==> IsSpace(s[i]))
    && (forall i :: k + |r| <= i < |s| ==> IsSpace(s[i]))
  }

  /** Python `s.strip()`: the infix left after removing leading and trailing whitespace. */
  function Strip(s: string): (r: string)
    ensures |r| <= |s|
    ensures Contains(s, r)
    ensures exists k :: Cut(s, r, k)
    ensures |r| > 0 ==> !IsSpace(r[0]) && !IsSpace(r[|r| - 1])
    ensures (forall i :: 0 <= i < |s| ==> IsSpace(s[i])) ==> r == ""
  {
    var l := StripLeft(s);
    var r := StripRight(l);
    CutOfParts(s, l, r);
    ContainsWitness(s, r, |s| - |l|);
    r
  }

  /** Text cut on the left at `k` and then on the right, with only
      whitespace removed each time, is a cut of the original text. */
  lemma CutOfParts(s: string, l: string, r: string)
    requires |l| <= |s| && l == s[|s| - |l|..]
    requires forall i :: 0 <= i < |s| - |l| ==> IsSpace(s[i])
    requires |r| <= |l| && r == l[..|r|]
    requires forall i :: |r| <= i < |l| ==> IsSpace(l[i])
    ensures Cut(s, r, |s| - |l|)
  {
    var k := |s| - |l|;
    assert s[k..k + |r|] == r;
    forall i | k + |r| <= i < |s|
      ensures IsSpace(s[i])
    {
      assert s[i] == l[i - k];
    }
  }

  /** A file of lines is the lines joined by '\n' plus a final '\n'. */
  lemma {:induction false} UnlinesJoin(lines: seq<string>)
    requires |lines| > 0
    ensures Unlines(lines) == Join(lines, "\n") + "\n"
    decreases |lines|
  {
    if |lines| > 1 {
      UnlinesJoin(lines[1..]);
    }
  }

  lemma {:induction false} JoinLast(lines: seq<string>, sep: string)
    requires |lines| > 0 && |lines[|lines| - 1]| > 0
    ensures var j := Join(lines, sep);
            |j| > 0 && j[|j| - 1] == lines[|lines| - 1][|lines[|lines| - 1]| - 1]
    decreases |lines|
  {
    if |lines| > 1 {
      JoinLast(lines[1..], sep);
    }
  }

  /** Stripping text that already starts and ends with non-whitespace, with
      or without one trailing newline, gives that text. */
  lemma StripTrimmed(s: string)
    requires |s| > 0 && !IsSpace(s[0]) && !IsSpace(s[|s| - 1])
    ensures Strip(s) == s && Strip(s + "\n") == s
  {
    var t := s + "\n";
    assert StripLeft(t) == t;
    assert t[..|t| - 1] == s;
    assert StripRight(t) == StripRight(s);
  }

  /** Reading stripped command output back line by line: the lines of a
      '\n'-terminated file, when the first starts and the last ends with
      non-whitespace. */
  lemma ReadBackLines(lines: seq<string>)
    requires |lines| > 0 && NoneContain(lines, '\n')
    requires |lines[0]| > 0 && !IsSpace(lines[0][0])
    requires |lines[|lines| - 1]| > 0 && !IsSpace(lines[|lines| - 1][|lines[|lines| - 1]| - 1])
    ensures Split(Strip(Unlines(lines)), '\n') == lines
  {
    UnlinesJoin(lines);
    JoinLast(lines, "\n");
    StripTrimmed(Join(lines, "\n"));
    SplitJoin(lines, '\n');
  }

  // ---------------------------------------------------------------------------
  // Code-point lexicographic order and sorting (Python `sorted` on str)
  // ---------------------------------------------------------------------------

  predicate LessEq(a: string, b: string)
    decreases |a|
  {
    if |a| == 0 then true
    else if |b| == 0 then false
    else if a[0] != b[0] then a[0] < b[0]
    else LessEq(a[1..], b[1..])
  }

  lemma {:induction false} LessEqRefl(a: string)
    ensures LessEq(a, a)
    decreases |a|
  {
    if |a| > 0 {
      LessEqRefl(a[1..]);
    }
  }

  lemma {:induction false} LessEqTotal(a: string, b: string)
    ensures LessEq(a, b) || LessEq(b, a)
    decreases |a|
  {
    if |a| > 0 && |b| > 0 && a[0] == b[0] {
      LessEqTotal(a[1..], b[1..]);
    }
  }

  lemma {:induction false} LessEqAntisym(a: string, b: string)
    requires LessEq(a, b) && LessEq(b, a)
    ensures a == b
    decreases |a|
  {
    if |a| > 0 && |b| > 0 {
      LessEqAntisym(a[1..], b[1..]);
      assert a == [a[0]] + a[1..];
      assert b == [b[0]] + b[1..];
    }
  }

  lemma {:induction false} LessEqTrans(a: string, b: string, c: string)
    requires LessEq(a, b) && LessEq(b, c)
    ensures LessEq(a, c)
    decreases |a|
  {
    if |a| > 0 && |b| > 0 && |c| > 0 && a[0] == b[0] && b[0] == c[0] {
      LessEqTrans(a[1..], b[1..], c[1..]);
    }
  }

  predicate Sorted(xs: seq<string>) {
    forall i, j :: 0 <= i < j < |xs| ==> LessEq(xs[i], xs[j])
  }

  predicate StrictlySorted(xs: seq<string>) {
    forall i, j :: 0 <= i < j < |xs| ==> LessEq(xs[i], xs[j]) && xs[i] != xs[j]
  }

  function Insert(x: string, xs: seq<string>): (r: seq<string>)
    requires Sorted(xs)
    ensures Sorted(r)
    ensures multiset(r) == multiset(xs) + multiset{x}
  {
    if |xs| == 0 then [x]
    else if LessEq(x, xs[0]) then
      assert forall j :: 0 < j < |xs| ==> LessEq(x, xs[j]) by {
        forall j | 0 < j < |xs| {
          LessEqTrans(x, xs[0], xs[j]);
        }
      }
      [x] + xs
    else
      var rest := Insert(x, xs[1..]);
      LessEqTotal(x, xs[0]);
      assert xs == [xs[0]] + xs[1..];
      assert forall k :: 0 <= k < |rest| ==> LessEq(xs[0], rest[k]) by {
        forall k | 0 <= k < |rest|
          ensures LessEq(xs[0], rest[k])
        {
          assert rest[k] in multiset(rest);
          assert rest[k] == x || rest[k] in multiset(xs[1..]);
          if rest[k] != x {
            var j :| 0 <= j < |xs[1..]| && xs[1..][j] == rest[k];
            assert xs[1 + j] == rest[k];
          }
        }
      }
      [xs[0]] + rest
  }

  /** Python `sorted(xs)` for strings: an ordered permutation of the input. */
  function Sort(xs: seq<string>): (r: seq<string>)
    ensures Sorted(r)
    ensures multiset(r) == multiset(xs)
  {
    if |xs| == 0 then []
    else
      assert xs == [xs[0]] + xs[1..];
      Insert(xs[0], Sort(xs[1..]))
  }

  /** Drops adjacent repetitions; on a sorted sequence this leaves each value once. */
  function Uniq(xs: seq<string>): (r: seq<string>)
    requires Sorted(xs)
    ensures StrictlySorted(r)
    ensures forall x :: x in r <==> x in xs
    ensures |xs| > 0 ==> |r| > 0 && r[0] == xs[0]
  {
    if |xs| <= 1 then xs
    else
      var rest := Uniq(xs[1..]);
      if xs[0] == xs[1] then rest
      else
        assert forall k :: 0 <= k < |rest| ==> LessEq(xs[0], rest[k]) && xs[0] != rest[k] by {
          forall k | 0 <= k < |rest|
            ensures LessEq(xs[0], rest[k]) && xs[0] != rest[k]
          {
            assert rest[k] in xs[1..];
            var j :| 0 <= j < |xs| - 1 && xs[1..][j] == rest[k];
            assert xs[j + 1] == rest[k];
            assert LessEq(xs[0], xs[1]);
            if j == 0 {
              LessEqRefl(xs[1]);
            }
            assert LessEq(xs[1], xs[j + 1]);
            LessEqTrans(xs[0], xs[1], xs[j + 1]);
            if xs[0] == rest[k] {
              LessEqAntisym(xs[0], xs[1]);
            }
          }
        }
        [xs[0]] + rest
  }

  /** Two strictly sorted sequences with the same elements are equal. */
  lemma {:induction false} StrictlySortedUnique(a: seq<string>, b: seq<string>)
    requires StrictlySorted(a) && StrictlySorted(b)
    requires forall x :: x in a <==> x in b
    ensures a == b
    decreases |a|
  {
    if |a| == 0 || |b| == 0 {
      // Only both-empty is consistent with the shared elements.
      var w := if |a| > 0 then a[0] else if |b| > 0 then b[0] else "";
      assert w in a <==> w in b;
    } else {
      assert a[0] in b;
      assert b[0] in a;
      var ia :| 0 <= ia < |a| && a[ia] == b[0];
      var ib :| 0 <= ib < |b| && b[ib] == a[0];
      if a[0] != b[0] {
        assert LessEq(a[0], a[ia]);
        assert LessEq(b[0], b[ib]);
        LessEqAntisym(a[0], b[0]);
      }
      forall x
        ensures x in a[1..] <==> x in b[1..]
      {
        if x in a[1..] {
          var k :| 1 <= k < |a| && a[k] == x;
          assert x in b;
          assert x != b[0];
        }
        if x in b[1..] {
          var k :| 1 <= k < |b| && b[k] == x;
          assert x in a;
          assert x != a[0];
        }
      }
      StrictlySortedUnique(a[1..], b[1..]);
      assert a == [a[0]] + a[1..];
      assert b == [b[0]] + b[1..];
    }
  }

  /** Python `sorted(set(xs))`: the unique strictly ascending listing of the elements of `xs`. */
  function SortedSet(xs: seq<string>): (r: seq<string>)
    ensures StrictlySorted(r)
    ensures forall x :: x in r <==> x in xs
  {
    var s := Sort(xs);
    assert forall x :: x in s <==> x in xs by {
      forall x
        ensures x in s <==> x in xs
      {
        assert x in s <==> x in multiset(s);
        assert x in xs <==> x in multiset(xs);
      }
    }
    Uniq(s)
  }
}

=== FILE: ui.dfy ===
/**
 The dashboard's table renderer: which columns a list of items shows, in
 which order, how a header reads, and how each value is shown. The
 timestamp formatting of date-like columns is an input.
 */
module Ui {
  import opened Wrappers
  import opened Text
  import opened JsonData
  import Registry

  /** An item as the API returns it: its fields in order. */
  type Item = seq<(string, Json)>

  predicate HasKey(item: Item, k: string) {
    exists i :: 0 <= i < |item| && item[i].0 == k
  }

  /** `item.get(key, '')`. */
  function Get(item: Item, k: string): (r: Json)
    ensures !HasKey(item, k) ==> r == JString("")
    ensures HasKey(item, k) ==> exists i :: 0 <= i < |item| && item[i].0 == k && item[i].1 == r
  {
    if |item| == 0 then JString("")
    else if item[0].0 == k then item[0].1
    else
      assert HasKey(item, k) ==> HasKey(item[1..], k) by {
        if HasKey(item, k) {
          var i :| 0 <= i < |item| && item[i].0 == k;
          assert item[1..][i - 1].0 == k;
        }
      }
      var r := Get(item[1..], k);
      assert HasKey(item[1..], k) ==> exists i :: 0 <= i < |item| && item[i].0 == k && item[i].1 == r by {
        if HasKey(item[1..], k) {
          var i :| 0 <= i < |item[1..]| && item[1..][i].0 == k && item[1..][i].1 == r;
          assert item[i + 1].0 == k && item[i + 1].1 == r;
        }
      }
      r
  }

  /** The keys of all items, item after item. */
  function AllKeys(data: seq<Item>): (r: seq<string>)
    ensures forall k :: k in r <==> exists i :: 0 <= i < |data| && HasKey(data[i], k)
  {
    if |data| == 0 then []
    else
      var first := seq(|data[0]|, j requires 0 <= j < |data[0]| => data[0][j].0);
      assert forall k :: k in first <==> HasKey(data[0], k) by {
        forall k
          ensures k in first <==> HasKey(data[0], k)
        {
          if HasKey(data[0], k) {
            var j :| 0 <= j < |data[0]| && data[0][j].0 == k;
            assert first[j] == k;
          }
        }
      }
      var rest := AllKeys(data[1..]);
      assert forall k :: k in rest <==> exists i :: 1 <= i < |data| && HasKey(data[i], k) by {
        forall k
          ensures k in rest <==> exists i :: 1 <= i < |data| && HasKey(data[i], k)
        {
          if k in rest {
            var i :| 0 <= i < |data[1..]| && HasKey(data[1..][i], k);
            assert HasKey(data[i + 1], k);
          }
          if exists i :: 1 <= i < |data| && HasKey(data[i], k) {
            var i :| 1 <= i < |data| && HasKey(data[i], k);
            assert HasKey(data[1..][i - 1], k);
          }
        }
      }
      first + rest
  }

  /** Removing an element keeps a strictly ascending list strictly ascending. */
  lemma {:induction false} RemoveStrictlySorted(xs: seq<string>, k: string)
    requires StrictlySorted(xs)
    ensures StrictlySorted(Registry.Remove(xs, k))
    decreases |xs|
  {
    if |xs| > 0 {
      RemoveStrictlySorted(xs[1..], k);
      var rest := Registry.Remove(xs[1..], k);
      if xs[0] != k {
        forall j | 0 <= j < |rest|
          ensures LessEq(xs[0], rest[j]) && xs[0] != rest[j]
        {
          assert rest[j] in xs[1..];
          var i :| 0 <= i < |xs[1..]| && xs[1..][i] == rest[j];
          assert xs[i + 1] == rest[j];
        }
      }
    }
  }

  /** The table's columns: every key of every item once, in ascending order,
      except that "id" comes first. */
  function Columns(data: seq<Item>): (r: seq<string>)
    ensures forall k :: k in r <==> exists i :: 0 <= i < |data| && HasKey(data[i], k)
    ensures "id" in r ==> r[0] == "id" && "id" !in r[1..] && StrictlySorted(r[1..])
    ensures "id" !in r ==> StrictlySorted(r)
    ensures Registry.Distinct(r)
  {
    var keys := SortedSet(AllKeys(data));
    if "id" in keys then
      var rest := Registry.Remove(keys, "id");
      RemoveStrictlySorted(keys, "id");
      var r := ["id"] + rest;
      assert r[1..] == rest;
      r
    else keys
  }

  // ---------------------------------------------------------------------------
  // Headers
  // ---------------------------------------------------------------------------

  /** str.title() on ASCII: a letter after a non-letter (or at the start) is
      upper-cased, any other letter lower-cased. */
  function TitleFrom(s: string, afterLetter: bool): (r: string)
    ensures |r| == |s|
    ensures |s| > 0 ==> r[0] == (if afterLetter then LowerChar(s[0]) else UpperChar(s[0]))
    ensures forall i :: 1 <= i < |s| ==> r[i] == (if IsLetter(s[i - 1]) then LowerChar(s[i]) else UpperChar(s[i]))
    decreases |s|
  {
    if |s| == 0 then ""
    else
      var c := if afterLetter then LowerChar(s[0]) else UpperChar(s[0]);
      var rest := TitleFrom(s[1..], IsLetter(s[0]));
      assert forall i :: 1 <= i < |s| ==> ([c] + rest)[i] == rest[i - 1];
      [c] + rest
  }

  /** The character title case puts at position `i` of `s`. */
  function TitleChar(s: string, i: nat): char
    requires i < |s|
  {
    if i > 0 && IsLetter(s[i - 1]) then LowerChar(s[i]) else UpperChar(s[i])
  }

  function Title(s: string): (r: string)
    ensures |r| == |s|
    ensures forall i :: 0 <= i < |s| ==> r[i] == TitleChar(s, i)
  {
    TitleFrom(s, false)
  }

  /** A column's header: underscores become spaces, then title case. */
  function Header(key: string): (r: string)
    ensures |r| == |key|
    ensures forall i :: 0 <= i < |key| && key[i] == '_' ==> r[i] == ' '
    ensures forall i :: 0 <= i < |key| ==> r[i] == TitleChar(ReplaceChar(key, '_', ' '), i)
  {
    var spaced := ReplaceChar(key, '_', ' ');
    var r := Title(spaced);
    forall i | 0 <= i < |key| && key[i] == '_'
      ensures r[i] == ' '
    {
      assert spaced[i] == ' ';
      assert r[i] == UpperChar(spaced[i]) || r[i] == LowerChar(spaced[i]);
    }
    r
  }

  lemma CaseKeepsLetters(c: char)
    ensures IsLetter(UpperChar(c)) == IsLetter(c) && IsLetter(LowerChar(c)) == IsLetter(c)
  {
  }

  /** Title case is idempotent. */
  lemma TitleIdempotent(s: string)
    ensures Title(Title(s)) == Title(s)
  {
    var t := Title(s);
    forall i | 0 <= i < |s|
      ensures Title(t)[i] == t[i]
    {
      if i > 0 {
        CaseKeepsLetters(s[i - 1]);
        assert t[i - 1] == UpperChar(s[i - 1]) || t[i - 1] == LowerChar(s[i - 1]);
      }
      assert t[i] == UpperChar(s[i]) || t[i] == LowerChar(s[i]);
    }
  }

  // ---------------------------------------------------------------------------
  // Values
  // ---------------------------------------------------------------------------

  const NotAvailable: string := "<span class=\"text-muted\">N/A</span>"
  const EmptyList: string := "<span class=\"text-muted\">Empty</span>"
  const MaxShown: nat := 100

  /** A key the date branch applies to. */
  predicate DateKey(key: string) {
    Contains(Lower(key), "date") || Contains(Lower(key), "time") || EndsWith(key, "_at")
  }

  predicate ImageKey(key: string) {
    StartsWith(key, "img_") || EndsWith(key, "_image") || key == "image"
  }

  /** The values the date branch formats: numbers (a bool is one in Python) and strings. */
  predicate DateValue(v: Json) {
    v.JInt? || v.JBool? || v.JString?
  }

  /** `str(value)` for what reaches the default branch. */
  function PlainText(v: Json): string {
    match v
    case JInt(i) => IntToString(i)
    case JString(s) => s
    case _ => ""
  }

  /** A long text, cut to its first hundred characters, with the whole text as tooltip. */
  function Truncated(s: string): (r: string)
    requires |s| > MaxShown
  {
    "<span title=\"" + s + "\">" + s[..MaxShown] + "...</span>"
  }

  /** A thumbnail of the picture at `src`, with the key as its alternative text. */
  function ImageTag(src: string, key: string): string {
    "<img src=\"" + src + "\" alt=\"" + key + "\" style=\"max-width: 100px; max-height: 100px;\" class=\"img-thumbnail\">"
  }

  /** The thumbnail can be read back: the source sits right after `<img src="`
      and the key right after the following `" alt="`. */
  lemma ImageTagShows(src: string, key: string)
    ensures var r := ImageTag(src, key);
            var at := |"<img src=\""| + |src| + |"\" alt=\""|;
            StartsWith(r, "<img src=\"") && r[10..10 + |src|] == src && at + |key| <= |r| && r[at..at + |key|] == key
  {
    var r := ImageTag(src, key);
    var at := |"<img src=\""| + |src| + |"\" alt=\""|;
    assert r == ("<img src=\"" + src + "\" alt=\"") + key + ("\" style=\"max-width: 100px; max-height: 100px;\" class=\"img-thumbnail\">");
  }

  /** _format_value; `date` is what the timestamp branch makes of a value. */
  function FormatValue(key: string, v: Json, date: Json -> string): (r: string)
    ensures v.JNull? ==> r == NotAvailable
    ensures !v.JNull? && DateKey(key) && DateValue(v) ==> r == date(v)
    ensures !(DateKey(key) && DateValue(v)) && v.JBool? ==> r == (if v.b then "✅" else "❌")
    ensures !(DateKey(key) && DateValue(v)) && ImageKey(key) && v.JString? && (StartsWith(v.s, "http") || StartsWith(v.s, "data:")) ==>
              r == ImageTag(v.s, key)
    ensures v.JArray? ==>
              r == (if |v.items| == 0 then EmptyList
                    else "<span class=\"badge bg-secondary\">" + IntToString(|v.items|) + " items</span>")
    ensures v.JObject? ==> r == "<span class=\"badge bg-info\">" + IntToString(|v.fields|) + " fields</span>"
    // A plain value is shown as is up to a hundred characters, and cut beyond.
    ensures !(DateKey(key) && DateValue(v)) && (v.JInt? || v.JString?)
            && !(ImageKey(key) && v.JString? && (StartsWith(v.s, "http") || StartsWith(v.s, "data:"))) ==>
              (|PlainText(v)| <= MaxShown ==> r == PlainText(v))
              && (|PlainText(v)| > MaxShown ==> r == Truncated(PlainText(v)))
  {
    if v.JNull? then NotAvailable
    else if DateKey(key) && DateValue(v) then date(v)
    else if ImageKey(key) && v.JString? && (StartsWith(v.s, "http") || StartsWith(v.s, "data:")) then
      ImageTag(v.s, key)
    else match v
      case JBool(b) => if b then "✅" else "❌"
      case JArray(items) =>
        if |items| == 0 then EmptyList
        else "<span class=\"badge bg-secondary\">" + IntToString(|items|) + " items</span>"
      case JObject(fields) => "<span class=\"badge bg-info\">" + IntToString(|fields|) + " fields</span>"
      case _ =>
        var s := PlainText(v);
        if |s| > MaxShown then Truncated(s) else s
  }

  /** The cut text shows exactly the first hundred characters, then "...". */
  lemma TruncatedShows(s: string)
    requires |s| > MaxShown
    ensures var pre := "<span title=\"" + s + "\">";
            var r := Truncated(s);
            |r| == |pre| + MaxShown + 10 && r[|pre|..|pre| + MaxShown] == s[..MaxShown]
            && r[|pre| + MaxShown..] == "...</span>"
  {
  }

  // ---------------------------------------------------------------------------
  // The table
  // ---------------------------------------------------------------------------

  /** What the table shows: the headers and, per item, one cell per column. */
  datatype TableView = TableView(headers: seq<string>, rows: seq<seq<string>>)

  function RowCells(item: Item, cols: seq<string>, date: Json -> string): (r: seq<string>)
    ensures |r| == |cols| && forall j :: 0 <= j < |cols| ==> r[j] == FormatValue(cols[j], Get(item, cols[j]), date)
  {
    seq(|cols|, j requires 0 <= j < |cols| => FormatValue(cols[j], Get(item, cols[j]), date))
  }

  /** The view of a non-empty list: every row has one cell per column, and a
      missing key shows as the empty string would. */
  function BuildView(data: seq<Item>, date: Json -> string): (v: TableView)
    ensures var cols := Columns(data);
            |v.headers| == |cols| && |v.rows| == |data|
            && (forall j :: 0 <= j < |cols| ==> v.headers[j] == Header(cols[j]))
            && (forall i :: 0 <= i < |data| ==> |v.rows[i]| == |cols|)
            && (forall i, j :: 0 <= i < |data| && 0 <= j < |cols| ==>
                  v.rows[i][j] == FormatValue(cols[j], Get(data[i], cols[j]), date))
  {
    var cols := Columns(data);
    TableView(seq(|cols|, j requires 0 <= j < |cols| => Header(cols[j])),
              seq(|data|, i requires 0 <= i < |data| => RowCells(data[i], cols, date)))
  }

  function Open(tag: string): string {
    "<" + tag + ">"
  }

  function Close(tag: string): string {
    "</" + tag + ">"
  }

  /** Each string wrapped in a tag, concatenated. */
  function Tagged(tag: string, xs: seq<string>): string {
    if |xs| == 0 then "" else Open(tag) + xs[0] + Close(tag) + Tagged(tag, xs[1..])
  }

  function RowsHtml(rows: seq<seq<string>>): string {
    if |rows| == 0 then "" else "<tr>" + Tagged("td", rows[0]) + "</tr>" + RowsHtml(rows[1..])
  }

  const TableHead: string := "<div class=\"table-responsive\"><table class=\"table table-sm table-hover\"><thead class=\"table-light\"><tr>"
  const TableMiddle: string := "</tr></thead><tbody>"
  const TableTail: string := "</tbody></table></div>"

  function RenderView(v: TableView): string {
    TableHead + Tagged("th", v.headers) + TableMiddle + RowsHtml(v.rows) + TableTail
  }

  /** render_table_html. */
  function RenderTableHtml(data: seq<Item>, resourceName: string, date: Json -> string): (r: string)
    ensures |data| == 0 ==> r == "<div class=\"alert alert-info\">No " + resourceName + " found</div>"
    ensures |data| > 0 ==> StartsWith(r, TableHead) && EndsWith(r, TableTail)
  {
    if |data| == 0 then "<div class=\"alert alert-info\">No " + resourceName + " found</div>"
    else
      var v := BuildView(data, date);
      RenderViewFramed(v);
      RenderView(v)
  }

  lemma Framed(a: string, m: string, c: string)
    ensures StartsWith(a + m + c, a) && EndsWith(a + m + c, c)
  {
    assert (a + m + c)[..|a|] == a;
    assert (a + m + c)[|a + m + c| - |c|..] == c;
  }

  lemma RenderViewFramed(v: TableView)
    ensures StartsWith(RenderView(v), TableHead) && EndsWith(RenderView(v), TableTail)
  {
    var m := Tagged("th", v.headers) + TableMiddle + RowsHtml(v.rows);
    assert RenderView(v) == TableHead + m + TableTail;
    Framed(TableHead, m, TableTail);
  }

  // ---------------------------------------------------------------------------
  // Reading a rendered table back
  // ---------------------------------------------------------------------------

  /** `close` occurs in `s` at position `j`. */
  predicate At(s: string, close: string, j: int) {
    0 <= j && j + |close| <= |s| && s[j..j + |close|] == close
  }

  /** `close` occurs nowhere in `s`. */
  predicate Avoids(s: string, close: string) {
    forall j :: 0 <= j <= |s| ==> !At(s, close, j)
  }

  /** No cell holds the tag's own closing tag. */
  predicate Clean(tag: string, xs: seq<string>) {
    forall i :: 0 <= i < |xs| ==> Avoids(xs[i], Close(tag))
  }

  /** The first position at or after `from` where `close` starts. */
  function FindClose(s: string, close: string, from: nat): (r: Option<nat>)
    requires from <= |s|
    ensures r.Some? ==> from <= r.value && At(s, close, r.value)
    ensures r.Some? ==> forall j :: from <= j < r.value ==> !At(s, close, j)
    ensures r.None? ==> forall j :: from <= j ==> !At(s, close, j)
    decreases |s| - from
  {
    if from + |close| > |s| then None
    else if At(s, close, from) then Some(from)
    else if from == |s| then None
    else FindClose(s, close, from + 1)
  }

  /** A closing tag starts with its only '<'. */
  predicate TagLike(close: string) {
    |close| > 0 && close[0] == '<' && forall k :: 0 < k < |close| ==> close[k] != '<'
  }

  lemma CloseIsTagLike(tag: string)
    requires Free(tag, '<')
    ensures TagLike(Close(tag))
  {
    var c := Close(tag);
    assert c == "</" + tag + ">";
    forall k | 0 < k < |c| ensures c[k] != '<' {
      if 2 <= k < 2 + |tag| {
        assert c[k] == tag[k - 2];
      }
    }
  }

  /** A text that avoids a closing tag is skipped up to where the tag follows it. */
  lemma {:induction false} FindCloseSkips(x: string, close: string, rest: string, from: nat)
    requires Avoids(x, close) && TagLike(close) && from <= |x|
    ensures FindClose(x + close + rest, close, from) == Some(|x|)
    decreases |x| - from
  {
    var s := x + close + rest;
    assert s[|x|..|x| + |close|] == close;
    if from < |x| {
      if from + |close| <= |x| {
        assert s[from..from + |close|] == x[from..from + |close|];
        assert !At(x, close, from);
      } else {
        var k := |x| - from;
        assert s[from..from + |close|][k] == close[0] == '<';
        assert close[k] != '<';
      }
      assert !At(s, close, from);
      FindCloseSkips(x, close, rest, from + 1);
    }
  }

  /** Reads `n` cells wrapped in `tag` off the front of `s`, with what follows them. */
  function ReadCells(tag: string, s: string, n: nat): Option<(seq<string>, string)>
    decreases n
  {
    if n == 0 then Some(([], s))
    else if !StartsWith(s, Open(tag)) then None
    else
      var body := s[|Open(tag)|..];
      var i := FindClose(body, Close(tag), 0);
      if i.None? then None
      else
        var more :- ReadCells(tag, body[i.value + |Close(tag)|..], n - 1);
        Some(([body[..i.value]] + more.0, more.1))
  }

  /** One cell read off the front, then the rest. */
  lemma ReadCellsStep(tag: string, x: string, tail: string, n: nat)
    requires n > 0 && Free(tag, '<') && Avoids(x, Close(tag))
    ensures ReadCells(tag, Open(tag) + x + Close(tag) + tail, n)
            == (var more := ReadCells(tag, tail, n - 1);
                if more.None? then None else Some(([x] + more.value.0, more.value.1)))
  {
    var open := Open(tag);
    var close := Close(tag);
    var s := open + x + close + tail;
    assert s == open + (x + close + tail);
    assert StartsWith(s, open);
    var body := s[|open|..];
    assert body == x + close + tail;
    CloseIsTagLike(tag);
    FindCloseSkips(x, close, tail, 0);
    assert body[..|x|] == x;
    assert body[|x| + |close|..] == tail;
  }

  /** Cells that avoid the closing tag are recovered from their tagged text,
      and so is whatever follows it. */
  lemma {:induction false} ReadCellsBack(tag: string, xs: seq<string>, rest: string)
    requires Free(tag, '<') && Clean(tag, xs)
    ensures ReadCells(tag, Tagged(tag, xs) + rest, |xs|) == Some((xs, rest))
    decreases |xs|
  {
    if |xs| == 0 {
      assert Tagged(tag, xs) + rest == rest;
    } else {
      var tail := Tagged(tag, xs[1..]) + rest;
      assert Tagged(tag, xs) + rest == Open(tag) + xs[0] + Close(tag) + tail;
      assert Clean(tag, xs[1..]) by {
        forall i | 0 <= i < |xs| - 1 ensures Avoids(xs[1..][i], Close(tag)) {
          assert xs[1..][i] == xs[i + 1];
        }
      }
      ReadCellsBack(tag, xs[1..], rest);
      ReadCellsStep(tag, xs[0], tail, |xs|);
      assert [xs[0]] + xs[1..] == xs;
    }
  }

  /** Reads `n` rows of `width` cells each off the front of `s`, with what follows them. */
  function ReadRows(s: string, n: nat, width: nat): Option<(seq<seq<string>>, string)>
    decreases n
  {
    if n == 0 then Some(([], s))
    else if !StartsWith(s, "<tr>") then None
    else
      var row :- ReadCells("td", s[4..], width);
      if !StartsWith(row.1, "</tr>") then None
      else
        var more :- ReadRows(row.1[5..], n - 1, width);
        Some(([row.0] + more.0, more.1))
  }

  /** Every row has `width` cells and no cell holds "</td>". */
  predicate RowsClean(rows: seq<seq<string>>, width: nat) {
    forall i :: 0 <= i < |rows| ==> |rows[i]| == width && Clean("td", rows[i])
  }

  /** One row read off the front, then the rest. */
  lemma ReadRowsStep(row: seq<string>, tail: string, n: nat)
    requires n > 0 && Clean("td", row)
    ensures ReadRows("<tr>" + Tagged("td", row) + "</tr>" + tail, n, |row|)
            == (var more := ReadRows(tail, n - 1, |row|);
                if more.None? then None else Some(([row] + more.value.0, more.value.1)))
  {
    var cells := Tagged("td", row);
    var s := "<tr>" + cells + "</tr>" + tail;
    assert s == "<tr>" + (cells + ("</tr>" + tail));
    assert s[4..] == cells + ("</tr>" + tail);
    ReadCellsBack("td", row, "</tr>" + tail);
    assert ("</tr>" + tail)[5..] == tail;
  }

  lemma {:induction false} ReadRowsBack(rows: seq<seq<string>>, width: nat, rest: string)
    requires RowsClean(rows, width)
    ensures ReadRows(RowsHtml(rows) + rest, |rows|, width) == Some((rows, rest))
    decreases |rows|
  {
    if |rows| == 0 {
      assert RowsHtml(rows) + rest == rest;
    } else {
      RowsHtmlCons(rows, rest);
      RowsCleanTail(rows, width);
      ReadRowsBack(rows[1..], width, rest);
      ReadRowsStep(rows[0], RowsHtml(rows[1..]) + rest, |rows|);
      assert [rows[0]] + rows[1..] == rows;
    }
  }

  lemma RowsHtmlCons(rows: seq<seq<string>>, rest: string)
    requires |rows| > 0
    ensures RowsHtml(rows) + rest == "<tr>" + Tagged("td", rows[0]) + "</tr>" + (RowsHtml(rows[1..]) + rest)
  {
  }

  lemma RowsCleanTail(rows: seq<seq<string>>, width: nat)
    requires |rows| > 0 && RowsClean(rows, width)
    ensures |rows[0]| == width && Clean("td", rows[0]) && RowsClean(rows[1..], width)
  {
    forall i | 0 <= i < |rows| - 1 ensures |rows[1..][i]| == width && Clean("td", rows[1..][i]) {
      assert rows[1..][i] == rows[i + 1];
    }
  }

  /** Reads a rendered table of `ncols` columns and `nrows` rows back into its view. */
  function ReadTable(html: string, ncols: nat, nrows: nat): Option<TableView> {
    if !StartsWith(html, TableHead) then None
    else
      var head :- ReadCells("th", html[|TableHead|..], ncols);
      if !StartsWith(head.1, TableMiddle) then None
      else
        var body :- ReadRows(head.1[|TableMiddle|..], nrows, ncols);
        if body.1 != TableTail then None
        else Some(TableView(head.0, body.0))
  }

  /** A view whose headers avoid "</th>" and whose cells avoid "</td>" reads
      back from its rendering. */
  lemma RenderViewReadsBack(v: TableView)
    requires Clean("th", v.headers) && RowsClean(v.rows, |v.headers|)
    ensures ReadTable(RenderView(v), |v.headers|, |v.rows|) == Some(v)
  {
    var ths := Tagged("th", v.headers);
    var trs := RowsHtml(v.rows);
    var after := TableMiddle + (trs + TableTail);
    assert RenderView(v) == TableHead + (ths + after);
    DropPrefix(TableHead, ths + after);
    ReadCellsBack("th", v.headers, after);
    DropPrefix(TableMiddle, trs + TableTail);
    ReadRowsBack(v.rows, |v.headers|, TableTail);
  }

  lemma DropPrefix(a: string, b: string)
    ensures StartsWith(a + b, a) && (a + b)[|a|..] == b
  {
    assert (a + b)[..|a|] == a;
  }

  /** A non-empty list renders as a table that reads back as its view: the
      header cells are the columns' headers and each row holds the item's
      formatted values, column by column, as long as no header holds "</th>"
      and no formatted value holds "</td>" (the renderer escapes nothing). */
  lemma RenderTableReadsBack(data: seq<Item>, resourceName: string, date: Json -> string)
    requires |data| > 0
    requires forall j :: 0 <= j < |Columns(data)| ==> Avoids(Header(Columns(data)[j]), "</th>")
    requires forall i, j :: 0 <= i < |data| && 0 <= j < |Columns(data)| ==>
               Avoids(FormatValue(Columns(data)[j], Get(data[i], Columns(data)[j]), date), "</td>")
    ensures var v := ReadTable(RenderTableHtml(data, resourceName, date), |Columns(data)|, |data|);
            v.Some? && v.value == BuildView(data, date)
  {
    var v := BuildView(data, date);
    var cols := Columns(data);
    assert Close("th") == "</th>" && Close("td") == "</td>";
    assert Clean("th", v.headers) by {
      forall j | 0 <= j < |v.headers| ensures Avoids(v.headers[j], Close("th")) {
        assert v.headers[j] == Header(cols[j]);
      }
    }
    assert RowsClean(v.rows, |v.headers|) by {
      forall i | 0 <= i < |v.rows| ensures |v.rows[i]| == |v.headers| && Clean("td", v.rows[i]) {
        forall j | 0 <= j < |v.rows[i]| ensures Avoids(v.rows[i][j], Close("td")) {
          assert v.rows[i][j] == FormatValue(cols[j], Get(data[i], cols[j]), date);
        }
      }
    }
    RenderViewReadsBack(v);
  }
}

=== FILE: wrappers.dfy ===
/** Failure-compatible optional values, used wherever the source returns `None`. */
module Wrappers {

  datatype Option<+T> = None | Some(value: T) {

    predicate IsFailure() {
      None?
    }

    function PropagateFailure<U>(): Option<U>
      requires None?
    {
      None
    }

    function Extract(): T
      requires Some?
    {
      value
    }

    function GetOr(default: T): T {
      match this
      case Some(v) => v
      case None => default
    }
  }
}
